=== FILE: README.md ===
# tpg-timetable core, modelled in Dafny

tpg-timetable is a bus-timetable board builder. A user picks stops from the
search.ch schedule service and gets one printable board per stop, showing at
most eleven upcoming departures. Bus-line filters and a time floor narrow
the rows. Boards can be grouped into projects stored on a Convex backend
under free-tier quotas.

This project models the sequential logic of that system:

- **The board state container** (`src/contexts/AppContext.tsx`):
  - boards (pages), line filters, the time floor, the derived rows per board
    and the selected board;
  - the mutators the context exposes;
  - the effect that re-derives every board's rows: cap to the first eleven
    departures, keep rows that some filter admits, keep rows at or after the
    floor.

  React's effect is modelled explicitly. A handler's state updates form one
  batch (`Board.Run`). The batch then runs the effect (`Board.Settle`) when it
  replaced the page or filter array or changed the floor. Those are the
  effect's dependencies, compared by identity.
- **The UI handlers that drive the container**:
  - the toolbar (`Toolbar.tsx`): stop search and selection, filter entry,
    direction choice, time floor, refresh, new board;
  - the board list (`TimetableContainer.tsx`): load, remove, add, print theme
    swap, per-board rows;
  - one board (`TimetablePage.tsx`): export file name, selection toggle;
  - the project list (`Dashboard.tsx`).

  Each handler is one transition. The replies of the services it awaits are
  parameters: a value, or a failure.
- **The schedule helpers** (`src/services/api.ts`):
  - the argument short-circuits of the two requests;
  - the stationboard record transform;
  - the fixed demo schedules.
- **The Convex handlers** (`convex/timetables.ts`, `projects.ts`, `auth.ts`,
  `migrations.ts`) over an abstract store:
  - users in creation order, since `.first()` on an index returns the
    earliest match;
  - projects and timetables keyed by id, with a `nextId` for fresh ids;
  - a thrown `ConvexError` is a `Failure` that leaves the store as it was.

| file | module | models |
|---|---|---|
| wrappers.dfy | Wrappers | `Option` (`undefined`), `Result` (a thrown error or a failed request) |
| strings.dfy | Strings | JavaScript truthiness, `trim`, ASCII `toLowerCase`, `includes`, string `<` |
| domain.dfy | Domain | departures, boards, filters, suggestions (`src/types/index.ts`) |
| derivation.dfy | Derivation | the cap → line filter → time floor pipeline |
| board.dfy | Board | the context's state, mutators, effect and batches |
| api.dfy | Api | `searchStops`, `fetchStationboard`, `getDemoSchedule` |
| toolbar.dfy | Toolbar | the toolbar handlers |
| container.dfy | Container | the board-list handlers |
| page_view.dfy | PageView | export file name, settings toggle |
| dashboard.dfy | Dashboard | the project list |
| store.dfy | Backend | the tables, the identity, index lookups, errors |
| backend_timetables.dfy | Timetables | `convex/timetables.ts` |
| backend_projects.dfy | Projects | `convex/projects.ts` |
| backend_auth.dfy | Auth | `convex/auth.ts` |
| migrations.dfy | Migrations | `convex/migrations.ts` |

Behaviour the code has as written, which the model keeps:

- `setTimetablePages` (used when a project's boards load) does not clear the
  derived rows. The effect then overwrites the entries of boards with data,
  but entries of ids no longer on the board stay. A stricter reading would
  reset all derived rows on a wholesale replace. The model follows the code:
  see `Board.RecomputeOverrides`.
- The derived rows are not written only by the effect. `addTimetablePage`,
  `updateTimetablePage` and `updateFilteredData` store rows verbatim. For an
  id no board carries, those rows stay: see `Board.UpdateMissingPageRun`.
- A stop selection's target is `selectedTimetable || lastPage.id`, so an
  empty-string selection counts as none (`Toolbar.StopTarget`).
- Inside a project, when the server save after a stop selection fails, the
  handler's `catch` writes the demo schedule over the fetched rows
  (`Toolbar.ShownRows`).
- The toolbar's limit flag ignores the premium status it fetches
  (`Toolbar.CheckTimetableLimit`). The board list's add button does consult
  it (`Container.AddTimetable`).
- `convex/projects.ts` finds the caller by email (`identity.email!`), so an
  identity without an email is looked up as "no email". The timetable and
  user handlers look the caller up by token. Only `deleteTimetable` falls
  back to email (`Timetables.OnlyDeleteFallsBackToEmail`).
- `getCurrentUser` is declared as a query, yet tries to patch the token of
  a user it finds by email. A query's database handle only reads, so that
  branch throws and writes nothing (`Auth.GetCurrentUser`). The linking the
  code evidently intends is modelled too (`Auth.GetCurrentUserLinking`); see
  "## Findings".
- Length tests (`term.length < 2`, `value.length > 2`), the file-name
  regular expression and string `<` all work on UTF-16 code units, and the
  model does the same (`Strings.Utf16`).
- `handleCreateProject` checks the trimmed name but sends the untrimmed one
  (`Dashboard.CreateRequest`).

## Model

| member | source | states |
|---|---|---|
| Strings.OrElse | convex/auth.ts:66-67 | JavaScript's logical or on optional strings: the first when it is present and non-empty, otherwise the second |
| Strings.Trim | src/components/Toolbar.tsx:191-194 | `trim()` returns the part of the input left between whitespace-only margins; it starts and ends with non-whitespace and is empty exactly when the input is all whitespace |
| Strings.Lower | src/services/api.ts:74 | `toLowerCase()` keeps the length and lower-cases each ASCII letter, leaving other characters alone |
| Strings.Utf16 | src/services/api.ts:10 | a string's UTF-16 code units number between its characters and twice that, and are the characters themselves when none is above U+FFFF |
| Strings.Utf16Length | src/components/Toolbar.tsx:103 | `length` counts code units: at least the characters, at most twice, equal exactly when no character needs a surrogate pair, and zero exactly for "" |
| Strings.LessIsCodeUnitOrder | src/contexts/AppContext.tsx:125 | the string order used for the time floor is the lexicographic order of the two strings' UTF-16 code units, a proper prefix first |
| Strings.AstralBeforeReplacementChar | src/contexts/AppContext.tsx:125 | code-unit order differs from code-point order: a character above U+FFFF sorts before U+FFFD |
| Strings.Less | src/contexts/AppContext.tsx:125 | string `<`: never holds between equal strings, always puts a proper prefix first, and never puts a string before one of its own prefixes |
| Strings.LessAsymmetric | src/contexts/AppContext.tsx:125 | no two strings are each before the other |
| Strings.AtOrAfter | src/contexts/AppContext.tsx:125 | `item.time >= timeFilter` holds exactly when the time equals the floor or the floor is before it |
| Strings.LessIrreflexive | src/contexts/AppContext.tsx:125 | no string is before itself, so `item.time >= timeFilter` admits a time equal to the floor |
| Strings.LessTransitive | src/contexts/AppContext.tsx:125 | the string order used for the time floor is transitive |
| Strings.LessTotal | src/contexts/AppContext.tsx:125 | any two distinct strings are ordered one way or the other, so `>=` is exactly "not before" |
| Domain.FindPage | src/components/TimetableContainer.tsx:56 | `pages.find(p => p.id === id)` gives the first board with the id, and nothing exactly when no board has it |
| Derivation.Keep | src/contexts/AppContext.tsx:114-125 | `filter` keeps an order-preserving subsequence holding exactly the elements that pass the test, each as many times as it occurs in the input, and drops the others entirely |
| Derivation.KeepKeep | src/contexts/AppContext.tsx:113-126 | filtering by lines and then by time equals one filter by both tests together |
| Derivation.Derive | src/contexts/AppContext.tsx:106-128 | a board's rows number at most eleven, are a subsequence of its first eleven departures, and hold exactly those of them that some filter admits (same line and, when set, same terminal) and that are at or after the floor, each as often as it occurs among the eleven |
| Derivation.DeriveIsFilterOfCapped | src/contexts/AppContext.tsx:107-126 | the two-stage pipeline, with its skipped stages, equals a single filter of the capped rows by visibility |
| Derivation.UnfilteredShowsFirstEleven | src/contexts/AppContext.tsx:110-126 | with no filter and an empty floor a board shows its first min(11, n) departures |
| Derivation.CapBeforeFilter | src/contexts/AppContext.tsx:110-121 | the cap comes first: when none of the first eleven departures matches an active filter the board is empty, whatever follows them |
| Board.MergePage | src/contexts/AppContext.tsx:74 | `{ ...page, ...data }` keeps the id, replaces each supplied field and keeps the rest |
| Board.MergeFilter | src/contexts/AppContext.tsx:97 | `{ ...filter, ...updates }` keeps the id, replaces each supplied field and keeps the rest |
| Board.AddPage | src/contexts/AppContext.tsx:46-58 | `addTimetablePage` appends the given board or the placeholder ('Select a stop...', '', color, []), keeps the others as a prefix, stores its data as its rows without touching other rows, and selects it |
| Board.RemovePage | src/contexts/AppContext.tsx:60-70 | `removeTimetablePage` drops exactly the boards with the id, keeps every other board as often as it occurred and in order (so ids stay unique), forgets that id's rows only, and clears the selection exactly when it pointed at the id |
| Board.KeepUniqueIds | src/contexts/AppContext.tsx:60-70 | filtering the boards never makes two ids equal |
| Board.UpdatePage | src/contexts/AppContext.tsx:72-81 | `updateTimetablePage` merges the patch into the boards with the id only; with data it first stores those rows verbatim under the id |
| Board.SetRows | src/contexts/AppContext.tsx:83-85 | `updateFilteredData` overwrites one id's rows and nothing else |
| Board.AddFilter | src/contexts/AppContext.tsx:87-89 | `addBusFilter` appends, keeping the old filters as a prefix |
| Board.RemoveFilter | src/contexts/AppContext.tsx:91-93 | `removeBusFilter` drops exactly the filters with the id and keeps every other filter as often as it occurred and in order |
| Board.UpdateFilter | src/contexts/AppContext.tsx:95-99 | `updateBusFilter` merges only into the filters with the id; positions are kept |
| Board.Recompute | src/contexts/AppContext.tsx:102-129 | one run of the effect adds an entry for every board with data, each of at most eleven rows, and leaves the entries of other ids as they were |
| Board.Settle | src/contexts/AppContext.tsx:102-129 | the effect changes only the rows map: afterwards every board with data has an entry holding rows, the map's ids are the old ones plus those boards' ids, and entries of other ids are left as they were |
| Board.RecomputeEntry | src/contexts/AppContext.tsx:103-128 | with unique ids, the effect stores under each board's id that board's own derivation |
| Board.RecomputeOverrides | src/contexts/AppContext.tsx:102-130 | the effect only overrides: its result is the old map updated with the entries it writes, so stale entries survive |
| Board.SettleIdempotent | src/contexts/AppContext.tsx:102-130 | running the effect twice gives the same rows as running it once |
| Board.SettleConsistent | src/contexts/AppContext.tsx:102-130 | after the effect, with unique ids, every board with data shows exactly its derivation |
| Board.SettleNeverReintroduces | src/contexts/AppContext.tsx:102-130 | an id with no board and no rows gets no rows from the effect |
| Board.SettleSkipsPagesWithoutData | src/contexts/AppContext.tsx:104 | a board whose data is absent keeps whatever rows it had |
| Board.RunOne | src/contexts/AppContext.tsx:130 | a single update is followed by the effect exactly when it replaces the board or filter array or changes the floor |
| Board.Run | src/contexts/AppContext.tsx:102-130 | a handler's batch applies its updates in order, and when none replaced the board or filter array and the floor ended up the same the effect does not run, so the batch's state is final |
| Board.RunTouchesOnlyRows | src/contexts/AppContext.tsx:102-130 | the effect after a batch changes only the rows map: boards, filters, floor, selection and search term are what the updates left, and when the effect runs every board with data gains an entry and no id is dropped |
| Board.AddFilterRun | src/contexts/AppContext.tsx:87-89 | adding a filter, effect included, appends it and leaves boards, floor, selection and search term alone |
| Board.AddDefaultPageRun | src/contexts/AppContext.tsx:46-58 | adding the placeholder board, effect included, appends it, selects it and gives it no rows |
| Board.SetPagesRun | src/contexts/AppContext.tsx:39-130 | `setTimetablePages`, effect included, installs the given boards, leaves filters, floor and selection alone, and with unique ids leaves every board showing its derivation |
| Board.RemovePageRun | src/contexts/AppContext.tsx:60-70 | removing a board, effect included, leaves no board and no rows under its id, and a later effect run does not bring them back |
| Board.UpdateWithRowsRun | src/contexts/AppContext.tsx:72-85 | a handler's "page update with rows, then `updateFilteredData`" batch leaves the board's derivation of the new rows when a board has the id (ids unique), and the rows verbatim when none has |
| Board.UpdatePageKeepsIds | src/contexts/AppContext.tsx:73-75 | updating boards never changes which id sits where, so unique ids stay unique |
| Board.RunConsistent | src/contexts/AppContext.tsx:102-130 | any batch that replaces the board or filter array and leaves ids unique leaves every board showing its own derivation |
| Board.UpdateMissingPageRun | src/contexts/AppContext.tsx:72-81 | new data for an id no board carries is kept verbatim in the rows map |
| Board.RemoveAddedFilter | src/contexts/AppContext.tsx:87-93 | removing a just-added filter with a fresh id restores the filter list |
| Board.RemoveAddedPage | src/contexts/AppContext.tsx:55-61 | removing a just-added board with a fresh id restores the board list |
| Api.SearchStops | src/services/api.ts:9-26 | `searchStops` sends a request exactly for terms of two or more code units; short terms and failures give [], otherwise the reply's data or [] |
| Api.SecondToken | src/services/api.ts:59 | `split(' ')[1]` exists exactly when the stamp has a space, and is then the text that starts right after the first space and runs up to the next space or the end |
| Api.IndexOf | src/services/api.ts:59 | the first space `split(' ')` cuts at: the earliest position holding the character, with none before it, or nothing exactly when the text has none |
| Api.ExtractTime | src/services/api.ts:59 | the second token when it is non-empty, otherwise the stamp itself (no space, or an empty second token) |
| Api.ExtractTimeOfStamp | src/services/api.ts:59 | a "date time ..." stamp yields exactly its time field |
| Api.ToRows | src/services/api.ts:58-62 | the transform makes one row per connection, in order, with the extracted time, the line as bus number and the terminal as destination |
| Api.FetchStationboard | src/services/api.ts:31-67 | `fetchStationboard` gives [] for an empty stop id and for a failed request, and otherwise one row per connection with line and terminal carried over |
| Api.DemoSchedule | src/services/api.ts:72-116 | a name containing "bouchet" (ASCII case-insensitive) gets 11 rows, all line 10, before the airport test; "airport" or "aéroport" gets 10; any other name gets 9, three of them line 12; every dataset is non-empty and ordered by time |
| Api.BouchetDemoOrdered | src/services/api.ts:75-87 | the Bouchet times strictly increase |
| Api.BouchetDemoClock | src/services/api.ts:75-87 | the Bouchet times are zero-padded HH:MM |
| Api.BouchetDemoFacts | src/services/api.ts:75-87 | the Bouchet dataset has 11 ordered rows, all line 10 |
| Api.AirportDemoOrdered | src/services/api.ts:91-102 | the airport times strictly increase |
| Api.AirportDemoClock | src/services/api.ts:91-102 | the airport times are zero-padded HH:MM |
| Api.AirportDemoFacts | src/services/api.ts:91-102 | the airport dataset has 10 ordered rows |
| Api.DefaultDemoOrdered | src/services/api.ts:106-116 | the default times strictly increase |
| Api.DefaultDemoClock | src/services/api.ts:106-116 | the default times are zero-padded HH:MM |
| Api.DefaultDemoLineTwelve | src/services/api.ts:106-116 | exactly three default rows are on line 12 |
| Api.DefaultDemoFacts | src/services/api.ts:106-116 | the default dataset has 9 ordered rows, three on line 12 |
| Api.ClockOrderedIsSorted | src/services/api.ts:75-116 | in a time-ordered schedule every earlier row is strictly earlier than every later one |
| Toolbar.CheckTimetableLimit | src/components/Toolbar.tsx:84-96 | once permissions arrive the add flag is down exactly when three or more boards exist, whatever the premium status; a failed request leaves it as it was |
| Toolbar.LimitEffect | src/components/Toolbar.tsx:45-49 | the limit check runs only inside a project and changes nothing but the flag |
| Toolbar.SearchChange | src/components/Toolbar.tsx:99-115 | the input follows the keystrokes; more than two code units fetch and show suggestions, anything shorter clears and hides them |
| Toolbar.SubmitChoice | src/components/Toolbar.tsx:181-188 | a submit picks the first suggestion, else the non-empty raw input as a label, and nothing exactly when both are missing |
| Toolbar.StopTarget | src/components/Toolbar.tsx:123 | the target is the selection when truthy, else the last board's id when truthy, and missing exactly when neither is |
| Toolbar.RowsOrDemo | src/components/Toolbar.tsx:143-146 | an empty fetch is replaced by the stop's demo schedule, so the rows written are never empty |
| Toolbar.WriteStop | src/components/Toolbar.tsx:148-154 | writing a stop to the target sets name, id and data on the boards with that id only, and leaves that board's derivation of the rows (ids unique), or the rows verbatim when no board has the id |
| Toolbar.ShownRows | src/components/Toolbar.tsx:137-175 | the rows left on the target are the fetched ones or the demo schedule, and the demo schedule when a save inside a project failed |
| Toolbar.SelectIntoTarget | src/components/Toolbar.tsx:137-178 | the fetch path updates only the target's boards, with the shown rows derived under the target's id |
| Toolbar.HandleStopSelection | src/components/Toolbar.tsx:118-179 | a selection sets the input, search term and hidden suggestions; without a target it appends a new selected board for the stop with no rows fetched; otherwise it writes the shown rows to the target |
| Toolbar.AddBusFilterFromInput | src/components/Toolbar.tsx:393-400 | a filter is added only when the trimmed input is non-empty; its number is the trimmed input and the input is cleared; a blank input changes nothing |
| Toolbar.BusInputKeyDown | src/components/Toolbar.tsx:190-198 | Enter behaves as the Add button; any other key changes nothing |
| Toolbar.FilterSettings | src/components/Toolbar.tsx:200-202 | the filter's direction menu opens exactly when it was not the open one |
| Toolbar.FilterSettingsTwice | src/components/Toolbar.tsx:200-202 | opening and closing the same menu restores the closed state |
| Toolbar.DirectionSelect | src/components/Toolbar.tsx:204-207 | choosing a direction sets it on the filters with that id only and closes the menu |
| Toolbar.AllDirectionsAdmitsAll | src/components/Toolbar.tsx:442-446 | "All Directions" sets the direction to '', after which the filter admits every terminal of its line |
| Toolbar.TimeFilterChange | src/components/Toolbar.tsx:209-213 | the input and the floor take the value; a changed floor leaves every board showing its derivation (ids unique) |
| Toolbar.UpdateFilters | src/components/Toolbar.tsx:215-251 | without a truthy selection, a board with that id or a stop id nothing happens; otherwise the selected board gets the fetched rows or its demo schedule, derived under its id |
| Toolbar.NewPage | src/components/Toolbar.tsx:253-297 | inside a project the button is refused when the flag is down and adds the saved record (data defaulting to []) otherwise, adding nothing when the save fails; outside a project it adds a selected "Demo Stop" board with the demo schedule |
| Toolbar.SubmitAfterSearch | src/components/Toolbar.tsx:99-188 | typing then submitting: past two code units the suggestions are the server's reply (none when the request failed or had no data), and a submit takes the first of them, or the typed text when there is none; at two or fewer it takes the typed text, or nothing when the input is empty |
| Toolbar.NewPageWithinLimit | src/components/Toolbar.tsx:84-96 | inside a project, once permissions arrive, adding a board never takes three or fewer past three, and a premium caller is treated like a free one |
| Container.LoadTimetables | src/components/TimetableContainer.tsx:31-40 | the server's boards replace the local ones only when the list is non-empty; an empty list or a failure leaves them alone; with unique ids every loaded board then shows its derivation |
| Container.HandleRemovePage | src/components/TimetableContainer.tsx:42-53 | the boards with the id and its rows go locally whatever the server says; every other board stays as often as it occurred and in order; a surviving selection, the search term, the filters and the floor are kept; with unique ids every remaining board shows its derivation and other rows stay; a failed delete inside a project only raises a notice |
| Container.BeginPrint | src/components/TimetableContainer.tsx:55-61 | printing an unknown id changes nothing; otherwise the board takes the print theme and its original theme is kept |
| Container.EndPrint | src/components/TimetableContainer.tsx:67-69 | the delayed step puts the given theme back on the boards with the id only |
| Container.PrintRestoresPages | src/components/TimetableContainer.tsx:55-71 | printing and then restoring gives back the boards exactly as they were (ids unique) |
| Container.ThemeChange | src/components/TimetableContainer.tsx:73-83 | a theme change touches only the theme of the boards with the id |
| Container.ThemeChangeUndone | src/components/TimetableContainer.tsx:73-83 | changing a board's theme and then back to the one it had gives back the boards as they were (ids unique) |
| Container.AddTimetable | src/components/TimetableContainer.tsx:85-111 | inside a project a permissions failure or a free account with three boards adds nothing; otherwise, and outside a project, a selected placeholder board is appended |
| Container.FreeAccountsStayWithinLimit | src/components/TimetableContainer.tsx:88-93 | a free account never gets past three boards through this handler |
| Container.RemovingAddedBoardRestoresPages | src/components/TimetableContainer.tsx:42-111 | removing the board just added under a fresh id gives back the boards as they were, whichever branch the add took |
| Container.PageRows | src/components/TimetableContainer.tsx:138 | a board is given its stored rows, or [] when there are none |
| Container.PageRowsAfterSettle | src/components/TimetableContainer.tsx:138 | after the effect each board with data is given at most eleven rows drawn in order from its first eleven |
| PageView.SafeStopName | src/components/TimetablePage.tsx:45 | the regular expression has no `u` flag, so it works per UTF-16 code unit: the result has as many characters as the name has code units, only `[a-z0-9_]`; for a name without surrogate pairs, an underscore exactly where the name has a non-alphanumeric character and the lower-cased character elsewhere |
| PageView.SafeStopNameIdempotent | src/components/TimetablePage.tsx:45 | sanitising a sanitised name changes nothing |
| PageView.SafeStopNameAppend | src/components/TimetablePage.tsx:45 | the replacement is per code unit, so sanitising two pieces and joining them equals sanitising the whole |
| PageView.EmojiBecomesTwoUnderscores | src/components/TimetablePage.tsx:45 | a character above U+FFFF (a bus emoji) becomes two underscores |
| PageView.EmojiStopName | src/components/TimetablePage.tsx:45 | "Bus " followed by a bus emoji sanitises to "bus___" |
| PageView.DownloadNameShowsSafeName | src/components/TimetablePage.tsx:46 | a non-empty stop name's file name contains "timetable-" followed by its sanitised name |
| PageView.DownloadName | src/components/TimetablePage.tsx:46 | the file name is "timetable-", the sanitised name or "export" exactly when the stop name is empty, then ".png" |
| PageView.TestStopSafeName | src/__tests__/TimetablePage.test.tsx:105 | "Test Stop" sanitises to "test_stop" |
| PageView.TestStopDownloadName | src/__tests__/TimetablePage.test.tsx:105 | the export of "Test Stop" is named with "timetable-test_stop" in it |
| PageView.ToggleSelection | src/components/TimetablePage.tsx:196 | the settings button selects this board, or deselects it exactly when it was the selected one, changing nothing else |
| PageView.ToggleTwice | src/components/TimetablePage.tsx:181-196 | pressing the button twice on the selected board gives the selection back |
| Dashboard.OpenDialog | src/components/Dashboard.tsx:136-155 | the "New Project" button opens the dialog only while the project list is empty |
| Dashboard.CreateRequest | src/components/Dashboard.tsx:45-51 | a blank or whitespace-only name sends nothing; otherwise the name is sent as typed |
| Dashboard.CreateProject | src/components/Dashboard.tsx:44-59 | a blank name or a failure leaves everything; a created project goes first in the list and the field and dialog reset |
| Dashboard.CreateClosesCreation | src/components/Dashboard.tsx:90 | once a project is created, creation is no longer offered |
| Dashboard.DeleteProject | src/components/Dashboard.tsx:61-71 | after confirmation and a successful delete exactly the projects with that id leave the list and every other stays as often as it occurred, in order; cancel or failure leaves it |
| Dashboard.DeleteUndoesCreate | src/components/Dashboard.tsx:44-71 | deleting a project right after creating it, when no listed project shared its id, gives back the list there was |
| Backend.UserByToken | convex/timetables.ts:13-16 | the token index's `.first()`: the earliest user with the token, and none exactly when no user has it |
| Backend.UserByEmail | convex/projects.ts:13-16 | the email index's `.first()`: the earliest user whose email field equals the one asked for, and none exactly when no user has it |
| Backend.TimetablesOf | convex/timetables.ts:28-31 | the `by_project` index: exactly the timetables of the project |
| Backend.ProjectsOf | convex/projects.ts:22-25 | the `by_user` index: exactly the projects of the user |
| Timetables.CallerByToken | convex/timetables.ts:8-20 | no identity fails "Not authenticated"; no user with the token fails "User not found"; otherwise the earliest such user |
| Timetables.GetTimetables | convex/timetables.ts:5-38 | fails as the caller lookup does ("Not authenticated", "User not found"); then succeeds exactly for the project's owner and returns exactly the project's timetables; a missing or foreign project fails |
| Timetables.AddTimetable | convex/timetables.ts:41-97 | caller errors as the lookup gives them; a non-owner is refused; the owner is refused exactly when the project has three or more timetables and they are not premium, and succeeds otherwise, with exactly one timetable inserted under a fresh id, data defaulting to [] |
| Timetables.PremiumNeverLimited | convex/timetables.ts:78-80 | a premium owner is never refused on count |
| Timetables.AddedTimetableIsListed | convex/timetables.ts:5-97 | after a successful add, listing the project succeeds and shows the earlier timetables plus exactly the new id, holding the inserted document |
| Timetables.MergeTimetable | convex/timetables.ts:136 | `patch` replaces exactly the supplied fields; project and creation time stay |
| Timetables.EmptyPatchIsIdentity | convex/timetables.ts:136 | an empty update changes nothing |
| Timetables.AuthorizeTimetable | convex/timetables.ts:111-134 | the guards in order with their errors: "Not authenticated", "Timetable not found", "Project not found", then "Not authorized" for a missing or foreign caller; passing exactly when all hold |
| Timetables.UpdateTimetable | convex/timetables.ts:100-138 | succeeds exactly when the token-found caller owns the timetable's project, and then patches that timetable only; every refusal carries the error of the first failing guard |
| Timetables.UpdatedTimetableIsListed | convex/timetables.ts:100-138 | after an update the owner's list of the project has the same timetables, the updated one merged with the patch and the others unchanged |
| Timetables.DeletingUser | convex/timetables.ts:160-172 | the deleter is found by token, and by email only when that fails and the identity has a non-empty email |
| Timetables.DeleteTimetable | convex/timetables.ts:141-180 | succeeds exactly when the caller owns the timetable's project and then removes exactly that timetable; every refusal carries the error of the first failing guard |
| Timetables.OnlyDeleteFallsBackToEmail | convex/timetables.ts:166-172 | an owner known only by email can delete the timetable but is refused an update |
| Projects.CallerByEmail | convex/projects.ts:8-20 | no identity fails "Not authenticated"; no user with the email fails "User not found"; otherwise the earliest such user |
| Projects.GetProjects | convex/projects.ts:5-32 | returns exactly the caller's projects |
| Projects.GetProject | convex/projects.ts:35-63 | returns the project when the caller owns it, and "Project not found" otherwise |
| Projects.GetProjectHidesExistence | convex/projects.ts:52-56 | a missing project and someone else's give the same answer |
| Projects.CreateProject | convex/projects.ts:66-106 | caller errors as the lookup gives them; refused exactly for a free caller who already has a project, and succeeds otherwise, with exactly one project with the given name and the caller as owner inserted under a fresh id |
| Projects.CreatedProjectIsListed | convex/projects.ts:5-106 | after a successful create, the caller's list shows the earlier projects plus exactly the new id, holding the new project |
| Projects.FreeAccountsKeepOneProject | convex/projects.ts:84-97 | a free caller who succeeds had no project and ends with exactly one |
| Projects.DeleteProject | convex/projects.ts:109-145 | succeeds exactly for the owner; then the project and all its timetables are gone, every other project, timetable and user is untouched, ids are never reissued, and a well-formed store stays well-formed |
| Projects.DeletedProjectIsGone | convex/projects.ts:35-145 | after a successful delete, asking for the project gives "Project not found", the owner's list loses exactly it, and listing its timetables fails for anyone |
| Projects.GetUserPermissions | convex/projects.ts:147-170 | the email-found caller's id, premium flag and creation time |
| Projects.SameUserSamePermissions | convex/projects.ts:147-170 | when the token and the email find the same user, this query and the token-based one in `convex/auth.ts` report the same id, premium flag and creation time |
| Auth.NameOrAnonymous | convex/auth.ts:77 | the identity's name when truthy, otherwise "Anonymous" |
| Auth.EmailOrEmpty | convex/auth.ts:78 | the identity's email when truthy, otherwise "" |
| Auth.TokenFindsFirstHolder | convex/auth.ts:14-17 | a user holding the token with no earlier holder is the one the token lookup finds |
| Auth.GetCurrentUser | convex/auth.ts:5-38 | no identity gives null; a token match wins; failing that, a non-empty email finds the earliest user with it, returned as is when it has a token; when it has none the query's attempt to patch throws, and only that path fails |
| Auth.GetCurrentUserLinking | convex/auth.ts:5-38 | the lookup the code evidently means: as the query, except that a user found by email without a token is given the identity's token and returned linked; only that link changes the store |
| Auth.QueryThrowsExactlyWhereLinkWrites | convex/auth.ts:26-33 | the query as written returns what the linking lookup returns wherever that writes nothing, and fails exactly where it would write |
| Auth.LegacyUserLookupThrows | convex/auth.ts:20-33 | a token-less user found by email makes the query throw, where the linking lookup returns the user with the token attached |
| Auth.LinkedUserFoundByToken | convex/auth.ts:26-33 | for the intended linking lookup: once a user is returned, asking again returns the same user and writes nothing |
| Auth.StoreUser | convex/auth.ts:41-95 | no identity fails; a user found by email gets the token and keeps name and avatar where the identity lacks them; a user found by token is overwritten with defaults; otherwise one free user is inserted |
| Auth.StoreUserTwiceInsertsOnce | convex/auth.ts:49-82 | storing the same identity twice inserts at most once and returns the same id |
| Auth.NewUsersAreFree | convex/auth.ts:84-91 | an inserted user is not premium, named "Anonymous" and with email "" by default |
| Auth.GetUserPermissions | convex/auth.ts:98-125 | the token-found caller's profile, or "User not found" |
| Auth.StoredUserHasPermissions | convex/auth.ts:41-125 | right after `storeUser`, the permissions query finds the stored user under the id `storeUser` returned |
| Migrations.MigrateUser | convex/migrations.ts:15-24 | a user with no truthy token and a truthy email gets the token "email" + a bar + the email; any other user is unchanged; either way no token is then needed |
| Migrations.MigrateUsersToTokenIdentifier | convex/migrations.ts:5-33 | every user is migrated in place, the report counts all users and exactly the patched ones, and a second run would patch none |
| Migrations.Keeper | convex/migrations.ts:44-58 | the user the loop holds for an email has that email |
| Migrations.KeeperIsNewest | convex/migrations.ts:46-56 | the held user is the newest of its email (earlier ones strictly older, ties to the first), and one is held exactly when some user has the email |
| Migrations.NewestIsUnique | convex/migrations.ts:49 | at most one user of an email is the newest |
| Migrations.KeeperStep | convex/migrations.ts:46-57 | one more user takes over an email exactly when it has it and is strictly newer than the one held |
| Migrations.ScanStep | convex/migrations.ts:44-59 | one turn of the loop: a user without a truthy email changes nothing; otherwise its email becomes held, a first occurrence is held without marking anyone, and on a repeat the count grows by one, a strictly newer user takes over and marks the one held, and an older or equally old user is marked itself |
| Migrations.ScanStepKeeps | convex/migrations.ts:44-59 | one turn of the loop keeps the held map, the duplicate list and its count accurate for the users seen |
| Migrations.ScanFinished | convex/migrations.ts:44-66 | after the loop the held emails are the distinct truthy emails, and a user with one is a duplicate exactly when it is not the newest |
| Migrations.CleanupDuplicateUsers | convex/migrations.ts:36-68 | deletes exactly the users with a truthy email that are not the newest of it, never a user without one, leaves no two users sharing an email, and reports users-with-email minus distinct emails |

## Left out

- Network and service I/O: the search.ch requests, the Convex client calls
  and the auth provider. Their replies, or failures, are parameters of the
  handlers.
- Timers and ordering: the two-second refresh debounce and the print
  delays. Printing is two steps (`Container.BeginPrint`,
  `Container.EndPrint`). React's asynchronous batching and the order in which
  concurrent replies arrive are also left out. Each handler is one atomic
  transition, so stale replies are not modelled.
- Rendering: JSX, CSS, toasts, `isUpdating` spinners and the static pages.
  The print HTML generator, `html2canvas`, `window.print`, `window.open` and
  `handlePrintAllPDF` all produce output only.
- `Date.now()` ids and timestamps: fresh ids and times are parameters. The
  ISO date strings the handlers return are dropped, as are the Auth0 and
  Supabase wiring and the session handling.
- Character handling: case folding is ASCII only, so 'é' in "aéroport" is
  compared literally. Strings are sequences of Unicode characters. Length
  tests, the file-name regular expression and `<` are stated over their
  UTF-16 code units (`Strings.Utf16`), so they agree with JavaScript. A lone
  surrogate cannot occur in a Dafny string and is not modelled.
- PageView.SafeStopName: the per-position statement (underscore exactly at
  non-alphanumeric characters) is given for names without surrogate pairs.
  For other names the contract gives the length in code units and the
  allowed characters, and `PageView.EmojiStopName` shows a worked case.
- Collection order: `.collect()` results are modelled as maps keyed by id,
  so their order is not modelled.
- Dead or inconsistent files:
  - `src/services/storage.ts` only throws.
  - `convex/_generated/api.ts` is a placeholder.
  - `src/services/projects.ts` and `src/services/timetables.ts` call
    functions that do not exist.
  - `Toolbar.tsx:6`, `TimetableContainer.tsx:6` and `Dashboard.tsx:3`
    import `ProjectService` from `src/services/projects.ts`, which exports
    only `useProjects`, `useCreateProject` and `useDeleteProject`. Every
    reply these handlers await from `ProjectService` (permissions, saves,
    deletes, loads) is therefore an assumption of the model: it is taken
    to be what the matching Convex handler returns, passed in as a
    parameter that may be a success or a failure.
  - `convex/schema.ts` names fields differently from the handlers.
  - `convex/users.ts` is a trivial insert and lookup.
- Migration failures: `migrateUsersToTokenIdentifier` catches a failed patch
  and then counts nothing. Patches are modelled as always succeeding.
- Migrations.CleanupDuplicateUsers: returns the positions to delete rather
  than the table without them, since the deletes are plain removals.
- Api.DemoSchedule: states each dataset's size, its line counts and its time
  ordering, not its rows. The rows are the constants `BouchetDemo`,
  `AirportDemo` and `DefaultDemo`, transcribed from the source.
- Api.FetchStationboard: states the count, the line and the terminal of each
  row. The time of each row is stated by `Api.ToRows`.
- Board.Recompute: with duplicate board ids the last board with data wins,
  and this is not stated. The per-board statements assume unique ids, which
  the server guarantees for stored boards.
- Board.UpdateWithRowsRun: the duplicate-id case is not stated, for the same
  reason.
- Migrations.Keeper: its contract says only that the held user has the
  email. `Migrations.KeeperIsNewest` states which user it is.

## Findings

| source | as written | input that shows it | evidently intended | confidence | as-written member | corrected member |
|---|---|---|---|---|---|---|
| convex/auth.ts:5-33 | `getCurrentUser` is a `query` but calls `ctx.db.patch` to link a token to a user found by email; a query's database handle has no `patch`, so that branch throws | a stored user with email "a@x" and no token, and an identity with token "t" and email "a@x" | link the token and return the linked user, as a mutation would (or do the linking in `storeUser` only) | not executed | Auth.GetCurrentUser, Auth.LegacyUserLookupThrows | Auth.GetCurrentUserLinking, Auth.LinkedUserFoundByToken |

=== FILE: api.dfy ===
/** The schedule service wrappers (src/services/api.ts): the argument
    short-circuits of the two requests, the stationboard record transform,
    and the fixed demo schedules used when no real schedule is available.
    The HTTP exchange itself is an input: its reply, or a failure. */
module Api {
  import opened Wrappers
  import opened Strings
  import opened Domain

  /** `searchStops` sends a request only for terms of two or more code units. */
  predicate SearchSendsRequest(term: string) {
    !(term == "" || Utf16Length(term) < 2)
  }

  /** `searchStops(term)` given the completion reply (absent data is `[]`);
      a failed request also yields `[]`. */
  function SearchStops(term: string, reply: Result<Option<seq<Suggestion>>, string>): (r: seq<Suggestion>)
    ensures !SearchSendsRequest(term) ==> r == []
    ensures reply.Failure? ==> r == []
    ensures SearchSendsRequest(term) && reply.Success? && reply.value.Some? ==> r == reply.value.value
    ensures Utf16Length(term) >= 2 <==> SearchSendsRequest(term)
  {
    if !SearchSendsRequest(term) then []
    else match reply
      case Failure(_) => []
      case Success(data) => data.GetOr([])
  }

  /** One stationboard connection, reduced to the fields the transform reads. */
  datatype Connection = Connection(time: string, line: string, terminalName: string)

  /** The first index of `c` in `s`. */
  function IndexOf(s: string, c: char): (r: Option<nat>)
    ensures r.Some? ==> r.value < |s| && s[r.value] == c && forall j :: 0 <= j < r.value ==> s[j] != c
    ensures r.None? ==> forall j :: 0 <= j < |s| ==> s[j] != c
  {
    if |s| == 0 then None
    else if s[0] == c then Some(0)
    else match IndexOf(s[1..], c)
      case None => None
      case Some(k) => Some(k + 1)
  }

  /** `s.split(' ')[1]`: the text between the first and the second space
      (or the end); absent when `s` has no space. */
  function SecondToken(s: string): (r: Option<string>)
    ensures r.None? <==> ' ' !in s
    ensures r.Some? ==> ' ' !in r.value
    ensures r.Some? ==>
      var start := IndexOf(s, ' ').value + 1;
      && start + |r.value| <= |s|
      && s[start..start + |r.value|] == r.value
      && (start + |r.value| == |s| || s[start + |r.value|] == ' ')
  {
    match IndexOf(s, ' ')
    case None => None
    case Some(i) =>
      var rest := s[i + 1..];
      match IndexOf(rest, ' ')
      case None => Some(rest)
      case Some(k) => Some(rest[..k])
  }

  /** `time.split(' ')[1] || time`: the time part of a "date time" stamp,
      or the whole stamp when there is no non-empty second token. */
  function ExtractTime(stamp: string): (r: string)
    ensures ' ' !in stamp ==> r == stamp
    ensures r != stamp ==> r != "" && ' ' !in r
    ensures ' ' in stamp ==>
      && (SecondToken(stamp).value == "" ==> r == stamp)
      && (SecondToken(stamp).value != "" ==> r == SecondToken(stamp).value)
  {
    match SecondToken(stamp)
    case Some(token) => if token != "" then token else stamp
    case None => stamp
  }

  /** The stamp the service sends, "date time" possibly followed by more
      space-separated fields, yields its time. */
  lemma ExtractTimeOfStamp(date: string, time: string, tail: string)
    requires ' ' !in date && ' ' !in time && time != ""
    requires tail == [] || tail[0] == ' '
    ensures ExtractTime(date + " " + time + tail) == time
  {
    var s := date + " " + time + tail;
    assert s[|date|] == ' ';
    assert forall j :: 0 <= j < |date| ==> s[j] == date[j];
    assert IndexOf(s, ' ') == Some(|date|);
    var rest := s[|date| + 1..];
    assert rest == time + tail;
    assert forall j :: 0 <= j < |time| ==> rest[j] == time[j];
    if tail != [] {
      assert rest[|time|] == ' ';
      assert IndexOf(rest, ' ') == Some(|time|);
      assert rest[..|time|] == time;
    } else {
      assert rest == time;
      assert IndexOf(rest, ' ').None?;
    }
    assert SecondToken(s) == Some(time);
  }

  /** The stationboard transform: one row per connection, in order, with the
      line as bus number and the terminal as destination. */
  function ToRows(connections: seq<Connection>): (r: seq<Departure>)
    ensures |r| == |connections|
    ensures forall i :: 0 <= i < |r| ==>
      && r[i].time == ExtractTime(connections[i].time)
      && r[i].busNumber == connections[i].line
      && r[i].destination == connections[i].terminalName
  {
    seq(|connections|, i requires 0 <= i < |connections| =>
      Departure(ExtractTime(connections[i].time), connections[i].line, connections[i].terminalName))
  }

  /** `fetchStationboard(stopId)` given the service's reply: `[]` for an
      empty stop id (no request) and for a failed request. */
  function FetchStationboard(stopId: string, reply: Result<seq<Connection>, string>): (r: seq<Departure>)
    ensures stopId == "" ==> r == []
    ensures reply.Failure? ==> r == []
    ensures stopId != "" && reply.Success? ==> |r| == |reply.value|
    ensures stopId != "" && reply.Success? ==> forall i :: 0 <= i < |r| ==>
      r[i].busNumber == reply.value[i].line && r[i].destination == reply.value[i].terminalName
  {
    if stopId == "" then []
    else match reply
      case Failure(_) => []
      case Success(connections) => ToRows(connections)
  }

  // ---------------------------------------------------------------------
  // Demo schedules.
  // ---------------------------------------------------------------------

  const Airport := "Genève-Aéroport, Terminal"
  const Rive := "Genève, Rive"

  const BouchetDemo: seq<Departure> := [
    Departure("06:42", "10", Airport), Departure("06:43", "10", Rive),
    Departure("06:51", "10", Airport), Departure("06:58", "10", Rive),
    Departure("07:00", "10", Airport), Departure("07:10", "10", Airport),
    Departure("07:12", "10", Rive), Departure("07:17", "10", Airport),
    Departure("07:20", "10", Rive), Departure("07:27", "10", Airport),
    Departure("07:29", "10", Rive)
  ]

  const AirportDemo: seq<Departure> := [
    Departure("08:05", "5", "Thônex-Vallard"), Departure("08:10", "10", "Rive"),
    Departure("08:15", "5", "Nations"), Departure("08:20", "10", "Rive"),
    Departure("08:25", "5", "Thônex-Vallard"), Departure("08:30", "10", "Rive"),
    Departure("08:35", "5", "Nations"), Departure("08:40", "10", "Rive"),
    Departure("08:45", "5", "Thônex-Vallard"), Departure("08:50", "28", "Jardin Botanique")
  ]

  const DefaultDemo: seq<Departure> := [
    Departure("09:05", "12", "Central Station"), Departure("09:15", "7", "City Hall"),
    Departure("09:25", "12", "Central Station"), Departure("09:30", "15", "University"),
    Departure("09:45", "7", "City Hall"), Departure("10:00", "12", "Central Station"),
    Departure("10:15", "7", "City Hall"), Departure("10:30", "15", "University"),
    Departure("10:45", "7", "City Hall")
  ]

  predicate IsDigit(c: char) {
    '0' <= c <= '9'
  }

  /** A zero-padded 24-hour "HH:MM" time. */
  predicate IsClockTime(t: string) {
    && |t| == 5 && IsDigit(t[0]) && IsDigit(t[1]) && t[2] == ':' && IsDigit(t[3]) && IsDigit(t[4])
    && (t[0] < '2' || (t[0] == '2' && t[1] < '4'))
    && t[3] < '6'
  }

  /** Well-formed times, each strictly later than the one before it. */
  predicate ClockOrdered(rows: seq<Departure>) {
    && (forall i :: 0 <= i < |rows| ==> IsClockTime(rows[i].time))
    && (forall i :: 0 < i < |rows| ==> Less(rows[i - 1].time, rows[i].time))
  }

  /** The number of rows on a line. */
  function CountLine(rows: seq<Departure>, line: string): nat {
    if |rows| == 0 then 0
    else (if rows[0].busNumber == line then 1 else 0) + CountLine(rows[1..], line)
  }

  /** `getDemoSchedule(stopName)`: an ASCII case-insensitive substring match
      picks the dataset, "bouchet" taking precedence over the airport
      names. Every dataset is non-empty and ordered by time. */
  function DemoSchedule(stopName: string): (r: seq<Departure>)
    ensures Contains(Lower(stopName), "bouchet") ==>
      |r| == 11 && forall i :: 0 <= i < |r| ==> r[i].busNumber == "10"
    ensures !Contains(Lower(stopName), "bouchet")
            && (Contains(Lower(stopName), "airport") || Contains(Lower(stopName), "aéroport")) ==>
      |r| == 10
    ensures !Contains(Lower(stopName), "bouchet") && !Contains(Lower(stopName), "airport")
            && !Contains(Lower(stopName), "aéroport") ==>
      |r| == 9 && CountLine(r, "12") == 3
    ensures |r| > 0 && ClockOrdered(r)
  {
    BouchetDemoFacts();
    AirportDemoFacts();
    DefaultDemoFacts();
    var name := Lower(stopName);
    if Contains(name, "bouchet") then BouchetDemo
    else if Contains(name, "airport") || Contains(name, "aéroport") then AirportDemo
    else DefaultDemo
  }

  lemma BouchetDemoEarlyOrdered()
    ensures forall i :: 0 < i < 6 ==> Less(BouchetDemo[i - 1].time, BouchetDemo[i].time)
  {
  }

  lemma BouchetDemoLateOrdered()
    ensures forall i :: 6 <= i < |BouchetDemo| ==> Less(BouchetDemo[i - 1].time, BouchetDemo[i].time)
  {
  }

  lemma BouchetDemoOrdered()
    ensures forall i :: 0 < i < |BouchetDemo| ==> Less(BouchetDemo[i - 1].time, BouchetDemo[i].time)
  {
    BouchetDemoEarlyOrdered();
    BouchetDemoLateOrdered();
  }

  lemma BouchetDemoClock()
    ensures forall i :: 0 <= i < |BouchetDemo| ==> IsClockTime(BouchetDemo[i].time)
  {
  }

  lemma BouchetDemoFacts()
    ensures |BouchetDemo| == 11 && ClockOrdered(BouchetDemo)
    ensures forall i :: 0 <= i < |BouchetDemo| ==> BouchetDemo[i].busNumber == "10"
  {
    BouchetDemoOrdered();
    BouchetDemoClock();
  }

  lemma AirportDemoEarlyOrdered()
    ensures forall i :: 0 < i < 5 ==> Less(AirportDemo[i - 1].time, AirportDemo[i].time)
  {
  }

  lemma AirportDemoLateOrdered()
    ensures forall i :: 5 <= i < |AirportDemo| ==> Less(AirportDemo[i - 1].time, AirportDemo[i].time)
  {
  }

  lemma AirportDemoOrdered()
    ensures forall i :: 0 < i < |AirportDemo| ==> Less(AirportDemo[i - 1].time, AirportDemo[i].time)
  {
    AirportDemoEarlyOrdered();
    AirportDemoLateOrdered();
  }

  lemma AirportDemoClock()
    ensures forall i :: 0 <= i < |AirportDemo| ==> IsClockTime(AirportDemo[i].time)
  {
  }

  lemma AirportDemoFacts()
    ensures |AirportDemo| == 10 && ClockOrdered(AirportDemo)
  {
    AirportDemoOrdered();
    AirportDemoClock();
  }

  lemma DefaultDemoEarlyOrdered()
    ensures forall i :: 0 < i < 5 ==> Less(DefaultDemo[i - 1].time, DefaultDemo[i].time)
  {
  }

  lemma DefaultDemoLateOrdered()
    ensures forall i :: 5 <= i < |DefaultDemo| ==> Less(DefaultDemo[i - 1].time, DefaultDemo[i].time)
  {
  }

  lemma DefaultDemoOrdered()
    ensures forall i :: 0 < i < |DefaultDemo| ==> Less(DefaultDemo[i - 1].time, DefaultDemo[i].time)
  {
    DefaultDemoEarlyOrdered();
    DefaultDemoLateOrdered();
  }

  lemma DefaultDemoClock()
    ensures forall i :: 0 <= i < |DefaultDemo| ==> IsClockTime(DefaultDemo[i].time)
  {
  }

  lemma DefaultDemoLineTwelve()
    ensures CountLine(DefaultDemo, "12") == 3
  {
    var d := DefaultDemo;
    assert CountLine(d[8..], "12") == 0;
    assert d[7..][1..] == d[8..];
    assert CountLine(d[7..], "12") == 0;
    assert d[6..][1..] == d[7..];
    assert CountLine(d[6..], "12") == 0;
    assert d[5..][1..] == d[6..];
    assert CountLine(d[5..], "12") == 1;
    assert d[4..][1..] == d[5..];
    assert CountLine(d[4..], "12") == 1;
    assert d[3..][1..] == d[4..];
    assert CountLine(d[3..], "12") == 1;
    assert d[2..][1..] == d[3..];
    assert CountLine(d[2..], "12") == 2;
    assert d[1..][1..] == d[2..];
    assert CountLine(d[1..], "12") == 2;
    assert d[0..] == d;
  }

  lemma DefaultDemoFacts()
    ensures |DefaultDemo| == 9 && ClockOrdered(DefaultDemo)
    ensures CountLine(DefaultDemo, "12") == 3
  {
    DefaultDemoOrdered();
    DefaultDemoClock();
    DefaultDemoLineTwelve();
  }

  /** In a time-ordered schedule every earlier row is strictly earlier. */
  lemma {:induction false} ClockOrderedIsSorted(rows: seq<Departure>, i: nat, j: nat)
    requires ClockOrdered(rows)
    requires i < j < |rows|
    ensures Less(rows[i].time, rows[j].time)
    decreases j - i
  {
    if i + 1 < j {
      ClockOrderedIsSorted(rows, i + 1, j);
      LessTransitive(rows[i].time, rows[i + 1].time, rows[j].time);
    }
  }
}

=== FILE: backend_auth.dfy ===
/** The user handlers (convex/auth.ts): finding the current user by token
    and then by email, linking a token to a user found by email, the upsert
    run after sign-in, and the permissions query. */
module Auth {
  import opened Wrappers
  import opened Strings
  import opened Backend

  const AnonymousName := "Anonymous"

  /** `identity.name || "Anonymous"`. */
  function NameOrAnonymous(identity: Identity): (r: string)
    ensures NonEmpty(identity.name) ==> r == identity.name.value
    ensures !NonEmpty(identity.name) ==> r == AnonymousName
  {
    if NonEmpty(identity.name) then identity.name.value else AnonymousName
  }

  /** `identity.email || ""`. */
  function EmailOrEmpty(identity: Identity): (r: string)
    ensures NonEmpty(identity.email) ==> r == identity.email.value
    ensures !NonEmpty(identity.email) ==> r == ""
  {
    if NonEmpty(identity.email) then identity.email.value else ""
  }

  /** Once a user at `i` holds the token and no earlier user does, the
      token lookup finds `i`. */
  lemma TokenFindsFirstHolder(users: seq<User>, i: nat, token: string)
    requires i < |users| && users[i].token == Some(token)
    requires forall j :: 0 <= j < i ==> users[j].token != Some(token)
    ensures UserByToken(users, token) == Some(i)
  {
  }

  /** `getCurrentUser` as written. It is declared as a query, and a
      query's database handle only reads: it has no `patch`. So no identity
      gives no user, a token match wins, and with no token match a
      non-empty email finds the earliest user with it. When that user has
      no token, the attempt to link one throws, and since a query writes
      nothing the store stays as it was. */
  function GetCurrentUser(st: Store, auth: Option<Identity>): (r: Result<Option<User>, Error>)
    ensures auth.None? ==> r == Success(None)
    ensures auth.Some? && UserByToken(st.users, auth.value.token).Some? ==>
      r == Success(Some(st.users[UserByToken(st.users, auth.value.token).value]))
    ensures auth.Some? && UserByToken(st.users, auth.value.token).None? && !NonEmpty(auth.value.email) ==>
      r == Success(None)
    ensures auth.Some? && UserByToken(st.users, auth.value.token).None? && NonEmpty(auth.value.email) ==>
      var found := UserByEmail(st.users, auth.value.email);
      && (found.None? ==> r == Success(None))
      && (found.Some? && NonEmpty(st.users[found.value].token) ==> r == Success(Some(st.users[found.value])))
      && (found.Some? && !NonEmpty(st.users[found.value].token) ==> r == Failure(WriteInQuery))
    ensures r.Failure? ==> r.error == WriteInQuery
  {
    match auth
    case None => Success(None)
    case Some(identity) =>
      match UserByToken(st.users, identity.token)
      case Some(i) => Success(Some(st.users[i]))
      case None =>
        if !NonEmpty(identity.email) then Success(None)
        else match UserByEmail(st.users, identity.email)
          case None => Success(None)
          case Some(i) =>
            if NonEmpty(st.users[i].token) then Success(Some(st.users[i]))
            else Failure(WriteInQuery)
  }

  /** The lookup `getCurrentUser` evidently means: the same, except that a
      user found by email without a token gets the identity's token, as a
      mutation could write it, and is returned linked. */
  function GetCurrentUserLinking(st: Store, auth: Option<Identity>): (r: Reply<Option<User>>)
    ensures auth.None? ==> r == Reply(st, None)
    ensures auth.Some? && UserByToken(st.users, auth.value.token).Some? ==>
      r == Reply(st, Some(st.users[UserByToken(st.users, auth.value.token).value]))
    ensures auth.Some? && UserByToken(st.users, auth.value.token).None? && !NonEmpty(auth.value.email) ==>
      r == Reply(st, None)
    ensures auth.Some? && UserByToken(st.users, auth.value.token).None? && NonEmpty(auth.value.email) ==>
      var found := UserByEmail(st.users, auth.value.email);
      && (found.None? ==> r == Reply(st, None))
      && (found.Some? && NonEmpty(st.users[found.value].token) ==> r == Reply(st, Some(st.users[found.value])))
      && (found.Some? && !NonEmpty(st.users[found.value].token) ==>
            var linked := st.users[found.value].(token := Some(auth.value.token));
            r == Reply(st.(users := st.users[found.value := linked]), Some(linked)))
    ensures r.store.projects == st.projects && r.store.timetables == st.timetables
    ensures |r.store.users| == |st.users|
  {
    match auth
    case None => Reply(st, None)
    case Some(identity) =>
      match UserByToken(st.users, identity.token)
      case Some(i) => Reply(st, Some(st.users[i]))
      case None =>
        if !NonEmpty(identity.email) then Reply(st, None)
        else match UserByEmail(st.users, identity.email)
          case None => Reply(st, None)
          case Some(i) =>
            if NonEmpty(st.users[i].token) then Reply(st, Some(st.users[i]))
            else
              var linked := st.users[i].(token := Some(identity.token));
              Reply(st.(users := st.users[i := linked]), Some(linked))
  }

  /** The query as written agrees with the linking lookup wherever the
      latter writes nothing, and throws exactly where it would write. */
  lemma QueryThrowsExactlyWhereLinkWrites(st: Store, auth: Option<Identity>)
    ensures GetCurrentUser(st, auth).Success? ==> GetCurrentUserLinking(st, auth) == Reply(st, GetCurrentUser(st, auth).value)
    ensures GetCurrentUser(st, auth).Failure? <==> GetCurrentUserLinking(st, auth).store != st
  {
    var r := GetCurrentUserLinking(st, auth);
    if GetCurrentUser(st, auth).Failure? {
      var i := UserByEmail(st.users, auth.value.email).value;
      assert r.store.users[i].token == Some(auth.value.token) != st.users[i].token;
    }
  }

  /** A user created before tokens were stored, signing in with the same
      email: the query as written throws where the linking lookup returns
      the user with the token attached. */
  lemma LegacyUserLookupThrows()
    ensures var st := Store([User(0, None, Some("a@x"), None, None, false, 0)], map[], map[], 1);
      var auth := Some(Identity("t", Some("a@x"), None, None));
      && GetCurrentUser(st, auth) == Failure(WriteInQuery)
      && GetCurrentUserLinking(st, auth).value == Some(User(0, Some("t"), Some("a@x"), None, None, false, 0))
  {
    var st := Store([User(0, None, Some("a@x"), None, None, false, 0)], map[], map[], 1);
    assert UserByToken(st.users, "t").None?;
    assert UserByEmail(st.users, Some("a@x")) == Some(0);
  }

  /** Once linked, the user is found by token: asking again returns the
      same user and writes nothing. */
  lemma LinkedUserFoundByToken(st: Store, identity: Identity)
    ensures var r := GetCurrentUserLinking(st, Some(identity));
      r.value.Some? ==> GetCurrentUserLinking(r.store, Some(identity)) == Reply(r.store, r.value)
  {
    var r := GetCurrentUserLinking(st, Some(identity));
    if UserByToken(st.users, identity.token).None? && NonEmpty(identity.email) {
      var found := UserByEmail(st.users, identity.email);
      if found.Some? && !NonEmpty(st.users[found.value].token) {
        TokenFindsFirstHolder(r.store.users, found.value, identity.token);
      } else if found.Some? {
        if st.users[found.value].token == Some(identity.token) {
          assert false;
        }
      }
    }
  }

  /** `storeUser` at time `now`: the user id after the upsert. With no
      token match and a non-empty email, a user found by email gets the
      token, and the identity's name and picture where it has them. A user
      found by token is overwritten from the identity with defaults. With
      neither, a new free user is inserted under the next id. */
  function StoreUser(st: Store, auth: Option<Identity>, now: int): (r: Result<Reply<Id>, Error>)
    ensures auth.None? ==> r == Failure(NotAuthenticated)
    ensures auth.Some? ==> r.Success?
    ensures r.Success? && UserByToken(st.users, auth.value.token).Some? ==>
      var i := UserByToken(st.users, auth.value.token).value;
      var identity := auth.value;
      && r.value.value == st.users[i].id
      && r.value.store == st.(users := st.users[i := st.users[i].(
           token := Some(identity.token), name := Some(NameOrAnonymous(identity)),
           email := Some(EmailOrEmpty(identity)), avatarUrl := identity.pictureUrl)])
    ensures r.Success? && UserByToken(st.users, auth.value.token).None? && NonEmpty(auth.value.email)
            && UserByEmail(st.users, auth.value.email).Some? ==>
      var i := UserByEmail(st.users, auth.value.email).value;
      var identity := auth.value;
      && r.value.value == st.users[i].id
      && r.value.store == st.(users := st.users[i := st.users[i].(
           token := Some(identity.token), name := OrElse(identity.name, st.users[i].name),
           avatarUrl := OrElse(identity.pictureUrl, st.users[i].avatarUrl))])
    ensures r.Success? && UserByToken(st.users, auth.value.token).None?
            && (!NonEmpty(auth.value.email) || UserByEmail(st.users, auth.value.email).None?) ==>
      var identity := auth.value;
      && r.value.value == st.nextId
      && r.value.store == st.(users := st.users + [User(st.nextId, Some(identity.token),
           Some(EmailOrEmpty(identity)), Some(NameOrAnonymous(identity)), identity.pictureUrl, false, now)],
                              nextId := st.nextId + 1)
  {
    match auth
    case None => Failure(NotAuthenticated)
    case Some(identity) =>
      match UserByToken(st.users, identity.token)
      case Some(i) =>
        var u := st.users[i].(token := Some(identity.token), name := Some(NameOrAnonymous(identity)),
                              email := Some(EmailOrEmpty(identity)), avatarUrl := identity.pictureUrl);
        Success(Reply(st.(users := st.users[i := u]), st.users[i].id))
      case None =>
        var byEmail := if NonEmpty(identity.email) then UserByEmail(st.users, identity.email) else None;
        match byEmail
        case Some(i) =>
          var u := st.users[i].(token := Some(identity.token), name := OrElse(identity.name, st.users[i].name),
                                avatarUrl := OrElse(identity.pictureUrl, st.users[i].avatarUrl));
          Success(Reply(st.(users := st.users[i := u]), st.users[i].id))
        case None =>
          var u := User(st.nextId, Some(identity.token), Some(EmailOrEmpty(identity)),
                        Some(NameOrAnonymous(identity)), identity.pictureUrl, false, now);
          Success(Reply(st.(users := st.users + [u], nextId := st.nextId + 1), st.nextId))
  }

  /** Storing the same identity twice inserts at most once: the second run
      finds the user by token and returns the same id. */
  lemma StoreUserTwiceInsertsOnce(st: Store, identity: Identity, now: int, later: int)
    ensures var first := StoreUser(st, Some(identity), now);
      var second := StoreUser(first.value.store, Some(identity), later);
      && |second.value.store.users| == |first.value.store.users|
      && second.value.value == first.value.value
  {
    var first := StoreUser(st, Some(identity), now);
    var users := first.value.store.users;
    match UserByToken(st.users, identity.token)
    case Some(i) =>
      TokenFindsFirstHolder(users, i, identity.token);
    case None =>
      if NonEmpty(identity.email) && UserByEmail(st.users, identity.email).Some? {
        TokenFindsFirstHolder(users, UserByEmail(st.users, identity.email).value, identity.token);
      } else {
        TokenFindsFirstHolder(users, |st.users|, identity.token);
      }
  }

  /** A newly stored user is never premium. */
  lemma NewUsersAreFree(st: Store, identity: Identity, now: int)
    requires UserByToken(st.users, identity.token).None?
    requires !NonEmpty(identity.email) || UserByEmail(st.users, identity.email).None?
    ensures var r := StoreUser(st, Some(identity), now).value.store;
      |r.users| == |st.users| + 1 && !r.users[|st.users|].isPremium
      && r.users[|st.users|].name == Some(NameOrAnonymous(identity))
      && r.users[|st.users|].email == Some(EmailOrEmpty(identity))
  {
  }

  /** What the permissions query reports about the caller. */
  datatype Profile = Profile(id: Id, isPremium: bool, creationTime: int, email: Option<string>,
                             name: Option<string>)

  /** `getUserPermissions`: the caller found by token, or an error. */
  function GetUserPermissions(st: Store, auth: Option<Identity>): (r: Result<Profile, Error>)
    ensures auth.None? ==> r == Failure(NotAuthenticated)
    ensures auth.Some? && UserByToken(st.users, auth.value.token).None? ==> r == Failure(UserNotFound)
    ensures auth.Some? && UserByToken(st.users, auth.value.token).Some? ==>
      var u := st.users[UserByToken(st.users, auth.value.token).value];
      r == Success(Profile(u.id, u.isPremium, u.creationTime, u.email, u.name))
  {
    match auth
    case None => Failure(NotAuthenticated)
    case Some(identity) =>
      match UserByToken(st.users, identity.token)
      case None => Failure(UserNotFound)
      case Some(i) =>
        var u := st.users[i];
        Success(Profile(u.id, u.isPremium, u.creationTime, u.email, u.name))
  }

  /** Whoever `storeUser` just stored is the caller the permissions query
      finds next, under the id `storeUser` returned. */
  lemma StoredUserHasPermissions(st: Store, identity: Identity, now: int)
    ensures var stored := StoreUser(st, Some(identity), now).value;
      var r := GetUserPermissions(stored.store, Some(identity));
      r.Success? && r.value.id == stored.value
  {
    var users := StoreUser(st, Some(identity), now).value.store.users;
    match UserByToken(st.users, identity.token)
    case Some(i) =>
      TokenFindsFirstHolder(users, i, identity.token);
    case None =>
      if NonEmpty(identity.email) && UserByEmail(st.users, identity.email).Some? {
        TokenFindsFirstHolder(users, UserByEmail(st.users, identity.email).value, identity.token);
      } else {
        TokenFindsFirstHolder(users, |st.users|, identity.token);
      }
  }
}

=== FILE: backend_projects.dfy ===
/** The project handlers (convex/projects.ts). Unlike the timetable
    handlers they find the caller by the identity's email, asserted
    present: an identity without one is looked up as "no email" and meets
    the users that have none. */
module Projects {
  import opened Wrappers
  import opened Backend
  import Auth
  import Timetables

  /** The free-tier number of projects per user. */
  const FreeProjectLimit: nat := 1

  /** The caller, found by email. */
  function CallerByEmail(st: Store, auth: Option<Identity>): (r: Result<nat, Error>)
    ensures auth.None? ==> r == Failure(NotAuthenticated)
    ensures auth.Some? ==> (r == Failure(UserNotFound) <==> UserByEmail(st.users, auth.value.email).None?)
    ensures r.Success? ==> auth.Some? && UserByEmail(st.users, auth.value.email) == Some(r.value)
    ensures r.Failure? ==> r.error == NotAuthenticated || r.error == UserNotFound
  {
    match auth
    case None => Failure(NotAuthenticated)
    case Some(identity) =>
      match UserByEmail(st.users, identity.email)
      case None => Failure(UserNotFound)
      case Some(i) => Success(i)
  }

  /** `getProjects`: exactly the caller's projects. */
  function GetProjects(st: Store, auth: Option<Identity>): (r: Result<map<Id, Project>, Error>)
    ensures CallerByEmail(st, auth).Failure? ==> r == Failure(CallerByEmail(st, auth).error)
    ensures r.Success? ==> CallerByEmail(st, auth).Success?
    ensures r.Success? ==>
      var user := st.users[CallerByEmail(st, auth).value];
      && (forall k :: k in r.value <==> k in st.projects && st.projects[k].userId == user.id)
      && (forall k :: k in r.value ==> r.value[k] == st.projects[k])
    ensures CallerByEmail(st, auth).Success? ==> r.Success?
  {
    match CallerByEmail(st, auth)
    case Failure(e) => Failure(e)
    case Success(i) => Success(ProjectsOf(st, st.users[i].id))
  }

  /** `getProject(id)`: the caller's project; a missing project and
      someone else's project give the same error. */
  function GetProject(st: Store, auth: Option<Identity>, projectId: Id): (r: Result<Project, Error>)
    ensures CallerByEmail(st, auth).Failure? ==> r == Failure(CallerByEmail(st, auth).error)
    ensures CallerByEmail(st, auth).Success? ==>
      var user := st.users[CallerByEmail(st, auth).value];
      && (Owns(st, user, projectId) ==> r == Success(st.projects[projectId]))
      && (!Owns(st, user, projectId) ==> r == Failure(ProjectNotFound))
  {
    match CallerByEmail(st, auth)
    case Failure(e) => Failure(e)
    case Success(i) =>
      if Owns(st, st.users[i], projectId) then Success(st.projects[projectId]) else Failure(ProjectNotFound)
  }

  /** A stranger cannot tell a missing project from one that exists. */
  lemma GetProjectHidesExistence(st: Store, auth: Option<Identity>, a: Id, b: Id)
    requires CallerByEmail(st, auth).Success?
    requires a !in st.projects
    requires b in st.projects && st.projects[b].userId != st.users[CallerByEmail(st, auth).value].id
    ensures GetProject(st, auth, a) == GetProject(st, auth, b)
  {
  }

  /** `createProject(name)` at time `now`: inserts one project named `name`
      for the caller under the next id, unless a free caller already has
      one. */
  function CreateProject(st: Store, auth: Option<Identity>, name: string, now: int): (r: Result<Reply<Id>, Error>)
    ensures CallerByEmail(st, auth).Failure? ==> r == Failure(CallerByEmail(st, auth).error)
    ensures CallerByEmail(st, auth).Success? ==>
      var user := st.users[CallerByEmail(st, auth).value];
      (r == Failure(ProjectLimitReached) <==> |ProjectsOf(st, user.id)| >= FreeProjectLimit && !user.isPremium)
    ensures CallerByEmail(st, auth).Success? ==>
      var user := st.users[CallerByEmail(st, auth).value];
      !(|ProjectsOf(st, user.id)| >= FreeProjectLimit && !user.isPremium) ==> r.Success?
    ensures r.Success? ==>
      && CallerByEmail(st, auth).Success?
      && r.value.value == st.nextId
      && r.value.store == st.(projects := st.projects[st.nextId :=
           Project(name, st.users[CallerByEmail(st, auth).value].id, now)], nextId := st.nextId + 1)
    ensures r.Success? && WellFormed(st) ==>
      && |r.value.store.projects| == |st.projects| + 1
      && WellFormed(r.value.store)
  {
    match CallerByEmail(st, auth)
    case Failure(e) => Failure(e)
    case Success(i) =>
      var user := st.users[i];
      if |ProjectsOf(st, user.id)| >= FreeProjectLimit && !user.isPremium then Failure(ProjectLimitReached)
      else
        Success(Reply(st.(projects := st.projects[st.nextId := Project(name, user.id, now)],
                          nextId := st.nextId + 1), st.nextId))
  }

  /** After a successful create, the caller's list shows what it showed
      before plus the new project. */
  lemma CreatedProjectIsListed(st: Store, auth: Option<Identity>, name: string, now: int)
    requires CreateProject(st, auth, name, now).Success?
    ensures var r := CreateProject(st, auth, name, now).value;
      var before := GetProjects(st, auth);
      var after := GetProjects(r.store, auth);
      && before.Success? && after.Success?
      && after.value.Keys == before.value.Keys + {r.value}
      && after.value[r.value] == Project(name, st.users[CallerByEmail(st, auth).value].id, now)
  {
    var c := CallerByEmail(st, auth).value;
    var id := st.users[c].id;
    var r := CreateProject(st, auth, name, now).value;
    assert r.store.users == st.users;
    assert CallerByEmail(r.store, auth) == Success(c);
    assert GetProjects(r.store, auth) == Success(ProjectsOf(r.store, id));
    assert GetProjects(st, auth) == Success(ProjectsOf(st, id));
    assert r.store.projects == st.projects[st.nextId := Project(name, id, now)];
    assert ProjectsOf(r.store, id).Keys == ProjectsOf(st, id).Keys + {r.value};
  }

  /** A free account that starts with no project never ends up with two
      by creating. */
  lemma FreeAccountsKeepOneProject(st: Store, auth: Option<Identity>, name: string, now: int)
    requires WellFormed(st) && CallerByEmail(st, auth).Success?
    requires !st.users[CallerByEmail(st, auth).value].isPremium
    ensures var user := st.users[CallerByEmail(st, auth).value];
      var r := CreateProject(st, auth, name, now);
      r.Success? ==> |ProjectsOf(st, user.id)| == 0 && |ProjectsOf(r.value.store, user.id)| == 1
  {
    var user := st.users[CallerByEmail(st, auth).value];
    var r := CreateProject(st, auth, name, now);
    if r.Success? {
      var before := ProjectsOf(st, user.id);
      assert |before| == 0;
      assert r.value.store.projects == st.projects[st.nextId := Project(name, user.id, now)];
      assert before == map[];
      var after := ProjectsOf(r.value.store, user.id);
      assert after.Keys == {st.nextId};
    }
  }

  /** `deleteProject(id)`: for the owner, removes the project and every
      timetable of it; other documents are untouched. */
  function DeleteProject(st: Store, auth: Option<Identity>, projectId: Id): (r: Result<Store, Error>)
    ensures CallerByEmail(st, auth).Failure? ==> r == Failure(CallerByEmail(st, auth).error)
    ensures CallerByEmail(st, auth).Success? ==>
      (r.Success? <==> Owns(st, st.users[CallerByEmail(st, auth).value], projectId))
    ensures r.Failure? && CallerByEmail(st, auth).Success? ==> r == Failure(ProjectNotFoundOrNotAuthorized)
    ensures r.Success? ==>
      && projectId !in r.value.projects
      && (forall k :: k in r.value.timetables ==> r.value.timetables[k].projectId != projectId)
      && (forall k :: k in st.projects && k != projectId <==> k in r.value.projects)
      && (forall k :: k in r.value.projects ==> r.value.projects[k] == st.projects[k])
      && (forall k :: k in st.timetables && st.timetables[k].projectId != projectId <==> k in r.value.timetables)
      && (forall k :: k in r.value.timetables ==> r.value.timetables[k] == st.timetables[k])
      && r.value.users == st.users
      && r.value.nextId == st.nextId
    ensures r.Success? && WellFormed(st) ==> WellFormed(r.value)
  {
    match CallerByEmail(st, auth)
    case Failure(e) => Failure(e)
    case Success(i) =>
      if !Owns(st, st.users[i], projectId) then Failure(ProjectNotFoundOrNotAuthorized)
      else
        var doomed := TimetablesOf(st, projectId).Keys;
        Success(st.(timetables := st.timetables - doomed, projects := st.projects - {projectId}))
  }

  /** After a successful delete the project is gone for its owner: asking
      for it gives "Project not found", the owner's list loses exactly it,
      and nobody can list its timetables. */
  lemma DeletedProjectIsGone(st: Store, auth: Option<Identity>, projectId: Id, other: Option<Identity>)
    requires DeleteProject(st, auth, projectId).Success?
    ensures var after := DeleteProject(st, auth, projectId).value;
      && GetProject(after, auth, projectId) == Failure(ProjectNotFound)
      && GetProjects(after, auth).Success?
      && GetProjects(after, auth).value.Keys == GetProjects(st, auth).value.Keys - {projectId}
      && Timetables.GetTimetables(after, other, projectId).Failure?
  {
    var after := DeleteProject(st, auth, projectId).value;
    assert CallerByEmail(after, auth) == CallerByEmail(st, auth);
  }

  /** What `getUserPermissions` reports. */
  datatype Permissions = Permissions(id: Id, isPremium: bool, creationTime: int)

  /** `getUserPermissions`: the caller's premium flag. */
  function GetUserPermissions(st: Store, auth: Option<Identity>): (r: Result<Permissions, Error>)
    ensures CallerByEmail(st, auth).Failure? ==> r == Failure(CallerByEmail(st, auth).error)
    ensures r.Success? ==> CallerByEmail(st, auth).Success?
    ensures r.Success? ==>
      var user := st.users[CallerByEmail(st, auth).value];
      r.value == Permissions(user.id, user.isPremium, user.creationTime)
    ensures CallerByEmail(st, auth).Success? ==> r.Success?
  {
    match CallerByEmail(st, auth)
    case Failure(e) => Failure(e)
    case Success(i) => Success(Permissions(st.users[i].id, st.users[i].isPremium, st.users[i].creationTime))
  }

  /** When the token and the email find the same user, both permission
      queries report the same account. */
  lemma SameUserSamePermissions(st: Store, identity: Identity)
    requires UserByToken(st.users, identity.token).Some?
    requires UserByEmail(st.users, identity.email) == UserByToken(st.users, identity.token)
    ensures var p := GetUserPermissions(st, Some(identity));
      var q := Auth.GetUserPermissions(st, Some(identity));
      && p.Success? && q.Success?
      && p.value.id == q.value.id && p.value.isPremium == q.value.isPremium
      && p.value.creationTime == q.value.creationTime
  {
  }
}

=== FILE: backend_timetables.dfy ===
/** The timetable handlers (convex/timetables.ts) as guarded transitions of
    the store. A thrown error is a `Failure`, and since a failed mutation
    writes nothing, a failure carries no store. */
module Timetables {
  import opened Wrappers
  import opened Strings
  import opened Domain
  import opened Backend

  /** The free-tier number of timetables per project. */
  const FreeTimetableLimit: nat := 3

  /** The caller, found by token; the first two guards of every handler
      here that reads the user before the project. */
  function CallerByToken(st: Store, auth: Option<Identity>): (r: Result<nat, Error>)
    ensures auth.None? ==> r == Failure(NotAuthenticated)
    ensures auth.Some? ==> (r == Failure(UserNotFound) <==> UserByToken(st.users, auth.value.token).None?)
    ensures r.Success? ==> auth.Some? && UserByToken(st.users, auth.value.token) == Some(r.value)
    ensures r.Failure? ==> r.error == NotAuthenticated || r.error == UserNotFound
  {
    match auth
    case None => Failure(NotAuthenticated)
    case Some(identity) =>
      match UserByToken(st.users, identity.token)
      case None => Failure(UserNotFound)
      case Some(i) => Success(i)
  }

  /** `getTimetables`: the project's timetables, for its owner only. */
  function GetTimetables(st: Store, auth: Option<Identity>, projectId: Id): (r: Result<map<Id, Timetable>, Error>)
    ensures auth.None? ==> r == Failure(NotAuthenticated)
    ensures CallerByToken(st, auth).Failure? ==> r == Failure(CallerByToken(st, auth).error)
    ensures r.Success? <==>
      && CallerByToken(st, auth).Success?
      && Owns(st, st.users[CallerByToken(st, auth).value], projectId)
    ensures CallerByToken(st, auth).Success? && !Owns(st, st.users[CallerByToken(st, auth).value], projectId) ==>
      r == Failure(ProjectNotFoundOrNotAuthorized)
    ensures r.Success? ==>
      && (forall k :: k in r.value <==> k in st.timetables && st.timetables[k].projectId == projectId)
      && (forall k :: k in r.value ==> r.value[k] == st.timetables[k])
  {
    match CallerByToken(st, auth)
    case Failure(e) => Failure(e)
    case Success(i) =>
      if !Owns(st, st.users[i], projectId) then Failure(ProjectNotFoundOrNotAuthorized)
      else Success(TimetablesOf(st, projectId))
  }

  /** The timetable `addTimetable` receives; `data` may be missing. */
  datatype NewTimetable = NewTimetable(stopName: string, stopId: string, theme: string,
                                       data: Option<seq<Departure>>)

  /** `addTimetable(projectId, timetable)` at time `now`: for the owner,
      inserts one timetable under the next id, data defaulting to `[]`,
      unless the project already has three and the owner is not premium. */
  function AddTimetable(st: Store, auth: Option<Identity>, projectId: Id, t: NewTimetable, now: int)
    : (r: Result<Reply<Id>, Error>)
    ensures auth.None? ==> r == Failure(NotAuthenticated)
    ensures CallerByToken(st, auth).Failure? ==> r == Failure(CallerByToken(st, auth).error)
    ensures CallerByToken(st, auth).Success? ==>
      var user := st.users[CallerByToken(st, auth).value];
      && (!Owns(st, user, projectId) ==> r == Failure(ProjectNotFoundOrNotAuthorized))
      && (Owns(st, user, projectId) ==>
            (r == Failure(TimetableLimitReached) <==>
               |TimetablesOf(st, projectId)| >= FreeTimetableLimit && !user.isPremium))
    ensures CallerByToken(st, auth).Success? ==>
      var user := st.users[CallerByToken(st, auth).value];
      Owns(st, user, projectId) && !(|TimetablesOf(st, projectId)| >= FreeTimetableLimit && !user.isPremium) ==>
        r.Success?
    ensures r.Success? ==>
      && r.value.value == st.nextId
      && r.value.store == st.(timetables := st.timetables[st.nextId :=
           Timetable(projectId, t.stopName, t.stopId, t.theme, t.data.GetOr([]), now)],
                              nextId := st.nextId + 1)
    ensures r.Success? && WellFormed(st) ==>
      && |r.value.store.timetables| == |st.timetables| + 1
      && WellFormed(r.value.store)
  {
    match CallerByToken(st, auth)
    case Failure(e) => Failure(e)
    case Success(i) =>
      var user := st.users[i];
      if !Owns(st, user, projectId) then Failure(ProjectNotFoundOrNotAuthorized)
      else if |TimetablesOf(st, projectId)| >= FreeTimetableLimit && !user.isPremium then
        Failure(TimetableLimitReached)
      else
        var doc := Timetable(projectId, t.stopName, t.stopId, t.theme, t.data.GetOr([]), now);
        Success(Reply(st.(timetables := st.timetables[st.nextId := doc], nextId := st.nextId + 1), st.nextId))
  }

  /** After a successful add, listing the project shows what it showed
      before plus the new timetable. */
  lemma AddedTimetableIsListed(st: Store, auth: Option<Identity>, projectId: Id, t: NewTimetable, now: int)
    requires AddTimetable(st, auth, projectId, t, now).Success?
    ensures var r := AddTimetable(st, auth, projectId, t, now).value;
      var before := GetTimetables(st, auth, projectId);
      var after := GetTimetables(r.store, auth, projectId);
      && before.Success? && after.Success?
      && after.value.Keys == before.value.Keys + {r.value}
      && after.value[r.value] == Timetable(projectId, t.stopName, t.stopId, t.theme, t.data.GetOr([]), now)
  {
    var r := AddTimetable(st, auth, projectId, t, now).value;
    assert r.store.users == st.users && r.store.projects == st.projects;
    assert CallerByToken(r.store, auth) == CallerByToken(st, auth);
    assert TimetablesOf(r.store, projectId).Keys == TimetablesOf(st, projectId).Keys + {r.value};
  }

  /** A premium owner is never refused on count. */
  lemma PremiumNeverLimited(st: Store, auth: Option<Identity>, projectId: Id, t: NewTimetable, now: int)
    requires CallerByToken(st, auth).Success? && st.users[CallerByToken(st, auth).value].isPremium
    requires Owns(st, st.users[CallerByToken(st, auth).value], projectId)
    ensures AddTimetable(st, auth, projectId, t, now).Success?
  {
  }

  /** The `updates` of `updateTimetable`: absent fields are left alone. */
  datatype TimetablePatch = TimetablePatch(stopName: Option<string>, stopId: Option<string>,
                                           theme: Option<string>, data: Option<seq<Departure>>)

  /** `ctx.db.patch(id, updates)` on one document. */
  function MergeTimetable(doc: Timetable, patch: TimetablePatch): (r: Timetable)
    ensures r.projectId == doc.projectId && r.createdAt == doc.createdAt
    ensures patch.stopName.None? ==> r.stopName == doc.stopName
    ensures patch.stopId.None? ==> r.stopId == doc.stopId
    ensures patch.theme.None? ==> r.theme == doc.theme
    ensures patch.data.None? ==> r.data == doc.data
    ensures patch.stopName.Some? ==> r.stopName == patch.stopName.value
    ensures patch.stopId.Some? ==> r.stopId == patch.stopId.value
    ensures patch.theme.Some? ==> r.theme == patch.theme.value
    ensures patch.data.Some? ==> r.data == patch.data.value
  {
    doc.(stopName := patch.stopName.GetOr(doc.stopName), stopId := patch.stopId.GetOr(doc.stopId),
         theme := patch.theme.GetOr(doc.theme), data := patch.data.GetOr(doc.data))
  }

  /** An empty patch changes nothing. */
  lemma EmptyPatchIsIdentity(doc: Timetable)
    ensures MergeTimetable(doc, TimetablePatch(None, None, None, None)) == doc
  {
  }

  /** The guards `updateTimetable` and `deleteTimetable` share, in order:
      identity, the timetable, its project, then the owner. The owner is
      found by `owner`, since the two handlers look the caller up
      differently. */
  function AuthorizeTimetable(st: Store, auth: Option<Identity>, timetableId: Id, owner: Option<nat>)
    : (r: Result<(), Error>)
    requires owner.Some? ==> owner.value < |st.users|
    ensures auth.None? ==> r == Failure(NotAuthenticated)
    ensures r.Success? <==>
      && auth.Some? && timetableId in st.timetables
      && st.timetables[timetableId].projectId in st.projects
      && owner.Some? && st.projects[st.timetables[timetableId].projectId].userId == st.users[owner.value].id
    ensures auth.Some? && timetableId !in st.timetables ==> r == Failure(TimetableNotFound)
    ensures auth.Some? && timetableId in st.timetables && st.timetables[timetableId].projectId !in st.projects ==>
      r == Failure(ProjectNotFound)
    ensures auth.Some? && timetableId in st.timetables && st.timetables[timetableId].projectId in st.projects
            && !(owner.Some? && st.projects[st.timetables[timetableId].projectId].userId == st.users[owner.value].id) ==>
      r == Failure(NotAuthorized)
    ensures r.Failure? ==> r.error in {NotAuthenticated, TimetableNotFound, ProjectNotFound, NotAuthorized}
  {
    if auth.None? then Failure(NotAuthenticated)
    else if timetableId !in st.timetables then Failure(TimetableNotFound)
    else if st.timetables[timetableId].projectId !in st.projects then Failure(ProjectNotFound)
    else if owner.None? || st.projects[st.timetables[timetableId].projectId].userId != st.users[owner.value].id then
      Failure(NotAuthorized)
    else Success(())
  }

  /** `updateTimetable(id, updates)`: for the project's owner (found by
      token), patches that one timetable. */
  function UpdateTimetable(st: Store, auth: Option<Identity>, timetableId: Id, patch: TimetablePatch)
    : (r: Result<Store, Error>)
    ensures auth.None? ==> r == Failure(NotAuthenticated)
    ensures auth.Some? ==>
      (r.Success? <==> AuthorizeTimetable(st, auth, timetableId, UserByToken(st.users, auth.value.token)).Success?)
    ensures auth.Some? && r.Failure? ==>
      r.error == AuthorizeTimetable(st, auth, timetableId, UserByToken(st.users, auth.value.token)).error
    ensures r.Success? ==>
      && timetableId in st.timetables
      && r.value == st.(timetables := st.timetables[timetableId := MergeTimetable(st.timetables[timetableId], patch)])
    ensures r.Success? ==> forall k :: k in st.timetables && k != timetableId ==>
      k in r.value.timetables && r.value.timetables[k] == st.timetables[k]
  {
    match auth
    case None => Failure(NotAuthenticated)
    case Some(identity) =>
      match AuthorizeTimetable(st, auth, timetableId, UserByToken(st.users, identity.token))
      case Failure(e) => Failure(e)
      case Success(_) =>
        Success(st.(timetables := st.timetables[timetableId := MergeTimetable(st.timetables[timetableId], patch)]))
  }

  /** After a successful update the owner's list of that project holds the
      same timetables, the updated one merged with the patch and every other
      one as it was. */
  lemma UpdatedTimetableIsListed(st: Store, auth: Option<Identity>, timetableId: Id, patch: TimetablePatch)
    requires UpdateTimetable(st, auth, timetableId, patch).Success?
    ensures var after := UpdateTimetable(st, auth, timetableId, patch).value;
      var projectId := st.timetables[timetableId].projectId;
      var before := GetTimetables(st, auth, projectId);
      var now := GetTimetables(after, auth, projectId);
      && before.Success? && now.Success?
      && now.value.Keys == before.value.Keys
      && timetableId in now.value
      && now.value[timetableId] == MergeTimetable(st.timetables[timetableId], patch)
      && (forall k :: k in before.value && k != timetableId ==> now.value[k] == before.value[k])
  {
  }

  /** `deleteTimetable`'s caller: by token, and only when that finds no one
      and the identity has a non-empty email, by email. */
  function DeletingUser(st: Store, identity: Identity): (r: Option<nat>)
    ensures UserByToken(st.users, identity.token).Some? ==> r == UserByToken(st.users, identity.token)
    ensures UserByToken(st.users, identity.token).None? && NonEmpty(identity.email) ==>
      r == UserByEmail(st.users, identity.email)
    ensures UserByToken(st.users, identity.token).None? && !NonEmpty(identity.email) ==> r.None?
    ensures r.Some? ==> r.value < |st.users|
  {
    match UserByToken(st.users, identity.token)
    case Some(i) => Some(i)
    case None => if NonEmpty(identity.email) then UserByEmail(st.users, identity.email) else None
  }

  /** `deleteTimetable(id)`: for the project's owner, removes exactly that
      timetable. */
  function DeleteTimetable(st: Store, auth: Option<Identity>, timetableId: Id): (r: Result<Store, Error>)
    ensures auth.None? ==> r == Failure(NotAuthenticated)
    ensures auth.Some? ==>
      (r.Success? <==> AuthorizeTimetable(st, auth, timetableId, DeletingUser(st, auth.value)).Success?)
    ensures auth.Some? && r.Failure? ==>
      r.error == AuthorizeTimetable(st, auth, timetableId, DeletingUser(st, auth.value)).error
    ensures r.Success? ==>
      && timetableId in st.timetables
      && r.value == st.(timetables := st.timetables - {timetableId})
      && |r.value.timetables| == |st.timetables| - 1
  {
    match auth
    case None => Failure(NotAuthenticated)
    case Some(identity) =>
      match AuthorizeTimetable(st, auth, timetableId, DeletingUser(st, identity))
      case Failure(e) => Failure(e)
      case Success(_) => Success(st.(timetables := st.timetables - {timetableId}))
  }

  /** A caller known only by email can delete a timetable but not update
      it: only deletion falls back to the email lookup. */
  lemma OnlyDeleteFallsBackToEmail(st: Store, identity: Identity, timetableId: Id)
    requires UserByToken(st.users, identity.token).None?
    requires timetableId in st.timetables && st.timetables[timetableId].projectId in st.projects
    requires NonEmpty(identity.email) && UserByEmail(st.users, identity.email).Some?
    requires st.projects[st.timetables[timetableId].projectId].userId
               == st.users[UserByEmail(st.users, identity.email).value].id
    ensures DeleteTimetable(st, Some(identity), timetableId).Success?
    ensures UpdateTimetable(st, Some(identity), timetableId, TimetablePatch(None, None, None, None))
              == Failure(NotAuthorized)
  {
  }
}

=== FILE: board.dfy ===
/** The application state container (src/contexts/AppContext.tsx): the
    boards, the line filters, the time floor, the derived rows per board and
    the selected board, with the mutators the context exposes and the effect
    that re-derives every board's rows. */
module Board {
  import opened Wrappers
  import opened Domain
  import opened Derivation

  datatype BoardState = BoardState(
    pages: seq<Page>,
    derived: map<string, Option<seq<Departure>>>,  // `filteredData`
    searchTerm: string,
    filters: seq<BusFilter>,
    timeFloor: string,                              // `timeFilter`
    selected: Option<string>)                       // `selectedTimetable`

  /** The state the provider starts from. */
  const Empty := BoardState([], map[], "", [], "", None)

  /** A `Partial<TimetablePageData>` without `id` (no caller passes one). */
  datatype PagePatch = PagePatch(stopName: Option<string>, stopId: Option<string>,
                                 theme: Option<Theme>, data: Option<seq<Departure>>)

  /** A `Partial<BusFilter>` without `id`. */
  datatype FilterPatch = FilterPatch(number: Option<string>, direction: Option<string>)

  /** `{ ...page, ...patch }`: supplied fields replace, the others stay. */
  function MergePage(p: Page, patch: PagePatch): (r: Page)
    ensures r.id == p.id
    ensures r.stopName == (if patch.stopName.Some? then patch.stopName.value else p.stopName)
    ensures r.stopId == (if patch.stopId.Some? then patch.stopId.value else p.stopId)
    ensures r.theme == (if patch.theme.Some? then patch.theme.value else p.theme)
    ensures r.data == (if patch.data.Some? then patch.data else p.data)
  {
    Page(p.id, patch.stopName.GetOr(p.stopName), patch.stopId.GetOr(p.stopId),
         patch.theme.GetOr(p.theme), if patch.data.Some? then patch.data else p.data)
  }

  /** `{ ...filter, ...updates }`. */
  function MergeFilter(f: BusFilter, patch: FilterPatch): (r: BusFilter)
    ensures r.id == f.id
    ensures r.number == (if patch.number.Some? then patch.number.value else f.number)
    ensures r.direction == (if patch.direction.Some? then patch.direction else f.direction)
  {
    BusFilter(f.id, patch.number.GetOr(f.number),
              if patch.direction.Some? then patch.direction else f.direction)
  }

  /** The two maps agree everywhere except possibly at `key`. */
  ghost predicate SameExcept<V>(m: map<string, V>, m': map<string, V>, key: string) {
    forall k :: k != key ==> (k in m <==> k in m') && (k in m ==> m[k] == m'[k])
  }

  // ---------------------------------------------------------------------
  // The context's mutators, each one state update before the effect runs.
  // ---------------------------------------------------------------------

  /** `addTimetablePage(data?)`: appends the given page, or a placeholder
      page with a fresh id, stores its data verbatim as its rows and selects
      it. */
  function AddPage(s: BoardState, init: Option<Page>, freshId: string): (r: BoardState)
    ensures var p := init.GetOr(DefaultPage(freshId));
      && |r.pages| == |s.pages| + 1
      && r.pages[..|s.pages|] == s.pages && r.pages[|s.pages|] == p
      && p.id in r.derived && r.derived[p.id] == p.data
      && SameExcept(s.derived, r.derived, p.id)
      && r.selected == Some(p.id)
    ensures r.filters == s.filters && r.timeFloor == s.timeFloor && r.searchTerm == s.searchTerm
  {
    var p := init.GetOr(DefaultPage(freshId));
    s.(pages := s.pages + [p], derived := s.derived[p.id := p.data], selected := Some(p.id))
  }

  /** Dropping pages never makes two ids equal. */
  lemma {:induction false} KeepUniqueIds(pages: seq<Page>, p: Page -> bool)
    requires UniqueIds(pages)
    ensures UniqueIds(Keep(pages, p))
    decreases |pages|
  {
    if |pages| > 0 {
      var tail := pages[1..];
      assert UniqueIds(tail) by {
        forall i, j | 0 <= i < j < |tail| ensures tail[i].id != tail[j].id {
          assert tail[i] == pages[i + 1] && tail[j] == pages[j + 1];
        }
      }
      KeepUniqueIds(tail, p);
      if p(pages[0]) {
        var kt := Keep(tail, p);
        var r := [pages[0]] + kt;
        forall i, j | 0 <= i < j < |r| ensures r[i].id != r[j].id {
          if i == 0 {
            assert r[j] == kt[j - 1] && kt[j - 1] in tail;
            var k :| 0 <= k < |tail| && tail[k] == kt[j - 1];
            assert tail[k] == pages[k + 1];
          } else {
            assert r[i] == kt[i - 1] && r[j] == kt[j - 1];
          }
        }
      }
    }
  }

  /** `removeTimetablePage(id)`: drops every page with that id, keeping the
      others in order, forgets its rows and clears the selection only when
      it pointed at that id. */
  function RemovePage(s: BoardState, id: string): (r: BoardState)
    ensures !HasPage(r.pages, id)
    ensures forall p :: p in r.pages <==> p in s.pages && p.id != id
    ensures forall p :: multiset(r.pages)[p] == if p.id != id then multiset(s.pages)[p] else 0
    ensures Subsequence(r.pages, s.pages)
    ensures id !in r.derived && SameExcept(s.derived, r.derived, id)
    ensures r.selected.None? <==> s.selected.None? || s.selected == Some(id)
    ensures r.selected.Some? ==> r.selected == s.selected
    ensures r.filters == s.filters && r.timeFloor == s.timeFloor && r.searchTerm == s.searchTerm
    ensures UniqueIds(s.pages) ==> UniqueIds(r.pages)
  {
    var kept := Keep(s.pages, (p: Page) => p.id != id);
    assert UniqueIds(s.pages) ==> UniqueIds(kept) by {
      if UniqueIds(s.pages) {
        KeepUniqueIds(s.pages, (p: Page) => p.id != id);
      }
    }
    assert !HasPage(kept, id) by {
      forall i | 0 <= i < |kept| ensures kept[i].id != id {
        assert kept[i] in kept;
      }
    }
    s.(pages := kept, derived := s.derived - {id},
       selected := if s.selected == Some(id) then None else s.selected)
  }

  /** `updateTimetablePage(id, patch)`: merges the patch into the pages with
      that id; when the patch carries data, those rows are stored verbatim
      first (the effect then replaces them when a page has the id). */
  function UpdatePage(s: BoardState, id: string, patch: PagePatch): (r: BoardState)
    ensures |r.pages| == |s.pages|
    ensures forall i :: 0 <= i < |s.pages| ==>
      r.pages[i] == if s.pages[i].id == id then MergePage(s.pages[i], patch) else s.pages[i]
    ensures patch.data.Some? ==> id in r.derived && r.derived[id] == patch.data
    ensures patch.data.None? ==> r.derived == s.derived
    ensures SameExcept(s.derived, r.derived, id)
    ensures r.filters == s.filters && r.timeFloor == s.timeFloor && r.selected == s.selected
  {
    var pages := seq(|s.pages|, i requires 0 <= i < |s.pages| =>
                       if s.pages[i].id == id then MergePage(s.pages[i], patch) else s.pages[i]);
    s.(pages := pages,
       derived := if patch.data.Some? then s.derived[id := patch.data] else s.derived)
  }

  /** `updateFilteredData(id, rows)`: overwrites one board's rows. */
  function SetRows(s: BoardState, id: string, rows: seq<Departure>): (r: BoardState)
    ensures id in r.derived && r.derived[id] == Some(rows)
    ensures SameExcept(s.derived, r.derived, id)
    ensures r.pages == s.pages && r.filters == s.filters && r.timeFloor == s.timeFloor
  {
    s.(derived := s.derived[id := Some(rows)])
  }

  /** `addBusFilter(filter)`: appends. */
  function AddFilter(s: BoardState, f: BusFilter): (r: BoardState)
    ensures |r.filters| == |s.filters| + 1 && r.filters[..|s.filters|] == s.filters
    ensures r.filters[|s.filters|] == f
    ensures r.pages == s.pages && r.derived == s.derived && r.timeFloor == s.timeFloor
  {
    s.(filters := s.filters + [f])
  }

  /** `removeBusFilter(id)`: drops every filter with that id, keeping the
      others in order. */
  function RemoveFilter(s: BoardState, id: string): (r: BoardState)
    ensures forall f :: f in r.filters <==> f in s.filters && f.id != id
    ensures forall f :: multiset(r.filters)[f] == if f.id != id then multiset(s.filters)[f] else 0
    ensures Subsequence(r.filters, s.filters)
    ensures r.pages == s.pages && r.derived == s.derived && r.timeFloor == s.timeFloor
  {
    s.(filters := Keep(s.filters, (f: BusFilter) => f.id != id))
  }

  /** `updateBusFilter(id, updates)`: merges into the filters with that id. */
  function UpdateFilter(s: BoardState, id: string, patch: FilterPatch): (r: BoardState)
    ensures |r.filters| == |s.filters|
    ensures forall i :: 0 <= i < |s.filters| ==>
      r.filters[i] == if s.filters[i].id == id then MergeFilter(s.filters[i], patch) else s.filters[i]
    ensures r.pages == s.pages && r.derived == s.derived && r.timeFloor == s.timeFloor
  {
    s.(filters := seq(|s.filters|, i requires 0 <= i < |s.filters| =>
                        if s.filters[i].id == id then MergeFilter(s.filters[i], patch) else s.filters[i]))
  }

  // ---------------------------------------------------------------------
  // The derivation effect.
  // ---------------------------------------------------------------------

  /** The ids of the pages whose data is present. */
  function DataIds(pages: seq<Page>): set<string> {
    set i | 0 <= i < |pages| && pages[i].data.Some? :: pages[i].id
  }

  lemma DataIdsSnoc(pages: seq<Page>)
    requires |pages| > 0
    ensures var last := pages[|pages| - 1];
      DataIds(pages) == DataIds(pages[..|pages| - 1]) + (if last.data.Some? then {last.id} else {})
  {
    var init := pages[..|pages| - 1];
    assert forall i :: 0 <= i < |init| ==> init[i] == pages[i];
  }

  /** One run of the effect: for each page in order whose data is present,
      store its derived rows under its id. Other entries are untouched. */
  function Recompute(pages: seq<Page>, filters: seq<BusFilter>, floor: string,
                     m: map<string, Option<seq<Departure>>>): (r: map<string, Option<seq<Departure>>>)
    ensures r.Keys == m.Keys + DataIds(pages)
    ensures forall id :: id in m && id !in DataIds(pages) ==> r[id] == m[id]
    ensures forall id :: id in DataIds(pages) ==> r[id].Some? && |r[id].value| <= DisplayCap
    decreases |pages|
  {
    if |pages| == 0 then m
    else
      var init := pages[..|pages| - 1];
      var last := pages[|pages| - 1];
      var before := Recompute(init, filters, floor, m);
      DataIdsSnoc(pages);
      if last.data.None? then before
      else before[last.id := Some(Derive(last.data.value, filters, floor))]
  }

  /** The state after the effect has run. */
  function Settle(s: BoardState): (r: BoardState)
    ensures r.pages == s.pages && r.filters == s.filters && r.timeFloor == s.timeFloor
    ensures r.selected == s.selected && r.searchTerm == s.searchTerm
    ensures r.derived.Keys == s.derived.Keys + DataIds(s.pages)
    ensures forall id :: id in DataIds(s.pages) ==> r.derived[id].Some?
    ensures forall id :: id in s.derived && id !in DataIds(s.pages) ==> r.derived[id] == s.derived[id]
  {
    s.(derived := Recompute(s.pages, s.filters, s.timeFloor, s.derived))
  }

  /** Every page with data shows exactly its derived rows. */
  ghost predicate Consistent(s: BoardState) {
    forall i :: 0 <= i < |s.pages| && s.pages[i].data.Some? ==>
      s.pages[i].id in s.derived
      && s.derived[s.pages[i].id] == Some(Derive(s.pages[i].data.value, s.filters, s.timeFloor))
  }

  /** With unique ids, the effect stores each page's own derivation. */
  lemma {:induction false} RecomputeEntry(pages: seq<Page>, filters: seq<BusFilter>, floor: string,
                                          m: map<string, Option<seq<Departure>>>, i: nat)
    requires UniqueIds(pages)
    requires i < |pages| && pages[i].data.Some?
    ensures pages[i].id in Recompute(pages, filters, floor, m)
    ensures Recompute(pages, filters, floor, m)[pages[i].id]
              == Some(Derive(pages[i].data.value, filters, floor))
    decreases |pages|
  {
    var init := pages[..|pages| - 1];
    if i < |pages| - 1 {
      assert init[i] == pages[i];
      UniqueIdsPrefix(pages);
      RecomputeEntry(init, filters, floor, m, i);
      RecomputeKeepsOthers(pages, filters, floor, m, pages[i].id);
    }
  }

  lemma UniqueIdsPrefix(pages: seq<Page>)
    requires |pages| > 0 && UniqueIds(pages)
    ensures UniqueIds(pages[..|pages| - 1])
    ensures forall j :: 0 <= j < |pages| - 1 ==> pages[j].id != pages[|pages| - 1].id
  {
    var init := pages[..|pages| - 1];
    assert forall j :: 0 <= j < |init| ==> init[j] == pages[j];
  }

  /** The last page's run leaves every other id's entry as it was. */
  lemma RecomputeKeepsOthers(pages: seq<Page>, filters: seq<BusFilter>, floor: string,
                             m: map<string, Option<seq<Departure>>>, id: string)
    requires |pages| > 0 && pages[|pages| - 1].id != id
    ensures var before := Recompute(pages[..|pages| - 1], filters, floor, m);
      id in before ==> id in Recompute(pages, filters, floor, m)
                       && Recompute(pages, filters, floor, m)[id] == before[id]
  {
  }

  /** The effect only overrides: its result is the old map updated with the
      entries it writes, whatever the old map held. */
  lemma {:induction false} RecomputeOverrides(pages: seq<Page>, filters: seq<BusFilter>, floor: string,
                                              m: map<string, Option<seq<Departure>>>)
    ensures Recompute(pages, filters, floor, m) == m + Recompute(pages, filters, floor, map[])
    decreases |pages|
  {
    if |pages| > 0 {
      RecomputeOverrides(pages[..|pages| - 1], filters, floor, m);
    }
  }

  /** Running the effect twice gives the same rows as running it once. */
  lemma SettleIdempotent(s: BoardState)
    ensures Settle(Settle(s)) == Settle(s)
  {
    var w := Recompute(s.pages, s.filters, s.timeFloor, map[]);
    RecomputeOverrides(s.pages, s.filters, s.timeFloor, s.derived);
    RecomputeOverrides(s.pages, s.filters, s.timeFloor, s.derived + w);
    assert (s.derived + w) + w == s.derived + w;
  }

  /** After the effect, with unique page ids, every page with data shows its
      derivation: at most eleven rows, in order, from its first eleven. */
  lemma SettleConsistent(s: BoardState)
    requires UniqueIds(s.pages)
    ensures Consistent(Settle(s))
  {
    forall i | 0 <= i < |s.pages| && s.pages[i].data.Some?
      ensures s.pages[i].id in Settle(s).derived
      ensures Settle(s).derived[s.pages[i].id]
                == Some(Derive(s.pages[i].data.value, s.filters, s.timeFloor))
    {
      RecomputeEntry(s.pages, s.filters, s.timeFloor, s.derived, i);
    }
  }

  /** An id with no page and no rows never gains rows from the effect. */
  lemma SettleNeverReintroduces(s: BoardState, id: string)
    requires id !in s.derived && !HasPage(s.pages, id)
    ensures id !in Settle(s).derived
  {
  }

  /** Pages without data keep whatever rows they had. */
  lemma SettleSkipsPagesWithoutData(s: BoardState, i: nat)
    requires UniqueIds(s.pages)
    requires i < |s.pages| && s.pages[i].data.None? && s.pages[i].id in s.derived
    ensures Settle(s).derived[s.pages[i].id] == s.derived[s.pages[i].id]
  {
    assert s.pages[i].id !in DataIds(s.pages);
  }

  // ---------------------------------------------------------------------
  // Batches: a handler's state updates, then (maybe) the effect.
  // ---------------------------------------------------------------------

  /** The context's setters. */
  datatype Action =
    | AddPageA(init: Option<Page>, freshId: string)
    | RemovePageA(id: string)
    | UpdatePageA(id: string, patch: PagePatch)
    | SetRowsA(id: string, rows: seq<Departure>)
    | SetSearchTermA(term: string)
    | AddFilterA(filter: BusFilter)
    | RemoveFilterA(id: string)
    | UpdateFilterA(id: string, fpatch: FilterPatch)
    | SetTimeFloorA(floor: string)
    | SelectA(selection: Option<string>)
    | SetPagesA(newPages: seq<Page>)

  function Apply(s: BoardState, a: Action): BoardState {
    match a
    case AddPageA(init, freshId) => AddPage(s, init, freshId)
    case RemovePageA(id) => RemovePage(s, id)
    case UpdatePageA(id, patch) => UpdatePage(s, id, patch)
    case SetRowsA(id, rows) => SetRows(s, id, rows)
    case SetSearchTermA(term) => s.(searchTerm := term)
    case AddFilterA(f) => AddFilter(s, f)
    case RemoveFilterA(id) => RemoveFilter(s, id)
    case UpdateFilterA(id, patch) => UpdateFilter(s, id, patch)
    case SetTimeFloorA(floor) => s.(timeFloor := floor)
    case SelectA(sel) => s.(selected := sel)
    case SetPagesA(pages) => s.(pages := pages)
  }

  /** The page and filter setters always build a new array, which the
      effect's dependency check sees as a change. */
  predicate ReplacesArray(a: Action) {
    a.AddPageA? || a.RemovePageA? || a.UpdatePageA? || a.SetPagesA?
    || a.AddFilterA? || a.RemoveFilterA? || a.UpdateFilterA?
  }

  function ApplyAll(s: BoardState, acts: seq<Action>): BoardState
    decreases |acts|
  {
    if |acts| == 0 then s else ApplyAll(Apply(s, acts[0]), acts[1..])
  }

  /** Whether a batch triggers the effect: one of its updates replaced the
      page or filter array, or the time floor ended up different. */
  predicate RunsEffect(s: BoardState, acts: seq<Action>) {
    (exists i :: 0 <= i < |acts| && ReplacesArray(acts[i])) || ApplyAll(s, acts).timeFloor != s.timeFloor
  }

  /** One batch of updates from a handler, followed by the effect when one
      of its dependencies (pages, filters, time floor) changed. */
  function Run(s: BoardState, acts: seq<Action>): (r: BoardState)
    ensures !RunsEffect(s, acts) ==> r == ApplyAll(s, acts)
  {
    var t := ApplyAll(s, acts);
    if RunsEffect(s, acts) then Settle(t) else t
  }

  /** A batch changes the rows map only through the effect: everything
      else is what its updates left, and when the effect runs it adds an
      entry for every page with data and keeps the ids already there. */
  lemma RunTouchesOnlyRows(s: BoardState, acts: seq<Action>)
    ensures var t := ApplyAll(s, acts);
      var r := Run(s, acts);
      && r.pages == t.pages && r.filters == t.filters && r.timeFloor == t.timeFloor
      && r.selected == t.selected && r.searchTerm == t.searchTerm
      && (RunsEffect(s, acts) ==> r.derived.Keys == t.derived.Keys + DataIds(t.pages))
  {
  }

  /** A batch of one update. */
  lemma RunOne(s: BoardState, a: Action)
    ensures Run(s, [a]) == if ReplacesArray(a) || Apply(s, a).timeFloor != s.timeFloor
                           then Settle(Apply(s, a)) else Apply(s, a)
  {
    assert ApplyAll(s, [a]) == ApplyAll(Apply(s, a), []);
    assert [a][0] == a;
  }

  /** Replacing the page array, effect included, installs the new pages,
      leaves filters, floor and selection alone, and with unique ids leaves
      every page showing its derivation. */
  lemma SetPagesRun(s: BoardState, pages: seq<Page>)
    ensures var r := Run(s, [SetPagesA(pages)]);
      && r.pages == pages && r.filters == s.filters && r.timeFloor == s.timeFloor && r.selected == s.selected
      && (UniqueIds(pages) ==> Consistent(r))
  {
    var t := s.(pages := pages);
    var r := Run(s, [SetPagesA(pages)]);
    RunOne(s, SetPagesA(pages));
    assert Apply(s, SetPagesA(pages)) == t;
    assert ReplacesArray(SetPagesA(pages));
    assert r == Settle(t);
    if UniqueIds(pages) {
      SettleConsistent(t);
    }
  }

  /** Adding a filter appends it and leaves the pages, the floor, the
      selection and the search term alone. */
  lemma AddFilterRun(s: BoardState, f: BusFilter)
    ensures var r := Run(s, [AddFilterA(f)]);
      && r.filters == s.filters + [f]
      && r.pages == s.pages && r.timeFloor == s.timeFloor
      && r.selected == s.selected && r.searchTerm == s.searchTerm
  {
    RunOne(s, AddFilterA(f));
  }

  /** Adding a default page: the old pages are kept as a prefix, the new
      page is selected and, once the effect has run, shows no rows. */
  lemma AddDefaultPageRun(s: BoardState, freshId: string)
    requires UniqueIds(s.pages) && !HasPage(s.pages, freshId)
    ensures var r := Run(s, [AddPageA(None, freshId)]);
      && r.pages == s.pages + [DefaultPage(freshId)]
      && r.selected == Some(freshId)
      && freshId in r.derived && r.derived[freshId] == Some([])
  {
    var t := AddPage(s, None, freshId);
    assert ApplyAll(s, [AddPageA(None, freshId)]) == ApplyAll(t, []);
    assert UniqueIds(t.pages);
    RecomputeEntry(t.pages, t.filters, t.timeFloor, t.derived, |s.pages|);
    assert ReplacesArray([AddPageA(None, freshId)][0]);
  }

  /** Removing a page forgets its rows, and no later run of the effect
      brings them back. */
  lemma RemovePageRun(s: BoardState, id: string)
    ensures var r := Run(s, [RemovePageA(id)]);
      id !in r.derived && !HasPage(r.pages, id) && id !in Settle(r).derived
  {
    var t := RemovePage(s, id);
    assert ApplyAll(s, [RemovePageA(id)]) == ApplyAll(t, []);
    assert ReplacesArray([RemovePageA(id)][0]);
    SettleNeverReintroduces(t, id);
  }

  /** A handler's "show these rows on that board" batch: the page update
      carrying the rows, then `updateFilteredData` with the same rows. When
      a page has the id (ids unique) the effect derives its rows; when none
      has, the rows stay verbatim. */
  lemma UpdateWithRowsRun(s: BoardState, id: string, patch: PagePatch)
    requires patch.data.Some?
    ensures var r := Run(s, [UpdatePageA(id, patch), SetRowsA(id, patch.data.value)]);
      && r.pages == UpdatePage(s, id, patch).pages
      && r.filters == s.filters && r.timeFloor == s.timeFloor && r.selected == s.selected
      && r.searchTerm == s.searchTerm
      && id in r.derived
      && (UniqueIds(s.pages) && HasPage(s.pages, id) ==>
            r.derived[id] == Some(Derive(patch.data.value, s.filters, s.timeFloor)))
      && (!HasPage(s.pages, id) ==> r.derived[id] == patch.data)
  {
    var acts := [UpdatePageA(id, patch), SetRowsA(id, patch.data.value)];
    var t := SetRows(UpdatePage(s, id, patch), id, patch.data.value);
    assert ApplyAll(s, acts) == ApplyAll(UpdatePage(s, id, patch), acts[1..]);
    assert acts[1..] == [SetRowsA(id, patch.data.value)];
    assert ApplyAll(UpdatePage(s, id, patch), acts[1..]) == ApplyAll(t, acts[1..][1..]);
    assert acts[1..][1..] == [];
    assert ApplyAll(s, acts) == t;
    assert ReplacesArray(acts[0]);
    assert Run(s, acts) == Settle(t);
    UpdatePageKeepsIds(s, id, patch);
    if UniqueIds(s.pages) && HasPage(s.pages, id) {
      var i :| 0 <= i < |s.pages| && s.pages[i].id == id;
      assert t.pages[i] == MergePage(s.pages[i], patch);
      assert t.pages[i].data == patch.data;
      RecomputeEntry(t.pages, t.filters, t.timeFloor, t.derived, i);
    }
    if !HasPage(s.pages, id) {
      assert id !in DataIds(t.pages);
    }
  }

  /** Updating a page never changes which id sits where. */
  lemma UpdatePageKeepsIds(s: BoardState, id: string, patch: PagePatch)
    ensures var r := UpdatePage(s, id, patch);
      && (forall i :: 0 <= i < |s.pages| ==> r.pages[i].id == s.pages[i].id)
      && (UniqueIds(s.pages) ==> UniqueIds(r.pages))
      && (forall k :: HasPage(r.pages, k) <==> HasPage(s.pages, k))
  {
    var r := UpdatePage(s, id, patch);
    forall k ensures HasPage(r.pages, k) <==> HasPage(s.pages, k) {
      if HasPage(s.pages, k) {
        var i :| 0 <= i < |s.pages| && s.pages[i].id == k;
        assert r.pages[i].id == k;
      }
      if HasPage(r.pages, k) {
        var i :| 0 <= i < |r.pages| && r.pages[i].id == k;
        assert s.pages[i].id == k;
      }
    }
  }

  /** Whenever a batch replaces the page or filter array and leaves the ids
      unique, every board shows its own derivation afterwards. */
  lemma RunConsistent(s: BoardState, acts: seq<Action>, i: nat)
    requires i < |acts| && ReplacesArray(acts[i])
    requires UniqueIds(ApplyAll(s, acts).pages)
    ensures Consistent(Run(s, acts))
  {
    SettleConsistent(ApplyAll(s, acts));
  }

  /** New data for an id no page carries is kept verbatim: the effect does
      not touch ids without a page. */
  lemma UpdateMissingPageRun(s: BoardState, id: string, rows: seq<Departure>)
    requires !HasPage(s.pages, id)
    ensures var r := Run(s, [UpdatePageA(id, PagePatch(None, None, None, Some(rows)))]);
      r.pages == s.pages && id in r.derived && r.derived[id] == Some(rows)
  {
    var patch := PagePatch(None, None, None, Some(rows));
    var t := UpdatePage(s, id, patch);
    assert ApplyAll(s, [UpdatePageA(id, patch)]) == ApplyAll(t, []);
    assert t.pages == s.pages;
    assert id !in DataIds(t.pages);
    assert ReplacesArray([UpdatePageA(id, patch)][0]);
  }

  /** Removing a just-added filter restores the filter list. */
  lemma RemoveAddedFilter(s: BoardState, f: BusFilter)
    requires forall g :: g in s.filters ==> g.id != f.id
    ensures RemoveFilter(AddFilter(s, f), f.id).filters == s.filters
  {
    var keep := (g: BusFilter) => g.id != f.id;
    KeepAppendOne(s.filters, f, keep);
    KeepAll(s.filters, keep);
  }

  /** Removing a just-added page restores the page list. */
  lemma RemoveAddedPage(s: BoardState, p: Page, freshId: string)
    requires !HasPage(s.pages, p.id)
    ensures RemovePage(AddPage(s, Some(p), freshId), p.id).pages == s.pages
  {
    var keep := (q: Page) => q.id != p.id;
    assert AddPage(s, Some(p), freshId).pages == s.pages + [p];
    KeepAppendOne(s.pages, p, keep);
    assert forall q :: q in s.pages ==> keep(q);
    KeepAll(s.pages, keep);
  }

  lemma {:induction false} KeepAppendOne<T(!new)>(xs: seq<T>, x: T, p: T -> bool)
    ensures Keep(xs + [x], p) == Keep(xs, p) + (if p(x) then [x] else [])
    decreases |xs|
  {
    if |xs| > 0 {
      var ys := xs + [x];
      assert ys[0] == xs[0] && ys[1..] == xs[1..] + [x];
      KeepAppendOne(xs[1..], x, p);
      if p(xs[0]) {
        assert Keep(ys, p) == [xs[0]] + Keep(xs[1..] + [x], p);
        assert Keep(xs, p) == [xs[0]] + Keep(xs[1..], p);
      } else {
        assert Keep(ys, p) == Keep(xs[1..] + [x], p);
      }
    } else {
      assert xs + [x] == [x];
    }
  }
}

=== FILE: container.dfy ===
/** The board list's handlers (src/components/TimetableContainer.tsx):
    loading a project's boards, removing and adding boards, the theme swap
    around printing and the rows each board is given. Server replies are
    parameters. */
module Container {
  import opened Wrappers
  import opened Strings
  import opened Domain
  import opened Derivation
  import opened Board

  /** `loadTimetables`, run inside a project: the server's list replaces the
      boards only when it is non-empty; an empty list or a failed request
      leaves the local boards alone. */
  function LoadTimetables(s: BoardState, projectId: Option<string>, reply: Result<seq<Page>, string>): (r: BoardState)
    ensures NonEmpty(projectId) && reply.Success? && |reply.value| > 0 ==> r.pages == reply.value
    ensures !(NonEmpty(projectId) && reply.Success? && |reply.value| > 0) ==> r == s
    ensures r.filters == s.filters && r.timeFloor == s.timeFloor && r.selected == s.selected
    ensures NonEmpty(projectId) && reply.Success? && |reply.value| > 0 && UniqueIds(reply.value) ==>
      Consistent(r)
  {
    if NonEmpty(projectId) && reply.Success? && |reply.value| > 0 then
      SetPagesRun(s, reply.value);
      Run(s, [SetPagesA(reply.value)])
    else s
  }

  /** `handleRemovePage`: the board is removed locally first; the server
      delete (inside a project) can only add a notice, never the board
      back. The flag is that notice. */
  datatype Removal = Removal(board: BoardState, notified: bool)

  function HandleRemovePage(s: BoardState, id: string, projectId: Option<string>,
                            deleted: Result<(), string>): (r: Removal)
    ensures !HasPage(r.board.pages, id) && id !in r.board.derived
    ensures forall p :: p in r.board.pages <==> p in s.pages && p.id != id
    ensures forall p :: multiset(r.board.pages)[p] == if p.id != id then multiset(s.pages)[p] else 0
    ensures r.notified <==> NonEmpty(projectId) && deleted.Failure?
    ensures r.board.selected.None? <==> s.selected.None? || s.selected == Some(id)
    ensures r.board.filters == s.filters && r.board.timeFloor == s.timeFloor
    ensures Subsequence(r.board.pages, s.pages)
    ensures r.board.selected.Some? ==> r.board.selected == s.selected
    ensures r.board.searchTerm == s.searchTerm
    ensures UniqueIds(s.pages) ==> Consistent(r.board)
    ensures forall k :: k in s.derived && k != id && k !in DataIds(r.board.pages) ==>
      k in r.board.derived && r.board.derived[k] == s.derived[k]
  {
    RunOne(s, RemovePageA(id));
    SettleNeverReintroduces(RemovePage(s, id), id);
    assert UniqueIds(s.pages) ==> Consistent(Run(s, [RemovePageA(id)])) by {
      if UniqueIds(s.pages) {
        assert ApplyAll(s, [RemovePageA(id)]) == ApplyAll(RemovePage(s, id), []);
        RunConsistent(s, [RemovePageA(id)], 0);
      }
    }
    Removal(Run(s, [RemovePageA(id)]), NonEmpty(projectId) && deleted.Failure?)
  }

  /** A theme-only page patch. */
  function ThemePatch(theme: Theme): PagePatch {
    PagePatch(None, None, Some(theme), None)
  }

  /** The first step of `handlePrintPage`: an unknown id changes nothing;
      otherwise the board switches to the print theme and its original
      theme is handed to the second step. */
  datatype PrintStart = PrintStart(board: BoardState, original: Option<Theme>)

  function BeginPrint(s: BoardState, id: string, isBw: bool): (r: PrintStart)
    ensures !HasPage(s.pages, id) ==> r == PrintStart(s, None)
    ensures HasPage(s.pages, id) ==>
      && r.original == Some(s.pages[FindPage(s.pages, id).value].theme)
      && |r.board.pages| == |s.pages|
      && (forall i :: 0 <= i < |s.pages| ==>
            r.board.pages[i] == if s.pages[i].id == id
              then s.pages[i].(theme := if isBw then Bw else Color) else s.pages[i])
    ensures r.board.filters == s.filters && r.board.selected == s.selected
  {
    match FindPage(s.pages, id)
    case None => PrintStart(s, None)
    case Some(k) =>
      var theme := if isBw then Bw else Color;
      RunOne(s, UpdatePageA(id, ThemePatch(theme)));
      PrintStart(Run(s, [UpdatePageA(id, ThemePatch(theme))]), Some(s.pages[k].theme))
  }

  /** The delayed second step: put the original theme back. */
  function EndPrint(s: BoardState, id: string, original: Theme): (r: BoardState)
    ensures |r.pages| == |s.pages|
    ensures forall i :: 0 <= i < |s.pages| ==>
      r.pages[i] == if s.pages[i].id == id then s.pages[i].(theme := original) else s.pages[i]
    ensures r.filters == s.filters && r.selected == s.selected
  {
    RunOne(s, UpdatePageA(id, ThemePatch(original)));
    Run(s, [UpdatePageA(id, ThemePatch(original))])
  }

  /** Printing a board and then running the restore step gives back the
      boards exactly as they were, when ids are unique. */
  lemma PrintRestoresPages(s: BoardState, id: string, isBw: bool)
    requires UniqueIds(s.pages)
    ensures var start := BeginPrint(s, id, isBw);
      start.original.Some? ==> EndPrint(start.board, id, start.original.value).pages == s.pages
  {
    var start := BeginPrint(s, id, isBw);
    if start.original.Some? {
      var k := FindPage(s.pages, id).value;
      var r := EndPrint(start.board, id, start.original.value);
      forall i | 0 <= i < |s.pages| ensures r.pages[i] == s.pages[i] {
        if s.pages[i].id == id {
          assert i == k;
        }
      }
    }
  }

  /** `handleThemeChange`: the board takes the theme; a failed server save
      is only logged. */
  function ThemeChange(s: BoardState, id: string, theme: Theme): (r: BoardState)
    ensures |r.pages| == |s.pages|
    ensures forall i :: 0 <= i < |s.pages| ==>
      r.pages[i] == if s.pages[i].id == id then s.pages[i].(theme := theme) else s.pages[i]
    ensures r.filters == s.filters && r.selected == s.selected
  {
    EndPrint(s, id, theme)
  }

  /** Changing a board's theme and then changing it back to the one it had
      gives back the boards as they were, when ids are unique. */
  lemma ThemeChangeUndone(s: BoardState, id: string, theme: Theme)
    requires UniqueIds(s.pages) && FindPage(s.pages, id).Some?
    ensures var k := FindPage(s.pages, id).value;
      ThemeChange(ThemeChange(s, id, theme), id, s.pages[k].theme).pages == s.pages
  {
    var k := FindPage(s.pages, id).value;
    var r := ThemeChange(ThemeChange(s, id, theme), id, s.pages[k].theme);
    forall i | 0 <= i < |s.pages| ensures r.pages[i] == s.pages[i] {
      if s.pages[i].id == id {
        assert i == k;
      }
    }
  }

  /** The most boards a free account may have in a project. */
  const FreePageLimit: nat := 3

  /** `handleAddTimetable`. Inside a project it asks for the caller's
      permissions (a failure adds nothing), refuses a free account that
      already has three boards, and otherwise adds a placeholder board
      locally before the server save, whose failure is only reported.
      Outside a project it adds the default board. */
  function AddTimetable(s: BoardState, projectId: Option<string>, isPremium: Result<bool, string>,
                        freshId: string): (r: BoardState)
    ensures NonEmpty(projectId) && isPremium.Failure? ==> r == s
    ensures NonEmpty(projectId) && isPremium.Success? && !isPremium.value && |s.pages| >= FreePageLimit ==>
      r == s
    ensures (!NonEmpty(projectId) || (isPremium.Success? && (isPremium.value || |s.pages| < FreePageLimit))) ==>
      && r.pages == s.pages + [DefaultPage(freshId)]
      && r.selected == Some(freshId)
      && freshId in r.derived
    ensures r.filters == s.filters && r.timeFloor == s.timeFloor
  {
    if NonEmpty(projectId) then
      match isPremium
      case Failure(_) => s
      case Success(premium) =>
        if !premium && |s.pages| >= FreePageLimit then s
        else
          RunOne(s, AddPageA(Some(DefaultPage(freshId)), freshId));
          Run(s, [AddPageA(Some(DefaultPage(freshId)), freshId)])
    else
      RunOne(s, AddPageA(None, freshId));
      Run(s, [AddPageA(None, freshId)])
  }

  /** A free account never gets past three boards by this handler. */
  lemma FreeAccountsStayWithinLimit(s: BoardState, projectId: Option<string>, freshId: string)
    requires NonEmpty(projectId) && |s.pages| <= FreePageLimit
    ensures |AddTimetable(s, projectId, Success(false), freshId).pages| <= FreePageLimit
  {
  }

  /** `filteredData[page.id] || []`: the rows a board is given. */
  function PageRows(s: BoardState, id: string): (r: seq<Departure>)
    ensures id in s.derived && s.derived[id].Some? ==> r == s.derived[id].value
    ensures id !in s.derived || s.derived[id].None? ==> r == []
  {
    if id in s.derived && s.derived[id].Some? then s.derived[id].value else []
  }

  /** Once the effect has run, each board is given at most eleven rows,
      drawn in order from the first eleven of its data. */
  lemma PageRowsAfterSettle(s: BoardState, i: nat)
    requires UniqueIds(s.pages) && i < |s.pages| && s.pages[i].data.Some?
    ensures var rows := PageRows(Settle(s), s.pages[i].id);
      |rows| <= DisplayCap && Subsequence(rows, Cap(s.pages[i].data.value))
  {
    SettleConsistent(s);
  }

  /** Removing the board that `handleAddTimetable` just added (under an
      id no board had) gives back the boards there were before, whichever
      branch the add took. */
  lemma RemovingAddedBoardRestoresPages(s: BoardState, projectId: Option<string>, isPremium: Result<bool, string>,
                                        freshId: string, deleted: Result<(), string>)
    requires !HasPage(s.pages, freshId)
    ensures HandleRemovePage(AddTimetable(s, projectId, isPremium, freshId), freshId, projectId, deleted).board.pages
         == s.pages
  {
    var t := AddTimetable(s, projectId, isPremium, freshId);
    var keep := (q: Page) => q.id != freshId;
    RunOne(t, RemovePageA(freshId));
    assert Run(t, [RemovePageA(freshId)]).pages == Keep(t.pages, keep);
    assert forall q :: q in s.pages ==> keep(q);
    KeepAll(s.pages, keep);
    if t.pages != s.pages {
      KeepAppendOne(s.pages, DefaultPage(freshId), keep);
    }
  }
}

=== FILE: dashboard.dfy ===
/** The project list (src/components/Dashboard.tsx): who may create a
    project, and how creating and deleting change the list shown. Server
    replies and the confirmation dialog's answer are parameters. */
module Dashboard {
  import opened Wrappers
  import opened Strings
  import opened Derivation

  /** A project as the list shows it. */
  datatype ProjectRow = ProjectRow(id: string, name: string, userId: string)

  datatype DashboardState = DashboardState(projects: seq<ProjectRow>, newName: string, dialogOpen: bool)

  /** `canCreateProject`: the "New Project" button is live only while the
      list is empty. */
  predicate CanCreateProject(d: DashboardState) {
    |d.projects| == 0
  }

  /** The button: opens the dialog when creation is offered; disabled
      otherwise. */
  function OpenDialog(d: DashboardState): (r: DashboardState)
    ensures r.dialogOpen <==> d.dialogOpen || CanCreateProject(d)
    ensures r.(dialogOpen := d.dialogOpen) == d
  {
    if CanCreateProject(d) then d.(dialogOpen := true) else d
  }

  /** The name `handleCreateProject` sends to the server: the field as
      typed, or nothing when it is empty or whitespace only. */
  function CreateRequest(d: DashboardState): (r: Option<string>)
    ensures r.None? <==> AllWhitespace(d.newName)
    ensures r.Some? ==> r.value == d.newName
  {
    if Trim(d.newName) == "" then None else Some(d.newName)
  }

  /** `handleCreateProject`, given the server's reply: a blank name or a
      failure leaves everything as it was; a created project goes first in
      the list, and the field and the dialog are reset. */
  function CreateProject(d: DashboardState, created: Result<ProjectRow, string>): (r: DashboardState)
    ensures CreateRequest(d).None? || created.Failure? ==> r == d
    ensures CreateRequest(d).Some? && created.Success? ==>
      r == DashboardState([created.value] + d.projects, "", false)
  {
    if CreateRequest(d).None? then d
    else match created
      case Failure(_) => d
      case Success(p) => DashboardState([p] + d.projects, "", false)
  }

  /** Once a project is created, creation is no longer offered. */
  lemma CreateClosesCreation(d: DashboardState, p: ProjectRow)
    requires !AllWhitespace(d.newName)
    ensures !CanCreateProject(CreateProject(d, Success(p)))
  {
  }

  /** `handleDeleteProject`: after confirmation and a successful server
      delete, the projects with that id leave the list and the rest keep
      their order; a cancel or a failure leaves the list as it was. */
  function DeleteProject(d: DashboardState, id: string, confirmed: bool, deleted: Result<(), string>): (r: DashboardState)
    ensures !confirmed || deleted.Failure? ==> r == d
    ensures confirmed && deleted.Success? ==>
      && (forall p :: p in r.projects <==> p in d.projects && p.id != id)
      && (forall p :: multiset(r.projects)[p] == if p.id != id then multiset(d.projects)[p] else 0)
      && Subsequence(r.projects, d.projects)
      && r.(projects := d.projects) == d
  {
    if !confirmed then d
    else match deleted
      case Failure(_) => d
      case Success(_) => d.(projects := Keep(d.projects, (p: ProjectRow) => p.id != id))
  }

  /** Deleting a project right after creating it, when no listed project
      shared its id, gives back the list there was. */
  lemma DeleteUndoesCreate(d: DashboardState, p: ProjectRow)
    requires CreateRequest(d).Some?
    requires forall q :: q in d.projects ==> q.id != p.id
    ensures DeleteProject(CreateProject(d, Success(p)), p.id, true, Success(())).projects == d.projects
  {
    var keep := (q: ProjectRow) => q.id != p.id;
    var xs := [p] + d.projects;
    assert xs[0] == p && xs[1..] == d.projects;
    assert Keep(xs, keep) == Keep(d.projects, keep);
    KeepAll(d.projects, keep);
  }
}

=== FILE: derivation.dfy ===
/** The row derivation of the board state container
    (src/contexts/AppContext.tsx, the effect at lines 102-130): cap the raw
    departures to the first eleven, keep the rows some line filter admits,
    then keep the rows at or after the time floor. */
module Derivation {
  import opened Wrappers
  import opened Strings
  import opened Domain

  /** The number of rows a board can show. */
  const DisplayCap: nat := 11

  /** `rows.slice(0, 11)`. */
  function Cap(rows: seq<Departure>): seq<Departure> {
    if |rows| <= DisplayCap then rows else rows[..DisplayCap]
  }

  /** `!filter.direction || filter.direction === destination`. */
  predicate DirectionAdmits(direction: Option<string>, destination: string) {
    !NonEmpty(direction) || direction.value == destination
  }

  /** A filter admits a row when the line numbers are equal and the
      direction, if one is set, names the row's terminal. */
  predicate FilterMatches(f: BusFilter, d: Departure) {
    f.number == d.busNumber && DirectionAdmits(f.direction, d.destination)
  }

  /** `busFilters.some(...)`: filters combine by disjunction. */
  predicate AnyFilterMatches(filters: seq<BusFilter>, d: Departure) {
    exists i :: 0 <= i < |filters| && FilterMatches(filters[i], d)
  }

  /** `a` is `b` with some elements dropped and the rest in order. */
  predicate Subsequence<T(==)>(a: seq<T>, b: seq<T>)
    decreases |b|
  {
    if |a| == 0 then true
    else if |b| == 0 then false
    else (a[0] == b[0] && Subsequence(a[1..], b[1..])) || Subsequence(a, b[1..])
  }

  /** `xs.filter(p)`: every admitted element with all its copies, in
      order, and nothing else. */
  function Keep<T(==,!new)>(xs: seq<T>, p: T -> bool): (r: seq<T>)
    ensures |r| <= |xs|
    ensures forall x :: x in r <==> x in xs && p(x)
    ensures forall x {:trigger multiset(r)[x]} :: multiset(r)[x] == if p(x) then multiset(xs)[x] else 0
    ensures Subsequence(r, xs)
  {
    if |xs| == 0 then []
    else
      assert xs == [xs[0]] + xs[1..];
      if p(xs[0]) then
        var tail := Keep(xs[1..], p);
        assert ([xs[0]] + tail)[1..] == tail;
        [xs[0]] + tail
      else Keep(xs[1..], p)
  }

  /** Filtering twice is filtering once by the conjunction. */
  lemma {:induction false} KeepKeep<T(!new)>(xs: seq<T>, p: T -> bool, q: T -> bool, both: T -> bool)
    requires forall x :: x in xs ==> both(x) == (p(x) && q(x))
    ensures Keep(Keep(xs, p), q) == Keep(xs, both)
    decreases |xs|
  {
    if |xs| > 0 {
      assert forall x :: x in xs[1..] ==> x in xs;
      KeepKeep(xs[1..], p, q, both);
      if p(xs[0]) {
        var tail := Keep(xs[1..], p);
        assert Keep(xs, p) == [xs[0]] + tail;
        assert ([xs[0]] + tail)[1..] == tail;
      }
    }
  }

  /** Filters that agree on every element of `xs` keep the same rows. */
  lemma {:induction false} KeepCongruent<T(!new)>(xs: seq<T>, p: T -> bool, q: T -> bool)
    requires forall x :: x in xs ==> p(x) == q(x)
    ensures Keep(xs, p) == Keep(xs, q)
    decreases |xs|
  {
    if |xs| > 0 {
      assert forall x :: x in xs[1..] ==> x in xs;
      KeepCongruent(xs[1..], p, q);
    }
  }

  /** A filter that admits every element keeps the whole sequence. */
  lemma {:induction false} KeepAll<T(!new)>(xs: seq<T>, p: T -> bool)
    requires forall x :: x in xs ==> p(x)
    ensures Keep(xs, p) == xs
    decreases |xs|
  {
    if |xs| > 0 {
      assert forall x :: x in xs[1..] ==> x in xs;
      KeepAll(xs[1..], p);
      assert Keep(xs, p) == [xs[0]] + Keep(xs[1..], p);
      assert xs == [xs[0]] + xs[1..];
    }
  }

  /** A filter that admits no element keeps nothing. */
  lemma {:induction false} KeepNone<T(!new)>(xs: seq<T>, p: T -> bool)
    requires forall x :: x in xs ==> !p(x)
    ensures Keep(xs, p) == []
    decreases |xs|
  {
    if |xs| > 0 {
      assert forall x :: x in xs[1..] ==> x in xs;
      KeepNone(xs[1..], p);
    }
  }

  /** Whether a row passes both the line filters and the time floor; an
      empty filter list and an empty floor admit everything. */
  predicate Visible(filters: seq<BusFilter>, floor: string, d: Departure) {
    && (|filters| == 0 || AnyFilterMatches(filters, d))
    && (floor == "" || AtOrAfter(d.time, floor))
  }

  function LineTest(filters: seq<BusFilter>): Departure -> bool {
    d => AnyFilterMatches(filters, d)
  }

  function TimeTest(floor: string): Departure -> bool {
    (d: Departure) => AtOrAfter(d.time, floor)
  }

  function VisibleTest(filters: seq<BusFilter>, floor: string): Departure -> bool {
    d => Visible(filters, floor, d)
  }

  /** The line-filter step; skipped when no filter is active. */
  function ByLine(rows: seq<Departure>, filters: seq<BusFilter>): seq<Departure> {
    if |filters| > 0 then Keep(rows, LineTest(filters)) else rows
  }

  /** The time-floor step; skipped when the floor is empty. */
  function ByTime(rows: seq<Departure>, floor: string): seq<Departure> {
    if floor != "" then Keep(rows, TimeTest(floor)) else rows
  }

  lemma {:induction false} SubsequenceReflexive<T>(xs: seq<T>)
    ensures Subsequence(xs, xs)
    decreases |xs|
  {
    if |xs| > 0 {
      SubsequenceReflexive(xs[1..]);
    }
  }

  /** The rows a board shows: at most eleven, in raw order, taken from the
      first eleven raw departures, and exactly the visible ones among them. */
  function Derive(raw: seq<Departure>, filters: seq<BusFilter>, floor: string): (r: seq<Departure>)
    ensures |r| <= DisplayCap
    ensures Subsequence(r, Cap(raw))
    ensures forall d :: d in r <==> d in Cap(raw) && Visible(filters, floor, d)
    ensures forall d :: multiset(r)[d] == if Visible(filters, floor, d) then multiset(Cap(raw))[d] else 0
  {
    var capped := Cap(raw);
    var r := ByTime(ByLine(capped, filters), floor);
    DeriveIsFilterOfCapped(raw, filters, floor);
    assert forall d :: VisibleTest(filters, floor)(d) == Visible(filters, floor, d);
    r
  }

  /** Reference definition: derivation is a single filter by `Visible` over
      the capped rows. */
  lemma DeriveIsFilterOfCapped(raw: seq<Departure>, filters: seq<BusFilter>, floor: string)
    ensures ByTime(ByLine(Cap(raw), filters), floor) == Keep(Cap(raw), VisibleTest(filters, floor))
  {
    var capped := Cap(raw);
    if |filters| > 0 && floor != "" {
      KeepKeep(capped, LineTest(filters), TimeTest(floor), VisibleTest(filters, floor));
    } else if |filters| > 0 {
      KeepCongruent(capped, LineTest(filters), VisibleTest(filters, floor));
    } else if floor != "" {
      KeepCongruent(capped, TimeTest(floor), VisibleTest(filters, floor));
    } else {
      KeepAll(capped, VisibleTest(filters, floor));
    }
  }

  /** With no filters and no floor a board shows its first eleven rows. */
  lemma {:induction false} UnfilteredShowsFirstEleven(raw: seq<Departure>)
    ensures Derive(raw, [], "") == raw[..if |raw| < DisplayCap then |raw| else DisplayCap]
  {
  }

  /** The cap applies before filtering: when none of the first eleven rows
      matches a filter, the board is empty whatever follows them. */
  lemma CapBeforeFilter(raw: seq<Departure>, filters: seq<BusFilter>, floor: string)
    requires |filters| > 0
    requires forall i :: 0 <= i < |raw| && i < DisplayCap ==> !AnyFilterMatches(filters, raw[i])
    ensures Derive(raw, filters, floor) == []
  {
    var capped := Cap(raw);
    forall x | x in capped ensures !AnyFilterMatches(filters, x) {
      var i :| 0 <= i < |capped| && capped[i] == x;
      assert i < DisplayCap && capped[i] == raw[i];
    }
    KeepNone(capped, LineTest(filters));
  }
}

=== FILE: domain.dfy ===
/** The records the front end passes around (src/types/index.ts). */
module Domain {
  import opened Wrappers

  /** One scheduled departure: an "HH:MM" time, a line number and the
      terminal it runs to. */
  datatype Departure = Departure(time: string, busNumber: string, destination: string)

  datatype Theme = Color | Bw

  /** A timetable board. `data` is declared as an array, but boards read
      back from the server may lack it, and the derivation step checks for
      that, so absence is kept representable. */
  datatype Page = Page(id: string, stopName: string, stopId: string, theme: Theme,
                       data: Option<seq<Departure>>)

  /** A line filter; an absent or empty `direction` admits every terminal. */
  datatype BusFilter = BusFilter(id: string, number: string, direction: Option<string>)

  /** A stop returned by the completion service; `name` is its `label`. */
  datatype Suggestion = Suggestion(name: string, id: Option<string>)

  /** The placeholder board the "add timetable" buttons create. */
  const PlaceholderStopName := "Select a stop..."

  function DefaultPage(id: string): Page {
    Page(id, PlaceholderStopName, "", Color, Some([]))
  }

  /** Page ids are unique, which the server guarantees for stored boards. */
  ghost predicate UniqueIds(pages: seq<Page>) {
    forall i, j :: 0 <= i < j < |pages| ==> pages[i].id != pages[j].id
  }

  /** Some page carries this id. */
  predicate HasPage(pages: seq<Page>, id: string) {
    exists i :: 0 <= i < |pages| && pages[i].id == id
  }

  /** `pages.find(p => p.id === id)`, as the position of the first page
      with that id. */
  function FindPage(pages: seq<Page>, id: string): (r: Option<nat>)
    ensures r.None? <==> !HasPage(pages, id)
    ensures r.Some? ==> r.value < |pages| && pages[r.value].id == id
    ensures r.Some? ==> forall j :: 0 <= j < r.value ==> pages[j].id != id
    decreases |pages|
  {
    if |pages| == 0 then None
    else if pages[0].id == id then Some(0)
    else
      match FindPage(pages[1..], id)
      case None => None
      case Some(k) => Some(k + 1)
  }
}

=== FILE: migrations.dfy ===
/** The two one-off user migrations (convex/migrations.ts): giving users
    without a token one derived from their email, and deleting all but the
    newest user of each email. Both run over the users table in creation
    order; a user is named by its position in it. */
module Migrations {
  import opened Wrappers
  import opened Strings
  import opened Backend

  // ---------------------------------------------------------------------
  // Token backfill.
  // ---------------------------------------------------------------------

  const TokenPrefix := "email|"

  /** The backfill's test: no truthy token but a truthy email. */
  predicate NeedsToken(u: User) {
    !NonEmpty(u.token) && NonEmpty(u.email)
  }

  /** One user after the backfill. */
  function MigrateUser(u: User): (r: User)
    ensures NeedsToken(u) ==> r == u.(token := Some(TokenPrefix + u.email.value))
    ensures !NeedsToken(u) ==> r == u
    ensures !NeedsToken(r)
  {
    if NeedsToken(u) then u.(token := Some(TokenPrefix + u.email.value)) else u
  }

  /** The number of users the backfill would patch. */
  function CountNeeding(users: seq<User>): nat
    decreases |users|
  {
    if |users| == 0 then 0
    else CountNeeding(users[..|users| - 1]) + (if NeedsToken(users[|users| - 1]) then 1 else 0)
  }

  lemma {:induction false} CountNeedingZero(users: seq<User>)
    requires forall i :: 0 <= i < |users| ==> !NeedsToken(users[i])
    ensures CountNeeding(users) == 0
    decreases |users|
  {
    if |users| > 0 {
      CountNeedingZero(users[..|users| - 1]);
    }
  }

  datatype MigrationReport = MigrationReport(migratedCount: nat, totalUsers: nat)

  /** `migrateUsersToTokenIdentifier`: patches every user that needs a
      token with "email|" + email and counts them. Nothing is left for a
      second run to do. */
  method MigrateUsersToTokenIdentifier(users: seq<User>) returns (migrated: seq<User>, report: MigrationReport)
    ensures |migrated| == |users|
    ensures forall i :: 0 <= i < |users| ==> migrated[i] == MigrateUser(users[i])
    ensures report.totalUsers == |users|
    ensures report.migratedCount == CountNeeding(users)
    ensures CountNeeding(migrated) == 0
  {
    migrated := [];
    var count := 0;
    for i := 0 to |users|
      invariant |migrated| == i
      invariant forall j :: 0 <= j < i ==> migrated[j] == MigrateUser(users[j])
      invariant count == CountNeeding(users[..i])
    {
      assert users[..i + 1][..i] == users[..i];
      var user := users[i];
      if !NonEmpty(user.token) && NonEmpty(user.email) {
        migrated := migrated + [user.(token := Some(TokenPrefix + user.email.value))];
        count := count + 1;
      } else {
        migrated := migrated + [user];
      }
    }
    assert users[..|users|] == users;
    CountNeedingZero(migrated);
    report := MigrationReport(count, |users|);
  }

  // ---------------------------------------------------------------------
  // Duplicate clean-up.
  // ---------------------------------------------------------------------

  /** The clean-up's test: a truthy email. */
  predicate HasEmail(u: User) {
    NonEmpty(u.email)
  }

  /** The user the clean-up keeps for email `e` among `users`, computed as
      its loop does: a later user replaces the one held only when strictly
      newer. */
  function Keeper(users: seq<User>, e: string): (r: Option<nat>)
    ensures r.Some? ==> r.value < |users| && users[r.value].email == Some(e)
    decreases |users|
  {
    if |users| == 0 then None
    else
      var n := |users| - 1;
      var k := Keeper(users[..n], e);
      if users[n].email == Some(e) && (k.None? || users[n].creationTime > users[k.value].creationTime)
      then Some(n) else k
  }

  /** The user at `j` is the one to keep of its email: every earlier user
      with that email is strictly older and no later one is newer, so ties
      go to the first. */
  ghost predicate IsNewest(users: seq<User>, j: nat)
    requires j < |users|
  {
    forall k :: 0 <= k < |users| && users[k].email == users[j].email ==>
      && (k < j ==> users[k].creationTime < users[j].creationTime)
      && (j < k ==> users[k].creationTime <= users[j].creationTime)
  }

  /** The loop's keeper is the newest user of the email, and there is one
      exactly when some user has the email. */
  lemma {:induction false} KeeperIsNewest(users: seq<User>, e: string)
    ensures Keeper(users, e).None? <==> forall j :: 0 <= j < |users| ==> users[j].email != Some(e)
    ensures Keeper(users, e).Some? ==> IsNewest(users, Keeper(users, e).value)
    decreases |users|
  {
    if |users| > 0 {
      var n := |users| - 1;
      var pre := users[..n];
      KeeperIsNewest(pre, e);
      assert forall j :: 0 <= j < n ==> pre[j] == users[j];
    }
  }

  /** At most one user of an email is the newest. */
  lemma NewestIsUnique(users: seq<User>, a: nat, b: nat)
    requires a < |users| && b < |users| && users[a].email == users[b].email
    requires IsNewest(users, a) && IsNewest(users, b)
    ensures a == b
  {
  }

  /** The keeper after one more user: that user when it has the email and
      is strictly newer than the keeper so far. */
  lemma KeeperStep(users: seq<User>, i: nat, e: string)
    requires i < |users|
    ensures var k := Keeper(users[..i], e);
      Keeper(users[..i + 1], e)
        == if users[i].email == Some(e) && (k.None? || users[i].creationTime > users[k.value].creationTime)
           then Some(i) else k
  {
    assert users[..i + 1][..i] == users[..i];
  }

  /** The number of users with a truthy email. */
  function CountWithEmail(users: seq<User>): nat
    decreases |users|
  {
    if |users| == 0 then 0
    else CountWithEmail(users[..|users| - 1]) + (if HasEmail(users[|users| - 1]) then 1 else 0)
  }

  /** The distinct truthy emails. */
  function Emails(users: seq<User>): set<string> {
    set j | 0 <= j < |users| && HasEmail(users[j]) :: users[j].email.value
  }

  /** The clean-up's state after a prefix of the users: the keeper so far
      of each email seen, the positions marked for deletion and their
      number. */
  datatype Scan = Scan(kept: map<string, nat>, deleted: set<nat>, count: nat)

  /** The scan of `users[..i]` is accurate: `kept` holds each truthy email's
      keeper among the prefix, exactly the other users with a truthy email
      are marked, and every such user is counted once either way. */
  ghost predicate Scanned(users: seq<User>, i: nat, s: Scan)
    requires i <= |users|
  {
    && HoldsKeepers(users, i, s.kept)
    && MarksOthers(users, i, s.deleted)
    && s.count == |s.deleted|
    && s.count + |s.kept| == CountWithEmail(users[..i])
  }

  /** `kept` maps each truthy email of `users[..i]` to its keeper there. */
  ghost predicate HoldsKeepers(users: seq<User>, i: nat, kept: map<string, nat>)
    requires i <= |users|
  {
    && (forall e :: e in kept <==> e != "" && Keeper(users[..i], e).Some?)
    && (forall e :: e in kept ==> Keeper(users[..i], e) == Some(kept[e]))
  }

  /** `deleted` holds exactly the users of `users[..i]` with a truthy email
      that are not its keeper there. */
  ghost predicate MarksOthers(users: seq<User>, i: nat, deleted: set<nat>)
    requires i <= |users|
  {
    && (forall j :: j in deleted ==> j < i && HasEmail(users[j]))
    && (forall j :: 0 <= j < i && HasEmail(users[j]) ==>
          (j in deleted <==> Keeper(users[..i], users[j].email.value) != Some(j)))
  }

  /** One turn of the clean-up loop: a user with a truthy email either
      becomes its email's keeper, marking the previous one, or is marked. */
  function ScanStep(users: seq<User>, i: nat, s: Scan): (r: Scan)
    requires i < |users|
    requires forall e :: e in s.kept ==> s.kept[e] < |users|
    ensures !NonEmpty(users[i].email) ==> r == s
    ensures forall e :: e in r.kept ==> r.kept[e] < |users|
    ensures NonEmpty(users[i].email) ==>
      var e := users[i].email.value;
      && r.kept.Keys == s.kept.Keys + {e}
      && (forall f :: f in s.kept && f != e ==> r.kept[f] == s.kept[f])
      && (e !in s.kept ==> r.kept[e] == i && r.deleted == s.deleted && r.count == s.count)
      && (e in s.kept ==> r.count == s.count + 1)
      && (e in s.kept && users[i].creationTime > users[s.kept[e]].creationTime ==>
            r.kept[e] == i && r.deleted == s.deleted + {s.kept[e]})
      && (e in s.kept && users[i].creationTime <= users[s.kept[e]].creationTime ==>
            r.kept[e] == s.kept[e] && r.deleted == s.deleted + {i})
  {
    var user := users[i];
    if !NonEmpty(user.email) then s
    else
      var e := user.email.value;
      if e !in s.kept then s.(kept := s.kept[e := i])
      else if user.creationTime > users[s.kept[e]].creationTime then
        Scan(s.kept[e := i], s.deleted + {s.kept[e]}, s.count + 1)
      else s.(deleted := s.deleted + {i}, count := s.count + 1)
  }

  lemma ScannedKeepersInRange(users: seq<User>, i: nat, s: Scan)
    requires i <= |users| && Scanned(users, i, s)
    ensures forall e :: e in s.kept ==> s.kept[e] < i
  {
  }

  /** Only the new user's own email can change keeper. */
  lemma KeeperElsewhere(users: seq<User>, i: nat)
    requires i < |users|
    ensures forall e :: users[i].email != Some(e) ==> Keeper(users[..i + 1], e) == Keeper(users[..i], e)
  {
    forall e | users[i].email != Some(e) ensures Keeper(users[..i + 1], e) == Keeper(users[..i], e) {
      KeeperStep(users, i, e);
    }
  }

  lemma CountWithEmailStep(users: seq<User>, i: nat)
    requires i < |users|
    ensures CountWithEmail(users[..i + 1]) == CountWithEmail(users[..i]) + (if HasEmail(users[i]) then 1 else 0)
  {
    assert users[..i + 1][..i] == users[..i];
  }

  lemma ScanSkipsNoEmail(users: seq<User>, i: nat, s: Scan)
    requires i < |users| && Scanned(users, i, s) && !HasEmail(users[i])
    ensures Scanned(users, i + 1, s)
  {
    KeeperElsewhere(users, i);
    assert HoldsKeepers(users, i + 1, s.kept);
    assert MarksOthers(users, i + 1, s.deleted);
    CountWithEmailStep(users, i);
  }

  lemma ScanFirstOfEmail(users: seq<User>, i: nat, s: Scan)
    requires i < |users| && Scanned(users, i, s) && HasEmail(users[i])
    requires users[i].email.value !in s.kept
    ensures Scanned(users, i + 1, s.(kept := s.kept[users[i].email.value := i]))
  {
    var e := users[i].email.value;
    KeeperElsewhere(users, i);
    KeeperStep(users, i, e);
    assert HoldsKeepers(users, i + 1, s.kept[e := i]);
    assert MarksOthers(users, i + 1, s.deleted);
    CountWithEmailStep(users, i);
  }

  /** A strictly newer user takes over: the previous keeper gets marked. */
  lemma MarksAfterNewer(users: seq<User>, i: nat, deleted: set<nat>, k: nat)
    requires i < |users| && MarksOthers(users, i, deleted) && HasEmail(users[i])
    requires Keeper(users[..i], users[i].email.value) == Some(k)
    requires users[i].creationTime > users[k].creationTime
    ensures MarksOthers(users, i + 1, deleted + {k})
  {
    KeeperElsewhere(users, i);
    KeeperStep(users, i, users[i].email.value);
  }

  /** A user no newer than the keeper gets marked itself. */
  lemma MarksAfterOlder(users: seq<User>, i: nat, deleted: set<nat>, k: nat)
    requires i < |users| && MarksOthers(users, i, deleted) && HasEmail(users[i])
    requires Keeper(users[..i], users[i].email.value) == Some(k)
    requires users[i].creationTime <= users[k].creationTime
    ensures MarksOthers(users, i + 1, deleted + {i})
  {
    KeeperElsewhere(users, i);
    KeeperStep(users, i, users[i].email.value);
  }

  /** The keepers after a truthy-email user: it becomes its email's keeper
      when newer than the previous one, and the map is otherwise unchanged. */
  lemma HoldsAfterNewer(users: seq<User>, i: nat, kept: map<string, nat>)
    requires i < |users| && HoldsKeepers(users, i, kept) && HasEmail(users[i])
    requires users[i].email.value in kept
    requires users[i].creationTime > users[kept[users[i].email.value]].creationTime
    ensures HoldsKeepers(users, i + 1, kept[users[i].email.value := i])
  {
    KeeperElsewhere(users, i);
    KeeperStep(users, i, users[i].email.value);
  }

  lemma HoldsAfterOlder(users: seq<User>, i: nat, kept: map<string, nat>)
    requires i < |users| && HoldsKeepers(users, i, kept) && HasEmail(users[i])
    requires users[i].email.value in kept
    requires users[i].creationTime <= users[kept[users[i].email.value]].creationTime
    ensures HoldsKeepers(users, i + 1, kept)
  {
    KeeperElsewhere(users, i);
    KeeperStep(users, i, users[i].email.value);
  }

  lemma ScanNewerKeeper(users: seq<User>, i: nat, s: Scan)
    requires i < |users| && Scanned(users, i, s) && HasEmail(users[i])
    requires users[i].email.value in s.kept
    requires s.kept[users[i].email.value] < i
    requires users[i].creationTime > users[s.kept[users[i].email.value]].creationTime
    ensures var e := users[i].email.value;
      Scanned(users, i + 1, Scan(s.kept[e := i], s.deleted + {s.kept[e]}, s.count + 1))
  {
    var e := users[i].email.value;
    var k := s.kept[e];
    assert k !in s.deleted;
    MarksAfterNewer(users, i, s.deleted, k);
    HoldsAfterNewer(users, i, s.kept);
    assert |s.kept[e := i]| == |s.kept|;
    assert |s.deleted + {k}| == |s.deleted| + 1;
    CountWithEmailStep(users, i);
  }

  lemma ScanOlderMarked(users: seq<User>, i: nat, s: Scan)
    requires i < |users| && Scanned(users, i, s) && HasEmail(users[i])
    requires users[i].email.value in s.kept
    requires s.kept[users[i].email.value] < i
    requires users[i].creationTime <= users[s.kept[users[i].email.value]].creationTime
    ensures Scanned(users, i + 1, s.(deleted := s.deleted + {i}, count := s.count + 1))
  {
    var e := users[i].email.value;
    MarksAfterOlder(users, i, s.deleted, s.kept[e]);
    HoldsAfterOlder(users, i, s.kept);
    assert |s.deleted + {i}| == |s.deleted| + 1;
    CountWithEmailStep(users, i);
  }

  lemma ScanStepKeeps(users: seq<User>, i: nat, s: Scan)
    requires i < |users| && Scanned(users, i, s)
    ensures forall e :: e in s.kept ==> s.kept[e] < |users|
    ensures Scanned(users, i + 1, ScanStep(users, i, s))
  {
    ScannedKeepersInRange(users, i, s);
    var user := users[i];
    if !HasEmail(user) {
      ScanSkipsNoEmail(users, i, s);
    } else if user.email.value !in s.kept {
      ScanFirstOfEmail(users, i, s);
    } else if user.creationTime > users[s.kept[user.email.value]].creationTime {
      ScanNewerKeeper(users, i, s);
    } else {
      ScanOlderMarked(users, i, s);
    }
  }

  /** A finished scan: its keys are the distinct truthy emails, and a user
      with a truthy email is marked exactly when it is not the newest. */
  lemma ScanFinished(users: seq<User>, s: Scan)
    requires Scanned(users, |users|, s)
    ensures s.kept.Keys == Emails(users)
    ensures s.count == CountWithEmail(users) - |Emails(users)|
    ensures forall j :: 0 <= j < |users| && HasEmail(users[j]) ==> (j in s.deleted <==> !IsNewest(users, j))
  {
    assert users[..|users|] == users;
    forall e ensures e in s.kept.Keys <==> e in Emails(users) {
      KeeperIsNewest(users, e);
      if e in Emails(users) {
        var j :| 0 <= j < |users| && HasEmail(users[j]) && users[j].email.value == e;
        assert users[j].email == Some(e);
      }
    }
    forall j | 0 <= j < |users| && HasEmail(users[j]) ensures j in s.deleted <==> !IsNewest(users, j) {
      var e := users[j].email.value;
      KeeperIsNewest(users, e);
      var k := Keeper(users, e).value;
      if IsNewest(users, j) {
        NewestIsUnique(users, j, k);
      }
    }
  }

  /** `cleanupDuplicateUsers`: the positions of the users it deletes and
      their number. Of the users with a truthy email, all but the newest of
      each email go; users without one are never touched; afterwards no two
      remaining users share an email. */
  method CleanupDuplicateUsers(users: seq<User>) returns (deleted: set<nat>, deletedCount: nat)
    ensures forall j :: j in deleted ==> j < |users| && HasEmail(users[j])
    ensures forall j :: 0 <= j < |users| && HasEmail(users[j]) ==> (j in deleted <==> !IsNewest(users, j))
    ensures forall a, b :: 0 <= a < b < |users| && a !in deleted && b !in deleted && HasEmail(users[a]) ==>
      users[a].email != users[b].email
    ensures deletedCount == |deleted|
    ensures deletedCount == CountWithEmail(users) - |Emails(users)|
  {
    var s := Scan(map[], {}, 0);
    for i := 0 to |users|
      invariant Scanned(users, i, s)
    {
      ScanStepKeeps(users, i, s);
      s := ScanStep(users, i, s);
    }
    ScanFinished(users, s);
    deleted, deletedCount := s.deleted, s.count;
    forall a, b | 0 <= a < b < |users| && a !in deleted && b !in deleted && HasEmail(users[a])
      ensures users[a].email != users[b].email
    {
      if users[a].email == users[b].email {
        NewestIsUnique(users, a, b);
      }
    }
  }
}

=== FILE: page_view.dfy ===
/** One board's own rules (src/components/TimetablePage.tsx): the file name
    of the image export and the settings button that toggles selection. */
module PageView {
  import opened Wrappers
  import opened Strings
  import opened Board

  /** The characters `/[a-z0-9]/i` matches: ASCII letters and digits. */
  predicate IsAsciiAlnum(c: char) {
    ('a' <= c <= 'z') || ('A' <= c <= 'Z') || ('0' <= c <= '9')
  }

  /** The characters a sanitised name is made of. */
  predicate IsSafeChar(c: char) {
    ('a' <= c <= 'z') || ('0' <= c <= '9') || c == '_'
  }

  /** The code units `/[a-z0-9]/i` matches: ASCII letters and digits. */
  predicate IsAlnumUnit(u: int) {
    (0x30 <= u <= 0x39) || (0x41 <= u <= 0x5A) || (0x61 <= u <= 0x7A)
  }

  /** What the replacement and `toLowerCase` make of one code unit. */
  function SafeUnit(u: int): char {
    if 0x41 <= u <= 0x5A then (u + 0x20) as char
    else if IsAlnumUnit(u) then u as char
    else '_'
  }

  /** `stopName.replace(/[^a-z0-9]/gi, '_').toLowerCase()`. The expression
      has no `u` flag, so it replaces code units: the result has as many
      characters as the name has code units, all of them lower-case ASCII
      letters, digits or underscores, and a character above U+FFFF becomes
      two underscores. In a name without surrogate pairs, position `i` keeps
      the letter or digit at `i`, lower-cased, and holds an underscore
      exactly when the name has something else there. */
  function SafeStopName(stopName: string): (r: string)
    ensures |r| == Utf16Length(stopName)
    ensures forall i :: 0 <= i < |r| ==> IsSafeChar(r[i])
    ensures IsBmp(stopName) ==> forall i :: 0 <= i < |r| ==>
      (IsAsciiAlnum(stopName[i]) <==> r[i] != '_') && (IsAsciiAlnum(stopName[i]) ==> r[i] == LowerChar(stopName[i]))
  {
    var units := Utf16(stopName);
    seq(|units|, i requires 0 <= i < |units| => SafeUnit(units[i]))
  }

  /** The code units of two strings put together. */
  lemma {:induction false} Utf16Append(a: string, b: string)
    ensures Utf16(a + b) == Utf16(a) + Utf16(b)
    decreases |a|
  {
    if |a| == 0 {
      assert a + b == b;
    } else {
      assert (a + b)[0] == a[0] && (a + b)[1..] == a[1..] + b;
      Utf16Unfold(a + b);
      Utf16Unfold(a);
      Utf16Append(a[1..], b);
    }
  }

  /** Sanitising works code unit by code unit: the pieces of a name are
      sanitised independently. */
  lemma SafeStopNameAppend(a: string, b: string)
    ensures SafeStopName(a + b) == SafeStopName(a) + SafeStopName(b)
  {
    Utf16Append(a, b);
  }

  /** A bus emoji, one character above U+FFFF, becomes two underscores. */
  lemma EmojiBecomesTwoUnderscores()
    ensures SafeStopName("\U{1F68C}") == "__"
  {
    assert Utf16("\U{1F68C}") == [0xD83D, 0xDE8C];
  }

  lemma BusPrefixName()
    ensures SafeStopName("Bus ") == "bus_"
  {
    var front := SafeStopName("Bus ");
    assert front[0] == 'b' && front[1] == 'u' && front[2] == 's' && front[3] == '_';
  }

  /** The emoji after a plain name still gives two underscores. */
  lemma EmojiStopName()
    ensures SafeStopName("Bus \U{1F68C}") == "bus___"
  {
    EmojiBecomesTwoUnderscores();
    BusPrefixName();
    assert "Bus \U{1F68C}" == "Bus " + "\U{1F68C}";
    SafeStopNameAppend("Bus ", "\U{1F68C}");
    assert "bus_" + "__" == "bus___";
  }

  /** Sanitising a sanitised name changes nothing. */
  lemma SafeStopNameIdempotent(stopName: string)
    ensures SafeStopName(SafeStopName(stopName)) == SafeStopName(stopName)
  {
    var s := SafeStopName(stopName);
    var t := SafeStopName(s);
    assert IsBmp(s) by {
      forall i | 0 <= i < |s| ensures s[i] as int <= 0xFFFF {
        assert IsSafeChar(s[i]);
      }
    }
    forall i | 0 <= i < |s| ensures t[i] == s[i] {
      if s[i] != '_' {
        assert IsAsciiAlnum(s[i]);
      }
    }
  }

  const ExportPrefix := "timetable-"
  const ExportSuffix := ".png"
  const ExportFallback := "export"

  /** The export's `link.download`: the sanitised name between the prefix
      and the suffix, "export" standing in exactly when that name is empty,
      that is when the stop name is. */
  function DownloadName(stopName: string): (r: string)
    ensures |r| == |ExportPrefix| + (if stopName == "" then |ExportFallback| else Utf16Length(stopName)) + |ExportSuffix|
    ensures stopName == "" ==> r == ExportPrefix + ExportFallback + ExportSuffix
    ensures stopName != "" ==> r == ExportPrefix + SafeStopName(stopName) + ExportSuffix
  {
    var safe := SafeStopName(stopName);
    ExportPrefix + (if safe == "" then ExportFallback else safe) + ExportSuffix
  }

  /** A non-empty stop name's download name contains the prefix followed
      by the sanitised name. */
  lemma DownloadNameShowsSafeName(stopName: string, safe: string)
    requires stopName != "" && SafeStopName(stopName) == safe
    ensures Contains(DownloadName(stopName), ExportPrefix + safe)
  {
    var r := DownloadName(stopName);
    var head := ExportPrefix + safe;
    assert r == head + ExportSuffix;
    assert r[..|head|] == head;
    assert OccursAt(r, head, 0);
  }

  lemma TestStopSafeName()
    ensures SafeStopName("Test Stop") == "test_stop"
  {
    var safe := SafeStopName("Test Stop");
    assert |safe| == 9;
    assert safe[0] == 't' && safe[1] == 'e' && safe[2] == 's' && safe[3] == 't';
    assert safe[4] == '_';
    assert safe[5] == 's' && safe[6] == 't' && safe[7] == 'o' && safe[8] == 'p';
  }

  /** A stop called "Test Stop" is exported under a name containing
      "timetable-test_stop". */
  lemma TestStopDownloadName()
    ensures Contains(DownloadName("Test Stop"), "timetable-test_stop")
  {
    TestStopSafeName();
    DownloadNameShowsSafeName("Test Stop", "test_stop");
    assert ExportPrefix + "test_stop" == "timetable-test_stop";
  }

  /** The settings button: selects this board, or deselects it when it is
      the selected one. */
  function ToggleSelection(s: BoardState, id: string): (r: BoardState)
    ensures r.selected == Some(id) <==> s.selected != Some(id)
    ensures r.selected.None? <==> s.selected == Some(id)
    ensures r.(selected := s.selected) == s
  {
    RunOne(s, SelectA(if s.selected == Some(id) then None else Some(id)));
    Run(s, [SelectA(if s.selected == Some(id) then None else Some(id))])
  }

  /** Pressing the button twice on a selected board gives the selection
      back. */
  lemma ToggleTwice(s: BoardState, id: string)
    requires s.selected == Some(id)
    ensures ToggleSelection(ToggleSelection(s, id), id) == s
  {
  }
}

=== FILE: store.dfy ===
/** The backend's tables (the convex directory) as one immutable value: users in
    creation order, projects and timetables keyed by id, and the next fresh
    id. The caller's identity, the lookups the handlers share and their
    errors live here too. */
module Backend {
  import opened Wrappers
  import opened Strings
  import opened Domain

  type Id = nat

  /** A user document. Older documents may lack any of the optional
      fields; `creationTime` is the system `_creationTime`. */
  datatype User = User(id: Id, token: Option<string>, email: Option<string>, name: Option<string>,
                       avatarUrl: Option<string>, isPremium: bool, creationTime: int)

  datatype Project = Project(name: string, userId: Id, createdAt: int)

  /** A timetable document; `theme` is whatever string the client sent. */
  datatype Timetable = Timetable(projectId: Id, stopName: string, stopId: string, theme: string,
                                 data: seq<Departure>, createdAt: int)

  datatype Store = Store(users: seq<User>, projects: map<Id, Project>,
                         timetables: map<Id, Timetable>, nextId: Id)

  /** The authenticated caller as the auth provider describes them. */
  datatype Identity = Identity(token: string, email: Option<string>, name: Option<string>,
                               pictureUrl: Option<string>)

  /** The errors the handlers throw, one per message. */
  datatype Error =
    | NotAuthenticated            // "Not authenticated"
    | UserNotFound                // "User not found"
    | ProjectNotFoundOrNotAuthorized
    | ProjectNotFound             // "Project not found"
    | TimetableNotFound           // "Timetable not found"
    | NotAuthorized               // "Not authorized"
    | TimetableLimitReached       // "You can only create three timetables per project"
    | ProjectLimitReached         // "Free accounts can only create one project. ..."
    | WriteInQuery                // a query calling `ctx.db.patch`, which its reader lacks

  /** A mutation's result: the store it leaves and the value it returns. */
  datatype Reply<T> = Reply(store: Store, value: T)

  /** Ids are unique and every id in use is below `nextId`, so an insert at
      `nextId` never overwrites. */
  ghost predicate WellFormed(st: Store) {
    && (forall i, j :: 0 <= i < j < |st.users| ==> st.users[i].id != st.users[j].id)
    && (forall i :: 0 <= i < |st.users| ==> st.users[i].id < st.nextId)
    && (forall k :: k in st.projects ==> k < st.nextId)
    && (forall k :: k in st.timetables ==> k < st.nextId)
  }

  /** `.withIndex("by_token_identifier", q => q.eq(..., token)).first()`:
      the earliest created user holding that token. */
  function UserByToken(users: seq<User>, token: string): (r: Option<nat>)
    ensures r.Some? ==> r.value < |users| && users[r.value].token == Some(token)
    ensures r.Some? ==> forall j :: 0 <= j < r.value ==> users[j].token != Some(token)
    ensures r.None? <==> forall j :: 0 <= j < |users| ==> users[j].token != Some(token)
    decreases |users|
  {
    if |users| == 0 then None
    else if users[0].token == Some(token) then Some(0)
    else
      match UserByToken(users[1..], token)
      case None => None
      case Some(k) => Some(k + 1)
  }

  /** `.withIndex("by_email", q => q.eq("email", email)).first()`: the
      earliest created user whose email field equals `email`; an absent
      email matches the users that have none. */
  function UserByEmail(users: seq<User>, email: Option<string>): (r: Option<nat>)
    ensures r.Some? ==> r.value < |users| && users[r.value].email == email
    ensures r.Some? ==> forall j :: 0 <= j < r.value ==> users[j].email != email
    ensures r.None? <==> forall j :: 0 <= j < |users| ==> users[j].email != email
    decreases |users|
  {
    if |users| == 0 then None
    else if users[0].email == email then Some(0)
    else
      match UserByEmail(users[1..], email)
      case None => None
      case Some(k) => Some(k + 1)
  }

  /** The `by_project` index: the timetables of one project. */
  function TimetablesOf(st: Store, projectId: Id): (r: map<Id, Timetable>)
    ensures forall k :: k in r <==> k in st.timetables && st.timetables[k].projectId == projectId
    ensures forall k :: k in r ==> r[k] == st.timetables[k]
  {
    map k | k in st.timetables && st.timetables[k].projectId == projectId :: st.timetables[k]
  }

  /** The `by_user` index: the projects of one user. */
  function ProjectsOf(st: Store, userId: Id): (r: map<Id, Project>)
    ensures forall k :: k in r <==> k in st.projects && st.projects[k].userId == userId
    ensures forall k :: k in r ==> r[k] == st.projects[k]
  {
    map k | k in st.projects && st.projects[k].userId == userId :: st.projects[k]
  }

  /** The project exists and belongs to the user. */
  predicate Owns(st: Store, user: User, projectId: Id) {
    projectId in st.projects && st.projects[projectId].userId == user.id
  }
}

=== FILE: strings.dfy ===
/** The string operations the source borrows from JavaScript: truthiness,
    `trim`, ASCII `toLowerCase`, `includes`, and the relational operators on
    strings, which compare code units lexicographically. */
module Strings {
  import opened Wrappers

  /** JavaScript truthiness of a `string | undefined`: present and not "". */
  predicate NonEmpty(o: Option<string>) {
    o.Some? && o.value != ""
  }

  /** `a || b` on two optional strings: the first one when it is truthy. */
  function OrElse(a: Option<string>, b: Option<string>): (r: Option<string>)
    ensures NonEmpty(a) ==> r == a
    ensures !NonEmpty(a) ==> r == b
  {
    if NonEmpty(a) then a else b
  }

  /** The characters `String.prototype.trim` strips: the WhiteSpace and
      LineTerminator productions of ECMAScript. */
  predicate IsWhitespace(c: char) {
    || c == ' ' || c == '\t' || c == '\n' || c == '\r'
    || c == '\U{000B}' || c == '\U{000C}' || c == '\U{00A0}' || c == '\U{1680}'
    || ('\U{2000}' <= c <= '\U{200A}')
    || c == '\U{2028}' || c == '\U{2029}' || c == '\U{202F}' || c == '\U{205F}'
    || c == '\U{3000}' || c == '\U{FEFF}'
  }

  ghost predicate AllWhitespace(s: string) {
    forall i :: 0 <= i < |s| ==> IsWhitespace(s[i])
  }

  /** The first index at or after `i` that is not whitespace, or `|s|`. */
  function SkipLeading(s: string, i: nat): (n: nat)
    requires i <= |s|
    ensures i <= n <= |s|
    ensures forall j :: i <= j < n ==> IsWhitespace(s[j])
    ensures n < |s| ==> !IsWhitespace(s[n])
    decreases |s| - i
  {
    if i < |s| && IsWhitespace(s[i]) then SkipLeading(s, i + 1) else i
  }

  /** The end of `s[lo..hi]` once trailing whitespace is dropped. */
  function SkipTrailing(s: string, lo: nat, hi: nat): (n: nat)
    requires lo <= hi <= |s|
    ensures lo <= n <= hi
    ensures forall j :: n <= j < hi ==> IsWhitespace(s[j])
    ensures n > lo ==> !IsWhitespace(s[n - 1])
    decreases hi
  {
    if hi > lo && IsWhitespace(s[hi - 1]) then SkipTrailing(s, lo, hi - 1) else hi
  }

  /** `r` sits in `s` at offset `i` with only whitespace before and after. */
  ghost predicate StrippedAt(s: string, r: string, i: nat) {
    OccursAt(s, r, i) && AllWhitespace(s[..i]) && AllWhitespace(s[i + |r|..])
  }

  /** `s.trim()`: the slice of `s` left after stripping whitespace at both
      ends; it is empty exactly when `s` is all whitespace. */
  function Trim(s: string): (r: string)
    ensures exists i: nat :: StrippedAt(s, r, i)
    ensures r == "" <==> AllWhitespace(s)
    ensures |r| > 0 ==> !IsWhitespace(r[0]) && !IsWhitespace(r[|r| - 1])
  {
    var a := SkipLeading(s, 0);
    var b := SkipTrailing(s, a, |s|);
    assert AllWhitespace(s[..a]);
    assert AllWhitespace(s[b..]);
    assert StrippedAt(s, s[a..b], a);
    assert a < b ==> !AllWhitespace(s) by {
      if a < b {
        assert !IsWhitespace(s[a]);
      }
    }
    s[a..b]
  }

  /** `toLowerCase` restricted to ASCII letters. */
  function LowerChar(c: char): char {
    if 'A' <= c <= 'Z' then (c as int + 32) as char else c
  }

  function Lower(s: string): (r: string)
    ensures |r| == |s|
    ensures forall i :: 0 <= i < |s| ==> r[i] == LowerChar(s[i])
  {
    seq(|s|, i requires 0 <= i < |s| => LowerChar(s[i]))
  }

  /** `sub` appears in `s` starting at offset `i`. */
  predicate OccursAt(s: string, sub: string, i: nat) {
    i + |sub| <= |s| && s[i..i + |sub|] == sub
  }

  /** `s.includes(sub)`. */
  predicate Contains(s: string, sub: string) {
    exists i: nat | i <= |s| :: OccursAt(s, sub, i)
  }

  /** Every character lies in the Basic Multilingual Plane, so it is one
      UTF-16 code unit. */
  predicate IsBmp(s: string) {
    forall i :: 0 <= i < |s| ==> s[i] as int <= 0xFFFF
  }

  /** A character's UTF-16 code units: the character itself in the Basic
      Multilingual Plane, otherwise a high and a low surrogate. */
  function CodeUnits(c: char): (u: seq<int>)
    ensures |u| == if c as int <= 0xFFFF then 1 else 2
    ensures c as int <= 0xFFFF ==> u[0] == c as int
    ensures c as int > 0xFFFF ==> 0xD800 <= u[0] < 0xDC00 && 0xDC00 <= u[1] < 0xE000
  {
    if c as int <= 0xFFFF then [c as int]
    else
      var v := c as int - 0x10000;
      [0xD800 + v / 0x400, 0xDC00 + v % 0x400]
  }

  /** A string as JavaScript stores it: its UTF-16 code units. Without
      surrogate pairs these are the characters themselves; otherwise each
      character contributes its own units. */
  function Utf16(s: string): (u: seq<int>)
    ensures |s| <= |u| <= 2 * |s|
    ensures IsBmp(s) ==> |u| == |s| && forall i :: 0 <= i < |s| ==> u[i] == s[i] as int
    decreases |s|
  {
    if IsBmp(s) then seq(|s|, i requires 0 <= i < |s| => s[i] as int)
    else CodeUnits(s[0]) + Utf16(s[1..])
  }

  /** Every string's code units are its first character's followed by the
      rest's. */
  lemma Utf16Unfold(s: string)
    requires |s| > 0
    ensures Utf16(s) == CodeUnits(s[0]) + Utf16(s[1..])
  {
    if IsBmp(s) {
      assert IsBmp(s[1..]) by {
        forall i | 0 <= i < |s[1..]| ensures s[1..][i] as int <= 0xFFFF {
          assert s[1..][i] == s[i + 1];
        }
      }
      assert Utf16(s)[1..] == Utf16(s[1..]) by {
        forall i | 0 <= i < |s| - 1 ensures Utf16(s)[1..][i] == Utf16(s[1..])[i] {
          assert s[1..][i] == s[i + 1];
        }
      }
      assert Utf16(s) == [Utf16(s)[0]] + Utf16(s)[1..];
    }
  }

  /** The code units are as many as the characters exactly when no
      character needs a surrogate pair. */
  lemma Utf16OfBmp(s: string)
    ensures |Utf16(s)| == |s| <==> IsBmp(s)
  {
    if !IsBmp(s) {
      var k :| 0 <= k < |s| && s[k] as int > 0xFFFF;
      Utf16LongerPast(s, k);
    }
  }

  lemma {:induction false} Utf16LongerPast(s: string, k: nat)
    requires k < |s| && s[k] as int > 0xFFFF
    ensures |Utf16(s)| > |s|
    decreases k
  {
    Utf16Unfold(s);
    if k > 0 {
      assert s[1..][k - 1] == s[k];
      Utf16LongerPast(s[1..], k - 1);
    }
  }

  /** `s.length`: the number of UTF-16 code units. */
  function Utf16Length(s: string): (n: nat)
    ensures |s| <= n <= 2 * |s|
    ensures n == |s| <==> IsBmp(s)
    ensures n == 0 <==> s == ""
  {
    Utf16OfBmp(s);
    |Utf16(s)|
  }

  /** Lexicographic order on code unit sequences, a proper prefix first. */
  predicate UnitsLess(a: seq<int>, b: seq<int>)
    decreases |a|
  {
    if |a| == 0 then |b| > 0
    else if |b| == 0 then false
    else if a[0] != b[0] then a[0] < b[0]
    else UnitsLess(a[1..], b[1..])
  }

  /** Whether the code units of `x` sort before those of `y`. Within a plane
      this is code-point order; a character above U+FFFF starts with a high
      surrogate (U+D800 to U+DBFF), so it sorts after U+0000 to U+D7FF and
      before U+E000 to U+FFFF. */
  predicate UnitBefore(x: char, y: char) {
    if (x as int <= 0xFFFF) == (y as int <= 0xFFFF) then x < y
    else if x as int <= 0xFFFF then x as int < 0xD800
    else 0xE000 <= y as int
  }

  /** `a < b` on JavaScript strings: decided by the first characters that
      differ, compared by code unit, with a proper prefix sorting first.
      `LessIsCodeUnitOrder` shows this is the code-unit order itself. */
  predicate Less(a: string, b: string): (r: bool)
    ensures r ==> a != b
    ensures a < b ==> r
    ensures b <= a ==> !r
    decreases |a|
  {
    if |a| == 0 then |b| > 0
    else if |b| == 0 then false
    else if a[0] != b[0] then UnitBefore(a[0], b[0])
    else Less(a[1..], b[1..])
  }

  lemma {:induction false} UnitsLessSharedHead(h: seq<int>, x: seq<int>, y: seq<int>)
    ensures UnitsLess(h + x, h + y) == UnitsLess(x, y)
    decreases |h|
  {
    if |h| > 0 {
      assert (h + x)[1..] == h[1..] + x;
      assert (h + y)[1..] == h[1..] + y;
      UnitsLessSharedHead(h[1..], x, y);
    } else {
      assert h + x == x && h + y == y;
    }
  }

  /** Surrogate pairs keep the order of the characters they encode. */
  lemma AstralUnitsOrdered(x: char, y: char)
    requires x as int > 0xFFFF && y as int > 0xFFFF && x != y
    ensures CodeUnits(x)[0] != CodeUnits(y)[0] ==> (CodeUnits(x)[0] < CodeUnits(y)[0] <==> x < y)
    ensures CodeUnits(x)[0] == CodeUnits(y)[0] ==>
      CodeUnits(x)[1] != CodeUnits(y)[1] && (CodeUnits(x)[1] < CodeUnits(y)[1] <==> x < y)
  {
    var v := x as int - 0x10000;
    var w := y as int - 0x10000;
    assert v == 0x400 * (v / 0x400) + v % 0x400;
    assert w == 0x400 * (w / 0x400) + w % 0x400;
  }

  /** Two different characters are told apart within their own code units,
      whatever follows them. */
  lemma UnitBeforeDecides(x: char, y: char, xs: seq<int>, ys: seq<int>)
    requires x != y
    ensures UnitsLess(CodeUnits(x) + xs, CodeUnits(y) + ys) == UnitBefore(x, y)
  {
    var u, w := CodeUnits(x) + xs, CodeUnits(y) + ys;
    if x as int > 0xFFFF && y as int > 0xFFFF {
      AstralUnitsOrdered(x, y);
      if u[0] == w[0] {
        assert u[1..][0] == u[1] && w[1..][0] == w[1];
      }
    }
  }

  /** `Less` is the lexicographic order of the strings' UTF-16 code units,
      which is what JavaScript's `<` compares. */
  lemma {:induction false} LessIsCodeUnitOrder(a: string, b: string)
    ensures Less(a, b) == UnitsLess(Utf16(a), Utf16(b))
    decreases |a|
  {
    if |a| > 0 && |b| > 0 {
      Utf16Unfold(a);
      Utf16Unfold(b);
      if a[0] != b[0] {
        UnitBeforeDecides(a[0], b[0], Utf16(a[1..]), Utf16(b[1..]));
      } else {
        UnitsLessSharedHead(CodeUnits(a[0]), Utf16(a[1..]), Utf16(b[1..]));
        LessIsCodeUnitOrder(a[1..], b[1..]);
      }
    }
  }

  /** A character above U+FFFF sorts before U+FFFD, although its code point
      is larger. */
  lemma AstralBeforeReplacementChar()
    ensures Less("\U{1F68C}", "\U{FFFD}") && '\U{FFFD}' < '\U{1F68C}'
  {
  }

  /** `a >= b` on JavaScript strings. */
  predicate AtOrAfter(a: string, b: string): (r: bool)
    ensures r <==> a == b || Less(b, a)
  {
    LessTotal(a, b);
    LessAsymmetric(b, a);
    !Less(a, b)
  }

  lemma {:induction false} LessIrreflexive(a: string)
    ensures !Less(a, a)
    decreases |a|
  {
    if |a| > 0 {
      LessIrreflexive(a[1..]);
    }
  }

  lemma {:induction false} LessTransitive(a: string, b: string, c: string)
    requires Less(a, b) && Less(b, c)
    ensures Less(a, c)
    decreases |a|
  {
    if |a| > 0 && a[0] == b[0] && b[0] == c[0] {
      LessTransitive(a[1..], b[1..], c[1..]);
    }
  }

  /** Two strings are never each before the other. */
  lemma {:induction false} LessAsymmetric(a: string, b: string)
    ensures Less(a, b) ==> !Less(b, a)
    decreases |a|
  {
    if |a| > 0 && |b| > 0 && a[0] == b[0] {
      LessAsymmetric(a[1..], b[1..]);
    }
  }

  /** Any two distinct strings are ordered one way or the other, so
      `AtOrAfter` is the reflexive closure of the reverse of `Less`. */
  lemma {:induction false} LessTotal(a: string, b: string)
    ensures a == b || Less(a, b) || Less(b, a)
    decreases |a|
  {
    if |a| > 0 && |b| > 0 && a[0] == b[0] {
      LessTotal(a[1..], b[1..]);
      if a[1..] == b[1..] {
        assert a == [a[0]] + a[1..] && b == [b[0]] + b[1..];
      }
    }
  }
}

=== FILE: toolbar.dfy ===
/** The toolbar's handlers (src/components/Toolbar.tsx): stop search and
    selection, bus-filter entry and direction choice, the time floor, the
    refresh of the selected board and the "new timetable" button. Each
    handler is one transition of the board state and the toolbar's own
    fields; the replies of the services it awaits are parameters. */
module Toolbar {
  import opened Wrappers
  import opened Strings
  import opened Domain
  import opened Derivation
  import opened Board
  import opened Api

  /** The toolbar's own component state. */
  datatype Ui = Ui(
    searchInput: string,
    suggestions: seq<Suggestion>,
    showSuggestions: bool,
    busInput: string,
    timeInput: string,
    editingFilter: Option<string>,
    canAdd: bool)                    // `userCanAddTimetable`

  const InitialUi := Ui("", [], false, "", "", None, true)

  /** The pair a handler leaves behind. */
  datatype Outcome = Outcome(board: BoardState, ui: Ui)

  /** The most timetables a project may hold in the toolbar's view. */
  const PageLimit: nat := 3

  /** `checkTimetableLimit`, run while inside a project: once the
      permissions reply arrives the flag says whether fewer than three
      boards exist; the premium status it carries plays no part. A failed
      request leaves the flag as it was. */
  function CheckTimetableLimit(canAdd: bool, pageCount: nat, permissions: Result<bool, string>): (r: bool)
    ensures permissions.Success? ==> (!r <==> pageCount >= PageLimit)
    ensures permissions.Failure? ==> r == canAdd
  {
    match permissions
    case Failure(_) => canAdd
    case Success(_) => pageCount < PageLimit
  }

  /** The limit effect runs only inside a project. */
  function LimitEffect(ui: Ui, projectId: Option<string>, s: BoardState,
                       permissions: Result<bool, string>): (r: Ui)
    ensures !NonEmpty(projectId) ==> r == ui
    ensures NonEmpty(projectId) && permissions.Success? ==> (r.canAdd <==> |s.pages| < PageLimit)
    ensures r.(canAdd := ui.canAdd) == ui
  {
    if NonEmpty(projectId) then ui.(canAdd := CheckTimetableLimit(ui.canAdd, |s.pages|, permissions))
    else ui
  }

  /** `handleSearchChange`: the input always follows the keystrokes; more
      than two code units fetch and show suggestions, anything shorter
      clears and hides them. The reply is that of `searchStops`. */
  function SearchChange(ui: Ui, value: string, reply: Result<Option<seq<Suggestion>>, string>): (r: Ui)
    ensures r.searchInput == value
    ensures Utf16Length(value) > 2 ==> r.showSuggestions && r.suggestions == SearchStops(value, reply)
    ensures Utf16Length(value) <= 2 ==> !r.showSuggestions && r.suggestions == []
    ensures r.(searchInput := ui.searchInput, suggestions := ui.suggestions,
               showSuggestions := ui.showSuggestions) == ui
  {
    if Utf16Length(value) > 2 then
      ui.(searchInput := value, suggestions := SearchStops(value, reply), showSuggestions := true)
    else
      ui.(searchInput := value, suggestions := [], showSuggestions := false)
  }

  /** `handleSearchSubmit`: the stop a submit selects, if any. */
  function SubmitChoice(ui: Ui): (r: Option<Suggestion>)
    ensures |ui.suggestions| > 0 ==> r == Some(ui.suggestions[0])
    ensures |ui.suggestions| == 0 && ui.searchInput != "" ==> r == Some(Suggestion(ui.searchInput, None))
    ensures r.None? <==> |ui.suggestions| == 0 && ui.searchInput == ""
  {
    if |ui.suggestions| > 0 then Some(ui.suggestions[0])
    else if ui.searchInput != "" then Some(Suggestion(ui.searchInput, None))
    else None
  }

  /** The board a stop selection writes to: the selected one when the
      selection is truthy, else the last board's id when that is truthy;
      `None` stands for the falsy target that makes a new board. */
  function StopTarget(s: BoardState): (r: Option<string>)
    ensures NonEmpty(s.selected) ==> r == s.selected
    ensures !NonEmpty(s.selected) && |s.pages| > 0 && s.pages[|s.pages| - 1].id != "" ==>
      r == Some(s.pages[|s.pages| - 1].id)
    ensures r.None? <==> !NonEmpty(s.selected) && (|s.pages| == 0 || s.pages[|s.pages| - 1].id == "")
    ensures r.Some? ==> r.value != ""
  {
    if NonEmpty(s.selected) then s.selected
    else if |s.pages| > 0 && s.pages[|s.pages| - 1].id != "" then Some(s.pages[|s.pages| - 1].id)
    else None
  }

  /** `stop.id || stop.label`: what the stationboard is asked for. */
  function QueryOf(stop: Suggestion): string {
    if NonEmpty(stop.id) then stop.id.value else stop.name
  }

  /** The rows a fetch leads to: the fetched ones, or the stop's demo
      schedule when none came back (the service turns its own failures
      into none). Never empty. */
  function RowsOrDemo(fetched: seq<Departure>, stopName: string): (r: seq<Departure>)
    ensures |fetched| > 0 ==> r == fetched
    ensures |fetched| == 0 ==> r == DemoSchedule(stopName)
    ensures |r| > 0
  {
    if |fetched| == 0 then DemoSchedule(stopName) else fetched
  }

  /** The patch a stop selection writes: the stop's name and id, and rows. */
  function StopPatch(stop: Suggestion, rows: seq<Departure>): PagePatch {
    PagePatch(Some(stop.name), Some(stop.id.GetOr("")), None, Some(rows))
  }

  /** Writing rows for a stop to the target board, as one batch. */
  function WriteStop(s: BoardState, target: string, stop: Suggestion, rows: seq<Departure>): (r: BoardState)
    ensures |r.pages| == |s.pages|
    ensures forall i :: 0 <= i < |s.pages| ==>
      r.pages[i] == if s.pages[i].id == target
                    then s.pages[i].(stopName := stop.name, stopId := stop.id.GetOr(""), data := Some(rows))
                    else s.pages[i]
    ensures r.filters == s.filters && r.timeFloor == s.timeFloor && r.selected == s.selected
    ensures r.searchTerm == s.searchTerm
    ensures target in r.derived
    ensures UniqueIds(s.pages) && HasPage(s.pages, target) ==>
      r.derived[target] == Some(Derive(rows, s.filters, s.timeFloor))
    ensures !HasPage(s.pages, target) ==> r.derived[target] == Some(rows)
    ensures UniqueIds(s.pages) ==> UniqueIds(r.pages)
    ensures HasPage(s.pages, target) ==> HasPage(r.pages, target)
  {
    UpdateWithRowsRun(s, target, StopPatch(stop, rows));
    UpdatePageKeepsIds(s, target, StopPatch(stop, rows));
    Run(s, [UpdatePageA(target, StopPatch(stop, rows)), SetRowsA(target, rows)])
  }

  /** The rows a stop selection leaves on an existing target: the fetched
      rows or the demo schedule, and the demo schedule when a save inside a
      project failed. */
  function ShownRows(stop: Suggestion, projectId: Option<string>, reply: Result<seq<Connection>, string>,
                     saved: Result<(), string>): (r: seq<Departure>)
    ensures NonEmpty(projectId) && saved.Failure? ==> r == DemoSchedule(stop.name)
    ensures !(NonEmpty(projectId) && saved.Failure?) ==>
      r == RowsOrDemo(FetchStationboard(QueryOf(stop), reply), stop.name)
    ensures |r| > 0
  {
    if NonEmpty(projectId) && saved.Failure? then DemoSchedule(stop.name)
    else RowsOrDemo(FetchStationboard(QueryOf(stop), reply), stop.name)
  }

  /** The fetch path of a stop selection: write the fetched rows, then,
      when the save inside a project fails, the demo schedule over them. */
  function SelectIntoTarget(s: BoardState, target: string, stop: Suggestion, projectId: Option<string>,
                            reply: Result<seq<Connection>, string>, saved: Result<(), string>): (r: BoardState)
    ensures var shown := ShownRows(stop, projectId, reply, saved);
      && |r.pages| == |s.pages|
      && (forall i :: 0 <= i < |s.pages| ==>
            r.pages[i] == if s.pages[i].id == target
              then s.pages[i].(stopName := stop.name, stopId := stop.id.GetOr(""), data := Some(shown))
              else s.pages[i])
      && target in r.derived
      && (UniqueIds(s.pages) && HasPage(s.pages, target) ==>
            r.derived[target] == Some(Derive(shown, s.filters, s.timeFloor)))
    ensures r.filters == s.filters && r.timeFloor == s.timeFloor && r.selected == s.selected
    ensures r.searchTerm == s.searchTerm
  {
    var s2 := WriteStop(s, target, stop, RowsOrDemo(FetchStationboard(QueryOf(stop), reply), stop.name));
    if NonEmpty(projectId) && saved.Failure? then WriteStop(s2, target, stop, DemoSchedule(stop.name))
    else s2
  }

  /** `handleStopSelection(stop)`, given the stationboard reply, the reply
      of the server save (consulted only inside a project) and a fresh id.
      Without a target a new board for the stop is made and nothing is
      fetched. Otherwise the target shows the fetched rows, or the demo
      schedule when there are none; and when the server save fails, the
      handler's catch writes the demo schedule over them. */
  function HandleStopSelection(s: BoardState, ui: Ui, stop: Suggestion, projectId: Option<string>,
                               freshId: string, reply: Result<seq<Connection>, string>,
                               saved: Result<(), string>): (r: Outcome)
    ensures r.ui == ui.(searchInput := stop.name, showSuggestions := false)
    ensures r.board.searchTerm == stop.name
    ensures r.board.filters == s.filters && r.board.timeFloor == s.timeFloor
    ensures StopTarget(s).None? ==>
      && r.board.pages == s.pages + [Page(freshId, stop.name, stop.id.GetOr(""), Color, Some([]))]
      && r.board.selected == Some(freshId)
    ensures StopTarget(s).Some? ==>
      var target := StopTarget(s).value;
      var shown := ShownRows(stop, projectId, reply, saved);
      && r.board.selected == s.selected
      && |r.board.pages| == |s.pages|
      && (forall i :: 0 <= i < |s.pages| ==>
            r.board.pages[i] == if s.pages[i].id == target
              then s.pages[i].(stopName := stop.name, stopId := stop.id.GetOr(""), data := Some(shown))
              else s.pages[i])
      && target in r.board.derived
      && (UniqueIds(s.pages) && HasPage(s.pages, target) ==>
            r.board.derived[target] == Some(Derive(shown, s.filters, s.timeFloor)))
  {
    var ui' := ui.(searchInput := stop.name, showSuggestions := false);
    RunOne(s, SetSearchTermA(stop.name));
    var s1 := Run(s, [SetSearchTermA(stop.name)]);
    match StopTarget(s)
    case None =>
      var p := Page(freshId, stop.name, stop.id.GetOr(""), Color, Some([]));
      RunOne(s1, AddPageA(Some(p), freshId));
      Outcome(Run(s1, [AddPageA(Some(p), freshId)]), ui')
    case Some(target) =>
      Outcome(SelectIntoTarget(s1, target, stop, projectId, reply, saved), ui')
  }

  /** The bus-filter "Add" button: a filter is made only when the trimmed
      input is non-empty; its number is the trimmed input and the input is
      then cleared. */
  function AddBusFilterFromInput(s: BoardState, ui: Ui, freshId: string): (r: Outcome)
    ensures Trim(ui.busInput) != "" ==>
      && r.board.filters == s.filters + [BusFilter(freshId, Trim(ui.busInput), None)]
      && r.ui == ui.(busInput := "")
    ensures AllWhitespace(ui.busInput) ==> r == Outcome(s, ui)
    ensures r.board.pages == s.pages && r.board.timeFloor == s.timeFloor
    ensures |r.board.filters| > |s.filters| ==>
      var n := r.board.filters[|s.filters|].number;
      n != "" && !IsWhitespace(n[0]) && !IsWhitespace(n[|n| - 1])
  {
    var number := Trim(ui.busInput);
    if number != "" then
      var f := BusFilter(freshId, number, None);
      AddFilterRun(s, f);
      Outcome(Run(s, [AddFilterA(f)]), ui.(busInput := ""))
    else
      Outcome(s, ui)
  }

  /** `handleBusInputKeyDown`: Enter behaves as the "Add" button; every
      other key leaves everything as it is. */
  function BusInputKeyDown(s: BoardState, ui: Ui, key: string, freshId: string): (r: Outcome)
    ensures key != "Enter" ==> r == Outcome(s, ui)
    ensures key == "Enter" ==> r == AddBusFilterFromInput(s, ui, freshId)
  {
    if key == "Enter" then AddBusFilterFromInput(s, ui, freshId) else Outcome(s, ui)
  }

  /** `handleFilterSettings`: opens the direction menu of a filter, or
      closes it when it is the one open. */
  function FilterSettings(ui: Ui, filterId: string): (r: Ui)
    ensures r.editingFilter == Some(filterId) <==> ui.editingFilter != Some(filterId)
    ensures r.editingFilter.Some? ==> r.editingFilter == Some(filterId)
    ensures r.(editingFilter := ui.editingFilter) == ui
  {
    ui.(editingFilter := if ui.editingFilter == Some(filterId) then None else Some(filterId))
  }

  /** Opening and then closing the same menu restores the closed state. */
  lemma FilterSettingsTwice(ui: Ui, filterId: string)
    requires ui.editingFilter.None?
    ensures FilterSettings(FilterSettings(ui, filterId), filterId) == ui
  {
  }

  /** The label of the first direction menu entry, which clears the
      direction. */
  const AllDirections := ""

  /** `handleDirectionSelect`: sets the direction of the filters with that
      id and closes the menu. */
  function DirectionSelect(s: BoardState, ui: Ui, filterId: string, direction: string): (r: Outcome)
    ensures r.ui == ui.(editingFilter := None)
    ensures |r.board.filters| == |s.filters|
    ensures forall i :: 0 <= i < |s.filters| ==>
      r.board.filters[i] == if s.filters[i].id == filterId
                            then s.filters[i].(direction := Some(direction)) else s.filters[i]
    ensures r.board.pages == s.pages && r.board.timeFloor == s.timeFloor
  {
    var patch := FilterPatch(None, Some(direction));
    RunOne(s, UpdateFilterA(filterId, patch));
    Outcome(Run(s, [UpdateFilterA(filterId, patch)]), ui.(editingFilter := None))
  }

  /** Choosing "All Directions" makes the chosen filters admit every
      destination of their line. */
  lemma AllDirectionsAdmitsAll(s: BoardState, ui: Ui, filterId: string, d: Departure, i: nat)
    requires i < |s.filters| && s.filters[i].id == filterId && s.filters[i].number == d.busNumber
    ensures var f := DirectionSelect(s, ui, filterId, AllDirections).board.filters[i];
      f.direction == Some("") && FilterMatches(f, d)
  {
  }

  /** `handleTimeFilterChange`: the input and the board's time floor both
      take the new value. */
  function TimeFilterChange(s: BoardState, ui: Ui, value: string): (r: Outcome)
    ensures r.ui == ui.(timeInput := value)
    ensures r.board.timeFloor == value
    ensures r.board.pages == s.pages && r.board.filters == s.filters
    ensures value != s.timeFloor && UniqueIds(s.pages) ==> Consistent(r.board)
  {
    var t := s.(timeFloor := value);
    RunOne(s, SetTimeFloorA(value));
    assert UniqueIds(s.pages) ==> Consistent(Settle(t)) by {
      if UniqueIds(s.pages) {
        SettleConsistent(t);
      }
    }
    Outcome(Run(s, [SetTimeFloorA(value)]), ui.(timeInput := value))
  }

  /** `handleUpdateFilters`: refetches the selected board's rows. Nothing
      happens without a truthy selection, a board with that id, or a stop id
      on it. Otherwise the board shows the fetched rows, or its stop's demo
      schedule when there are none. A failed server save is only reported. */
  function UpdateFilters(s: BoardState, reply: Result<seq<Connection>, string>): (r: BoardState)
    ensures !NonEmpty(s.selected) ==> r == s
    ensures NonEmpty(s.selected) && !HasPage(s.pages, s.selected.value) ==> r == s
    ensures (NonEmpty(s.selected) && FindPage(s.pages, s.selected.value).Some?
             && s.pages[FindPage(s.pages, s.selected.value).value].stopId == "") ==> r == s
    ensures NonEmpty(s.selected) && FindPage(s.pages, s.selected.value).Some? ==>
      var p := s.pages[FindPage(s.pages, s.selected.value).value];
      var rows := RowsOrDemo(FetchStationboard(p.stopId, reply), p.stopName);
      p.stopId != "" ==>
        && |r.pages| == |s.pages|
        && (forall i :: 0 <= i < |s.pages| ==>
              r.pages[i] == if s.pages[i].id == p.id then s.pages[i].(data := Some(rows)) else s.pages[i])
        && (UniqueIds(s.pages) ==> p.id in r.derived && r.derived[p.id] == Some(Derive(rows, s.filters, s.timeFloor)))
  {
    if !NonEmpty(s.selected) then s
    else match FindPage(s.pages, s.selected.value)
      case None => s
      case Some(k) =>
        var p := s.pages[k];
        if p.stopId == "" then s
        else
          var rows := RowsOrDemo(FetchStationboard(p.stopId, reply), p.stopName);
          var patch := PagePatch(None, None, None, Some(rows));
          UpdateWithRowsRun(s, p.id, patch);
          Run(s, [UpdatePageA(p.id, patch), SetRowsA(p.id, rows)])
  }

  /** The record `ProjectService.addTimetable` returns. */
  datatype SavedTimetable = SavedTimetable(id: string, stopName: string, stopId: string,
                                           theme: Theme, data: Option<seq<Departure>>)

  const DemoStopName := "Demo Stop"
  const DemoStopId := "demo"

  /** `handleNewPage`: inside a project the button is refused once the
      limit flag is down; otherwise the server's saved record (if any) is
      added, data defaulting to `[]`, and a failed save adds nothing.
      Outside a project a demo board is added. */
  function NewPage(s: BoardState, ui: Ui, projectId: Option<string>, freshId: string,
                   saved: Result<Option<SavedTimetable>, string>): (r: BoardState)
    ensures NonEmpty(projectId) && !ui.canAdd ==> r == s
    ensures NonEmpty(projectId) && (saved.Failure? || saved.value.None?) ==> r == s
    ensures NonEmpty(projectId) && ui.canAdd && saved.Success? && saved.value.Some? ==>
      var t := saved.value.value;
      && r.pages == s.pages + [Page(t.id, t.stopName, t.stopId, t.theme, Some(t.data.GetOr([])))]
      && r.selected == Some(t.id)
    ensures !NonEmpty(projectId) ==>
      && r.pages == s.pages + [Page(freshId, DemoStopName, DemoStopId, Color, Some(DemoSchedule(DemoStopName)))]
      && r.selected == Some(freshId)
    ensures r.filters == s.filters && r.timeFloor == s.timeFloor
  {
    if NonEmpty(projectId) then
      if !ui.canAdd then s
      else match saved
        case Failure(_) => s
        case Success(None) => s
        case Success(Some(t)) =>
          var p := Page(t.id, t.stopName, t.stopId, t.theme, Some(t.data.GetOr([])));
          RunOne(s, AddPageA(Some(p), freshId));
          Run(s, [AddPageA(Some(p), freshId)])
    else
      var p := Page(freshId, DemoStopName, DemoStopId, Color, Some(DemoSchedule(DemoStopName)));
      RunOne(s, AddPageA(Some(p), freshId));
      Run(s, [AddPageA(Some(p), freshId)])
  }

  /** Typing and then submitting: past two code units the suggestions are
      the server's reply (none when it failed or had no data), and a submit
      takes the first of them when there is one, otherwise the typed text
      itself. */
  lemma SubmitAfterSearch(ui: Ui, value: string, reply: Result<Option<seq<Suggestion>>, string>)
    ensures var u := SearchChange(ui, value, reply);
      && (Utf16Length(value) > 2 ==> u.suggestions == if reply.Success? then reply.value.GetOr([]) else [])
      && (Utf16Length(value) > 2 && reply.Success? && reply.value.Some? && |reply.value.value| > 0 ==>
            SubmitChoice(u) == Some(reply.value.value[0]))
      && (Utf16Length(value) > 2 && (reply.Failure? || reply.value.None?) ==>
            SubmitChoice(u) == Some(Suggestion(value, None)))
      && (Utf16Length(value) <= 2 ==> SubmitChoice(u) == if value == "" then None else Some(Suggestion(value, None)))
  {
  }

  /** Inside a project, once the permissions reply is in, a new board
      never takes the count past the limit, and whether the caller is
      premium makes no difference. */
  lemma NewPageWithinLimit(s: BoardState, ui: Ui, projectId: Option<string>, freshId: string,
                           saved: Result<Option<SavedTimetable>, string>)
    requires NonEmpty(projectId) && |s.pages| <= PageLimit
    ensures |NewPage(s, LimitEffect(ui, projectId, s, Success(false)), projectId, freshId, saved).pages| <= PageLimit
    ensures NewPage(s, LimitEffect(ui, projectId, s, Success(true)), projectId, freshId, saved)
         == NewPage(s, LimitEffect(ui, projectId, s, Success(false)), projectId, freshId, saved)
  {
  }
}

=== FILE: wrappers.dfy ===
/** Optional values and fallible results, used for JavaScript's `undefined`
    and for the exceptions the backend handlers throw. */
module Wrappers {

  /** A value that may be absent (`undefined` / `null` in the source). */
  datatype Option<T> = None | Some(value: T) {

    /** The value, or `default` when absent (the source's `x ?? default`). */
    function GetOr(default: T): T {
      match this
      case Some(v) => v
      case None => default
    }
  }

  /** Either a value or the error a handler would have thrown. */
  datatype Result<T, E> = Success(value: T) | Failure(error: E)
}
